=== FILE: README.md ===
# Clinic queue monitor — a Dafny model

This project models the core of a clinic's waiting-room monitor. The
backend reads the day's outpatient table, CO05T.DBF, which is a dBase
file. It decodes each record into a patient and watches the file for
changes. It pushes a filtered, masked and sorted list with four counters
to every connected browser over Socket.io. The browser keeps the list in
a store and narrows it by session (morning, afternoon, evening). It
renders the list as a table under a connection banner.

The modules follow the program's files:

| module | file | what it holds |
|---|---|---|
| `DbfReader` | dbf_reader.dfy | header, record slots, column layout, code tables, record parsing, the reading loop, and a dBase writer to state round trips against |
| `DateConverter` | date_converter.dfy | ROC (Minguo) dates: conversion, age, time and date formatting |
| `DbfCache` | dbf_cache.dfy | the reader's two-second cache |
| `SocketService` | socket_service.dfy | masking, the status-then-queue-number order, `processData` |
| `Statistics` | statistics.dfy | the four counters, shared by the backend and the page |
| `SocketHub` | socket_hub.dfy | connected clients, their settings, replies and broadcasts; the file-change handler of the server |
| `DbfWatcher` | dbf_watcher.dfy | start, stop and the 500 ms debounce of the file watcher |
| `SocketClient` | socket_client.dfy | the browser's listener registry, socket events and outgoing requests |
| `ClinicStore` | clinic_store.dfy | the page's store and its actions |
| `SessionFilter` | session_filter.dfy | default session by hour, one-time initialisation |
| `ConnectionView` | connection_status.dfy | the banner's decision chain |
| `PatientTable` | patient_table.dfy | cell rendering, columns, row classes |
| `AppView` | app_view.dfy | the page's filters and the wiring of client, store and backend |
| `Patients`, `JsText`, `Common` | patients.dfy, js_text.dfy, common.dfy | the patient record and list filters; `trim`, `parseInt`, `padStart` and `String(n)` as ECMAScript defines them; options and results |

Every input the program takes from its surroundings is a parameter of the
model:
- the file contents;
- today's date and the clock;
- the hour of day;
- the contents of local storage;
- the socket events.

A broadcast happens at a single instant of the injected clock. The disk
is read at most once per call, and its outcome is passed in as a
`Result`.

Four points where the behaviour is easy to misread:
- The backend passes a raw status code through unchanged, empty aside.
  The parser's own comment calls `1` in consultation
  (backend/services/dbfReader.js:182), and the table's configuration has an
  in-consultation entry keyed `I` (frontend/src/components/PatientTable.jsx:13),
  but no code maps `1` to `I`, and the model follows the code. The backend sorts `1` first, as in
  consultation. The table has no entry for `1`, so such a patient is shown
  as waiting, with no row class (`PatientTable.InConsultationShownAsWaiting`).
- Settings restored from local storage at start-up are never sent to the
  backend. The backend serves its defaults until the user changes a
  setting (`AppView.RestoredPrivacyNotSent`).
- The page registers no listener for the backend's `error` message. A
  failed read leaves the page as it was (`AppView.ServerErrorIgnored`).
- The page is rendered under `React.StrictMode` (frontend/src/main.jsx:43),
  which in a development build runs the mount effect, its cleanup, and the
  effect again. The cleanup only disconnects, so every listener ends up
  registered twice (`AppView.StrictModeRegistersTwice`). The first socket
  is not connected yet when the cleanup closes it, so that close notifies
  nobody (`AppView.Unmount`). Each callback is
  idempotent, so the store ends up the same (`AppView.StrictModeSameStore`).

## Model

| member | source | states |
|---|---|---|
| DbfReader.ReadHeader | backend/services/dbfReader.js:56-58 | the header reads succeed exactly on a buffer of at least 12 bytes, and the counts fit their 32- and 16-bit fields |
| DbfReader.HeaderRoundTrip | backend/services/dbfReader.js:56-58 | a header written little-endian at bytes 4..12 reads back as the same record count, header size and record size, whatever the other bytes hold |
| DbfReader.Slice | backend/services/dbfReader.js:83 | `Buffer.slice` clamps both ends to the buffer: the length is the overlap of the range with the buffer, and each byte is the buffer's byte at the shifted position |
| DbfReader.Slot | backend/services/dbfReader.js:82-83 | record `i` holds at most `recordSize` bytes, exactly that many when the file is long enough, never reaches past the end of the file, and its byte `k` is byte `headerSize + i * recordSize + k` of the file |
| DbfReader.Slots | backend/services/dbfReader.js:81-83 | the loop visits exactly the announced number of slots, in file order |
| DbfReader.LayoutDisjoint | backend/services/dbfReader.js:65-76 | the ten columns are pairwise disjoint, lie after the deletion flag at byte 0, and end within the first 242 bytes |
| DbfReader.Decode | backend/services/dbfReader.js:121 | decoding keeps one character per byte, in order |
| DbfReader.GetField | backend/services/dbfReader.js:117-122 | a column's text is trimmed at both ends and no longer than the column |
| DbfReader.ParseStatus | backend/services/dbfReader.js:176-189 | the status is never empty: a blank code becomes `0`, and any other code is kept trimmed and otherwise unchanged |
| DbfReader.ParseStatusIdempotent | backend/services/dbfReader.js:176-189 | normalising a status a second time changes nothing |
| DbfReader.ParseIdentity | backend/services/dbfReader.js:196-208 | the identity is always one of the three labels: self-paying exactly for a blank code, national insurance exactly for `A`, and other otherwise, `9` included |
| DbfReader.ParseSession | backend/services/dbfReader.js:215-228 | S, T and U name the morning, afternoon and evening sessions, and every other code passes through trimmed |
| DbfReader.ParseSessionInjective | backend/services/dbfReader.js:215-228 | on trimmed single-byte codes no two codes give the same session label, so the label determines the code |
| DbfReader.Columns | backend/services/dbfReader.js:117-122 | every column text of a record is trimmed |
| DbfReader.RowPatient | backend/services/dbfReader.js:124-167 | no patient exactly when the name is empty; otherwise the patient number, name, queue number, birth date, ID number and begin time are the row's texts, the complete time is the end-time column, the raw status is the status code, status, session and identity go through their tables, and the age is the birth date's; a trimmed row gives a well-formed patient |
| DbfReader.ParseRecord | backend/services/dbfReader.js:115-168 | a record gives no patient exactly when its trimmed name is empty, and otherwise a well-formed patient whose fields are the columns' texts: KCSTMR the patient number, TNAME the name, TARTIME the queue number, TBIRTHDT the birth date, TIDNO the ID number, TBEGTIME and TENDTIME the begin and complete times, TSTS the raw status, and TSTS, TSEC and LM through their tables |
| DbfReader.DecodeSlot | backend/services/dbfReader.js:86-94 | a slot contributes at most one patient: none when it is flagged deleted; when it is live, one exactly when its name column is not blank, and that one is the record's parse, well formed |
| DbfReader.DecodeSlotsAppend | backend/services/dbfReader.js:81-98 | decoding works slot by slot: the records of two runs put together are the records of each run, in order |
| DbfReader.DecodeSlotsBounds | backend/services/dbfReader.js:81-98 | a run of slots yields at most one record per slot, each well formed |
| DbfReader.DeletedSlotSkipped | backend/services/dbfReader.js:86-88 | a deleted slot contributes nothing, wherever it sits among the others |
| DbfReader.ReadSlot | backend/services/dbfReader.js:86-97 | one pass of the loop body keeps exactly what the slot contributes |
| DbfReader.ReadRecords | backend/services/dbfReader.js:78-101 | the reading loop returns the records of the slots in slot order, skipping deleted and nameless ones |
| DbfReader.ReadDbf | backend/services/dbfReader.js:50-107 | reading fails exactly when the file is missing or too short for a header; otherwise it returns the records of the slots the header announces, decoded in file order, well formed and no more than announced |
| DbfReader.EncodeRecord | backend/services/dbfReader.js:65-76 | a dBase writer lays a row out over exactly 242 bytes |
| DbfReader.DecodedColumn | backend/services/dbfReader.js:117-121 | each column of a written record decodes to the row's text padded with blanks to the column's width |
| DbfReader.FieldOfEncoded | backend/services/dbfReader.js:117-122 | each column of a written record reads back as the text that was written |
| DbfReader.ColumnsOfEncoded | backend/services/dbfReader.js:117-122 | a written record reads back as the row it was written from, all ten columns |
| DbfReader.ParseEncodedRecord | backend/services/dbfReader.js:115-168 | a record written from a row parses to that row's patient: none exactly when the name is empty, and otherwise a patient whose fields hold the row's texts, with the three codes through their tables |
| DbfReader.DeletedRecordSkipped | backend/services/dbfReader.js:86-88 | a record written with the deletion flag never reaches the output, whatever it holds |
| DbfReader.LiveRecordKept | backend/services/dbfReader.js:86-94 | a record written without the deletion flag contributes its row's patient when the row is named, and nothing when it is not |
| DbfReader.WrittenSlot | backend/services/dbfReader.js:82-83 | in a file whose records start at the header size, slot `i` is exactly the record written for entry `i` |
| DbfReader.DecodeWritten | backend/services/dbfReader.js:81-98 | decoding the records of a written table gives the patients of its named, undeleted rows, in table order |
| DbfReader.ReadWrittenTable | backend/services/dbfReader.js:50-107 | a file written as a header announcing the entries followed by their 242-byte records reads back as the patients of the named, undeleted rows, in table order |
| DateConverter.DaysInMonth | backend/utils/dateConverter.js:37-46 | a month has 28 to 31 days, and February has 29 exactly in a Gregorian leap year |
| DateConverter.RocToAd | backend/utils/dateConverter.js:12-49 | conversion succeeds exactly when the trimmed text has seven characters, its year, month and day parse as numbers, and they form a real calendar date; the result is that date with 1911 added to the year |
| DateConverter.CalculateAge | backend/utils/dateConverter.js:56-90 | no age for a blank or all-zero birth date or one that does not convert; a given age lies in 0..150 and is the number of completed years: that anniversary has been reached today and the next one has not |
| DateConverter.AgeIsCompletedYears | backend/utils/dateConverter.js:66-85 | conversely, every count of completed years from 0 to 150 is the age returned |
| DateConverter.AgeExample | backend/utils/dateConverter.js:71-77 | someone born on 1 January of ROC year 65 is 49 on 1 June 2025 |
| DateConverter.FormatTime | backend/utils/dateConverter.js:97-119 | a time is shown exactly when the trimmed text has six characters whose first two read as an hour 0..23 and next two as a minute 0..59; it is then shown as HH:MM |
| DateConverter.FormatTimeOfClock | backend/utils/dateConverter.js:97-119 | every zero-padded clock reading HHMMSS is shown as its HH:MM |
| DateConverter.GetTodayRoc | backend/utils/dateConverter.js:125-132 | today's ROC text has at least seven characters; for ROC years 0..999 it has exactly seven and `rocToAd` converts it back to today's date, or reports a day that does not exist |
| DateConverter.RocTextRoundTrip | backend/utils/dateConverter.js:12-49 | a zero-padded ROC text converts to its date exactly when that date is real, and fails as an invalid date otherwise |
| DateConverter.RocFieldsOfDigits | backend/utils/dateConverter.js:24-26 | a seven-digit text splits into a year of three digits and a month and day of two, each read as its decimal value |
| DateConverter.FormatRocDate | backend/utils/dateConverter.js:139-150 | the display form is empty exactly when the trimmed text is not seven characters; otherwise it is YYY/MM/DD and removing the slashes gives back the trimmed text |
| DateConverter.DecemberExample | backend/utils/dateConverter.js:8 | the documented example 1141210 is 10 December 2025 |
| DateConverter.DecemberDisplay | backend/utils/dateConverter.js:137 | the documented example 1141210 is displayed as 114/12/10 |
| DateConverter.FebruaryThirtiethExample | backend/utils/dateConverter.js:39-46 | a 30 February is rejected as an invalid date |
| DateConverter.LeapDayExample | backend/utils/dateConverter.js:39-46 | 29 February of ROC year 113 (2024) is accepted |
| DateConverter.NoLeapDayExample | backend/utils/dateConverter.js:39-46 | 29 February of ROC year 114 (2025) is rejected |
| JsText.Trim | backend/services/dbfReader.js:121 | a trimmed text neither starts nor ends with white space and is no longer than the original |
| JsText.TrimIdempotent | backend/services/dbfReader.js:179 | trimming a trimmed code again changes nothing |
| JsText.TrimOfPadded | backend/services/dbfReader.js:121 | trimming undoes white-space padding on either side of a trimmed text |
| JsText.TrimIsCore | backend/services/dbfReader.js:121 | every text is its trimmed core with white space on either side |
| JsText.ParseInt | backend/utils/dateConverter.js:24-26 | blank text is NaN, and a negative result needs a minus as the first non-blank character |
| JsText.ParseIntOfDigits | backend/utils/dateConverter.js:24-26 | a non-empty decimal digit string parses to its value, with or without an explicit radix |
| JsText.ParseIntOfIntToString | backend/services/socketService.js:169-170 | `parseInt` reads back what `String` writes for every integer |
| JsText.ParseIntOfIntToStringThen | frontend/src/components/PatientTable.jsx:36 | `parseInt` of a number's spelling followed by a non-digit reads the number and stops there |
| JsText.NatToString | backend/utils/dateConverter.js:128-131 | a number's spelling is a non-empty digit string, without leading zeros, whose value is the number |
| JsText.PadStart | backend/utils/dateConverter.js:128-131 | padding a text keeps it at its end and puts only fill characters in front, up to the width |
| JsText.PaddedNumber | backend/utils/dateConverter.js:128-131 | a number below 10 to the width, zero-padded, has exactly that many digits and parses back to the number |
| DbfCache.Fresh | backend/services/dbfReader.js:26 | a fresh cache holds data and a time less than 2000 ms old; a time of 0, no time or no data is never fresh |
| DbfCache.Load | backend/services/dbfReader.js:31-39 | a load succeeds exactly when the file reads, and then carries the records read and the clock's timestamp |
| DbfCache.GetData | backend/services/dbfReader.js:22-44 | a fresh cache is served without reading; otherwise the read's outcome is returned and, on success, cached with its time; a failed read leaves the cache as it was |
| DbfCache.ClearCache | backend/services/dbfReader.js:233-237 | a cleared cache is never fresh, at any time |
| DbfCache.ServedWithinDuration | backend/services/dbfReader.js:26-29 | after a successful read, any request within 2000 ms returns the same data without reading, whatever the disk now holds |
| DbfCache.ReadAfterClear | backend/services/dbfReader.js:233-237 | after clearing, the next request reads the disk whatever was cached, and succeeds exactly when the file reads |
| DbfCache.FailureKeepsCache | backend/services/dbfReader.js:40-43 | a failed read changes nothing for later requests |
| DbfCache.ExpiresAfterDuration | backend/services/dbfReader.js:26 | a cache entry is stale from 2000 ms after it was stored |
| SocketService.MaskName | backend/services/socketService.js:134-141 | a masked name is three characters, ends in two circles, and keeps the first character of a non-empty name |
| SocketService.MaskRevealsFirstOnly | backend/services/socketService.js:134-141 | two names mask alike exactly when both are empty or both start with the same character |
| SocketService.Mask | backend/services/socketService.js:107-113 | masking replaces the name with its mask and clears the ID number, and changes no other field |
| SocketService.Priority | backend/services/socketService.js:151-162 | the priority is 99 exactly for codes outside 1, 0, E, H and F |
| SocketService.PriorityOrder | backend/services/socketService.js:151-157 | in consultation before waiting before scheduled before cancelled before completed before any other code; distinct known codes never tie |
| SocketService.QueueKeyOfInt | backend/services/socketService.js:169-170 | a queue number written as an integer sorts by that integer |
| SocketService.QueueKeyOfEmpty | backend/services/socketService.js:169-170 | a missing or blank queue number sorts as 0 |
| SocketService.CompareAgrees | backend/services/socketService.js:159-173 | the comparator orders two patients exactly as their (priority, queue number) keys are ordered, and ties exactly on equal keys |
| SocketService.Insert | backend/services/socketService.js:159-173 | inserting adds exactly the new patient to the list, nothing lost and nothing duplicated |
| SocketService.InsertSorted | backend/services/socketService.js:159-173 | inserting into a sorted list keeps it sorted |
| SocketService.Sort | backend/services/socketService.js:159-173 | the sort returns a permutation of its input that is ordered by the key |
| SocketService.SortStable | backend/services/socketService.js:159-173 | patients with equal keys keep their relative order, as `Array.prototype.sort` guarantees |
| SocketService.SortPatients | backend/services/socketService.js:149-174 | the sorted list is a permutation of the input in which every earlier patient compares no later than every later one |
| SocketService.ProcessData | backend/services/socketService.js:98-127 | the list sent is a permutation of the visible patients, in comparator order, with the snapshot's timestamp and the client's settings |
| SocketService.CancelledHidden | backend/services/socketService.js:101-104 | unless cancelled patients are shown, none is sent, and exactly the cancelled ones are missing |
| SocketService.PrivacyApplied | backend/services/socketService.js:106-113 | in privacy mode every sent name is masked and every ID number empty; otherwise every patient sent is one that was read |
| SocketService.EveryVisibleSent | backend/services/socketService.js:98-116 | every patient read that the settings let through is sent, masked when privacy mode is on |
| SocketService.StatisticsMatchShownList | backend/services/socketService.js:118-119 | the counters sent are those of the list sent, although they are computed over every patient read |
| SocketService.StatisticsIgnoreSettings | backend/services/socketService.js:118-119 | the counters do not depend on the client's settings |
| SocketService.ProcessDataStable | backend/services/socketService.js:115-116 | patients with the same key reach the client in the order they were read |
| Statistics.Calculate | backend/services/socketService.js:181-202 | the registered count is everyone not cancelled; it splits into not arrived, completed and waiting; with the cancelled they account for everyone |
| Statistics.StatisticsOfOne | backend/services/socketService.js:181-195 | one booked patient counts as not arrived, one finished as completed, one cancelled in no counter, and one of any other status as waiting; all but the cancelled count in the total |
| Statistics.StatusPartition | backend/services/socketService.js:183-194 | every patient is counted in exactly one of not arrived, completed, waiting and cancelled |
| Statistics.StatisticsAppend | backend/services/socketService.js:181-202 | the counters of two lists put together are the sums of their counters |
| Statistics.StatisticsPermutation | backend/services/socketService.js:181-202 | the counters do not depend on the order of the list |
| Statistics.StatisticsSameStatuses | backend/services/socketService.js:181-202 | the counters depend only on the statuses, so masking names cannot change them |
| Statistics.StatisticsWithoutCancelled | backend/services/socketService.js:101-104 | removing the cancelled patients leaves all four counters unchanged |
| Patients.Filter | frontend/src/App.jsx:110-124 | a filtered list is no longer than the original and everything in it meets the criterion |
| Patients.FilterMembers | frontend/src/App.jsx:110-124 | a patient is in the filtered list exactly when it is in the original and meets the criterion |
| Patients.FilterIsSubsequence | frontend/src/App.jsx:110-124 | filtering keeps the original order |
| Patients.FilterAppend | frontend/src/App.jsx:110-124 | filtering distributes over putting lists together |
| Patients.FilterIdempotent | frontend/src/App.jsx:110-124 | filtering twice by the same criterion is filtering once |
| Patients.FilterKeepsAll | frontend/src/App.jsx:110-124 | a filter leaves a list unchanged exactly when every patient already meets it |
| Patients.FilterCommutes | frontend/src/App.jsx:113-121 | the scheduled and cancelled filters of the page can be applied in either order |
| Patients.FilterPermutation | backend/services/socketService.js:101-116 | filtering a permutation of a list gives a permutation of the filtered list |
| Patients.CountPermutation | backend/services/socketService.js:181-202 | counts do not depend on order |
| Patients.CountSameStatuses | backend/services/socketService.js:181-202 | a count on status is the same for two lists with the same statuses in the same places |
| Patients.CountAfterWeakerFilter | backend/services/socketService.js:181-202 | filtering by a weaker criterion first does not change a count |
| SocketHub.Reply | backend/services/socketService.js:66-76 | a client is sent the data with its own settings exactly when the read succeeded, and the fixed data error otherwise |
| SocketHub.Send | backend/services/socketService.js:63-77 | sending to one client appends exactly one reply for it, made from the cache's outcome and its settings; the file is read once exactly when the cache is not fresh; clients and settings stay |
| SocketHub.Broadcast | backend/services/socketService.js:82-90 | a broadcast sends exactly one reply to each listed client, in order, after what was already sent, and changes no client or setting |
| SocketHub.BroadcastData | backend/services/socketService.js:82-90 | the broadcast loop sends exactly one reply to each connected client, in connection order |
| SocketHub.BroadcastFromFresh | backend/services/socketService.js:63-77 | while the cache is fresh, every client gets the cached data under its own settings and the file is not read |
| SocketHub.BroadcastAfterRead | backend/services/socketService.js:63-77 | with a stale cache and a readable file, the first reply reads the file once, caches it, and every client gets that data under its own settings |
| SocketHub.BroadcastReadFails | backend/services/socketService.js:70-76 | when the file cannot be read, every client gets the data error, each one's request reads the file again, and the cache stays as it was |
| SocketHub.Connect | backend/services/socketService.js:17-30 | a new client is registered with the default settings and is sent one reply at once; no other client changes |
| SocketHub.ConnectSendsData | backend/services/socketService.js:23-29 | a newly connected client is sent data without cancelled patients, all taken from what was read |
| SocketHub.UpdateSettings | backend/services/socketService.js:32-41 | a connected client's settings become the truthiness of the two values it sent, and it is sent one reply; unknown clients change nothing; no other client changes |
| SocketHub.StringFalseTurnsOn | backend/services/socketService.js:35-36 | the text `"false"` is truthy, so sending it turns the setting on |
| SocketHub.RequestData | backend/services/socketService.js:44-47 | a request gets exactly one reply to its sender and changes nothing else |
| SocketHub.Without | backend/services/socketService.js:50-53 | removing a client leaves exactly the other clients |
| SocketHub.WithoutDistinct | backend/services/socketService.js:50-53 | removing a client from a set with no repeats keeps it free of repeats and one smaller when the client was present |
| SocketHub.Disconnect | backend/services/socketService.js:50-53 | a disconnect drops the client and its settings, lowers the connected count by one exactly when it was connected, and sends nothing |
| SocketHub.ConnectThenDisconnect | backend/services/socketService.js:17-53 | connecting and then disconnecting a new client leaves the connected count as it was |
| SocketHub.FileChanged | backend/server.js:83-96 | a file change sends exactly one reply to every connected client, in connection order |
| SocketHub.FileChangedSendsNewData | backend/server.js:86-91 | after a file change every client gets the newly read data under its own settings, from one read of the file |
| SocketHub.FileChangedReadFails | backend/server.js:86-91 | when the changed file cannot be read, every client gets the data error and the cache stays empty |
| DbfWatcher.New | backend/services/dbfWatcher.js:11-19 | a new watcher has a non-zero interval, the configured one unless that is absent or zero, and no timer, watcher or events |
| DbfWatcher.Advance | backend/services/dbfWatcher.js:83-87 | a pending timer whose deadline has come emits one file change at its deadline and clears itself; otherwise nothing changes |
| DbfWatcher.Apply | backend/services/dbfWatcher.js:24-121 | one input keeps the interval and appends at most one event; `triggerChange` emits `fileChanged` at once; a change from an open watcher only moves the timer 500 ms ahead; library events reach nothing when the watcher is not open; `stop` clears the timer and leaves the watcher neither open nor active; starting on a missing file only emits the error and on a present file only opens the watcher; an open watcher passes a library error on and becomes active, emitting `ready`, on the library's ready; no other input makes a watcher active |
| DbfWatcher.NotActiveUntilReady | backend/services/dbfWatcher.js:66-70 | `isActive` stays false over any run of inputs without the library's ready |
| DbfWatcher.Step | backend/services/dbfWatcher.js:24-121 | handling an input only adds events, at most two, and keeps the interval |
| DbfWatcher.BurstPending | backend/services/dbfWatcher.js:76-88 | a burst of changes less than 500 ms apart emits nothing while it lasts and leaves one timer set 500 ms after the last change |
| DbfWatcher.BurstFiresOnce | backend/services/dbfWatcher.js:76-88 | a burst of changes emits exactly one file change, 500 ms after the last change, and nothing before |
| DbfWatcher.SeparateChangesFireTwice | backend/services/dbfWatcher.js:76-88 | two changes at least 500 ms apart each emit their own file change |
| DbfWatcher.SilentWhileClosed | backend/services/dbfWatcher.js:47-70 | a watcher that is not open emits nothing for library events |
| DbfWatcher.StepConsistent | backend/services/dbfWatcher.js:24-105 | every input keeps the invariant that an active watcher is open |
| DbfWatcher.StopCloses | backend/services/dbfWatcher.js:93-105 | stopping closes the watcher, clears the timer and makes it inactive |
| DbfWatcher.StopSilences | backend/services/dbfWatcher.js:93-105 | after a stop, library events emit nothing more |
| DbfWatcher.StopTwice | backend/services/dbfWatcher.js:93-99 | the closed watcher stays in its field, so a second stop emits `stopped` again |
| DbfWatcher.ChangeAndTrigger | backend/services/dbfWatcher.js:48-121 | a change from an open watcher replaces a pending timer with one 500 ms ahead, and `triggerChange` emits `fileChanged` at once without touching the timer |
| DbfWatcher.StopBeforeStart | backend/services/dbfWatcher.js:93-105 | stopping a watcher that was never started changes nothing |
| DbfWatcher.StartOutcomes | backend/services/dbfWatcher.js:24-70 | starting on a missing file emits only an error; starting on a present file and then getting the library's ready makes the watcher active and emits `ready` |
| ClinicStore.MergeSettings | frontend/src/store/useClinicStore.js:59-60 | each setting given in the patch replaces the stored one, and each one not given is kept |
| ClinicStore.MergeSettingsLaws | frontend/src/store/useClinicStore.js:59-60 | an empty patch changes nothing, applying a patch twice is applying it once, and two patches in a row act as one combined patch |
| ClinicStore.UpdateData | frontend/src/store/useClinicStore.js:43-53 | received data replaces the list, or empties it when absent; replaces the counters when present; marks the connection connected and error-free with an update time; keeps settings and session |
| ClinicStore.UpdateSettings | frontend/src/store/useClinicStore.js:59-70 | only the settings change, and they become the merge of the patch into them |
| ClinicStore.LoadSettings | frontend/src/store/useClinicStore.js:75-86 | with nothing saved the store is unchanged; otherwise the saved settings are merged as an update would |
| ClinicStore.UpdateConnectionStatus | frontend/src/store/useClinicStore.js:92-97 | each connection field given in the status replaces the stored one, each one not given is kept, and nothing outside the connection changes |
| ClinicStore.SetReconnecting | frontend/src/store/useClinicStore.js:103-109 | the connection is marked reconnecting with the attempt number or 0, and nothing else changes |
| ClinicStore.SetError | frontend/src/store/useClinicStore.js:115-121 | the error is recorded and the connection marked disconnected, and nothing else changes |
| ClinicStore.SetSelectedSession | frontend/src/store/useClinicStore.js:127 | only the selected session changes |
| ClinicStore.Reset | frontend/src/store/useClinicStore.js:132-147 | the list, counters and connection return to their initial values, while settings and session are kept |
| ClinicStore.ResetLaws | frontend/src/store/useClinicStore.js:132-147 | resetting twice is resetting once, and a reset store is the initial store with the settings and session kept |
| ClinicStore.InitialStatisticsOfEmpty | frontend/src/store/useClinicStore.js:10-18 | the initial counters are those of the initial empty list |
| ClinicStore.ConnectionUpdateLaws | frontend/src/store/useClinicStore.js:92-147 | an empty status update changes nothing, and a reset undoes any reconnection or error |
| ClinicStore.DataClearsError | frontend/src/store/useClinicStore.js:43-53 | data arriving after an error leaves the same connection state as if there had been no error |
| SessionFilter.DefaultSession | frontend/src/components/SessionFilter.jsx:16-30 | the default is always one of the four choices |
| SessionFilter.DefaultSessionByHour | frontend/src/components/SessionFilter.jsx:16-30 | morning exactly for hours 8..11, afternoon for 12..17, evening for 18..23, and all sessions before 8 |
| SessionFilter.InitEffect | frontend/src/components/SessionFilter.jsx:36-42 | the effect requests the default for the current hour exactly when it has not run yet and nothing is selected |
| SessionFilter.RequestsOnce | frontend/src/components/SessionFilter.jsx:33-42 | over any sequence of renders the default is requested at most once, and never after initialisation |
| SessionFilter.Displayed | frontend/src/components/SessionFilter.jsx:71 | a non-empty selection is shown as selected |
| SessionFilter.DisplayedWithoutSelection | frontend/src/components/SessionFilter.jsx:71 | all sessions is shown exactly when nothing, an empty text or all sessions is selected |
| ConnectionView.Decide | frontend/src/components/ConnectionStatus.jsx:32-52 | an error is shown first, then a reconnection warning, then connected, and otherwise not connected, each with its message |
| ConnectionView.DecidePrecedence | frontend/src/components/ConnectionStatus.jsx:36-52 | the banner is an error exactly when there is an error, and a success exactly when there is no error, no reconnection and a connection |
| ConnectionView.ReconnectMessageNamesAttempt | frontend/src/components/ConnectionStatus.jsx:42 | the reconnection message names the attempt: the text after its prefix reads back as the attempt number |
| ConnectionView.LastUpdateLine | frontend/src/components/ConnectionStatus.jsx:61-65 | the last-update line is shown exactly when an update time is recorded |
| ConnectionView.FormatTime | frontend/src/components/ConnectionStatus.jsx:21-29 | no time is shown as a dash |
| ConnectionView.DataShowsConnected | frontend/src/components/ConnectionStatus.jsx:36-52 | just after data arrives the banner says connected and shows an update time |
| ConnectionView.ErrorShownWhileReconnecting | frontend/src/components/ConnectionStatus.jsx:36-41 | a reported failure shows as an error, and a reconnection attempt after it does not hide it |
| ConnectionView.ConnectClearsError | frontend/src/services/socketClient.js:36-39 | a new connection clears a reported failure without any data: the banner then shows connected, or the reconnection attempt when one was under way, since a connect does not reset it |
| SocketClient.On | frontend/src/services/socketClient.js:93-98 | registering appends the callback to that event's list and leaves every other event's list and field as it was |
| SocketClient.IndexOf | frontend/src/services/socketClient.js:109 | the index is -1 exactly when the callback is absent, and otherwise its first position |
| SocketClient.RemoveFirst | frontend/src/services/socketClient.js:109-112 | the list shrinks by one exactly when it held the callback, and is unchanged otherwise |
| SocketClient.RemoveFirstCounts | frontend/src/services/socketClient.js:109-112 | exactly one copy of the callback goes when there is one, and nothing else |
| SocketClient.RemoveFirstAt | frontend/src/services/socketClient.js:109-112 | the copy removed is the first one, and everything before and after it stays in order |
| SocketClient.RemoveFirstAppend | frontend/src/services/socketClient.js:93-112 | removing a callback from a list with it appended removes its earlier copy when there is one, and the appended one otherwise |
| SocketClient.Off | frontend/src/services/socketClient.js:105-113 | unregistering removes the first registration of that callback for that event, and changes nothing for an unregistered callback or any other event |
| SocketClient.OnThenOff | frontend/src/services/socketClient.js:93-113 | registering and then unregistering a new callback restores the list; for one already registered the earlier registration goes and the new one stays at the end |
| SocketClient.Emit | frontend/src/services/socketClient.js:120-129 | the loop calls every listener of the event in registration order, each on the state the previous one left; a call that throws is caught, leaves the state as it was, and the later calls still run; with no listener nothing changes |
| SocketClient.NotifyAppend | frontend/src/services/socketClient.js:120-129 | calling two runs of listeners is calling the first run, then the second on the state it leaves |
| SocketClient.ThrowingCallbackSkipped | frontend/src/services/socketClient.js:122-128 | a listener that always throws is as if it were not registered: the listeners after it still run, on the state the earlier ones left |
| SocketClient.NotifyKeeps | frontend/src/services/socketClient.js:120-129 | a property of the state that every listener call keeps holds after the whole emit |
| SocketClient.Connect | frontend/src/services/socketClient.js:21-33 | connecting records the address and opens a socket that is not yet connected, keeping listeners and sent requests |
| SocketClient.OnSocket | frontend/src/services/socketClient.js:35-83 | a socket event gives at most one notification and never changes listeners or sent requests; without a socket nothing happens; only a reconnection and a connect error are silent; the socket is connected exactly after a connection and until a disconnect; data and server errors are passed on unchanged |
| SocketClient.OnSocketIgnoresListeners | frontend/src/services/socketClient.js:35-83 | what a socket event does to the client, and the notifications it gives, do not depend on who is listening |
| SocketClient.AttemptCounter | frontend/src/services/socketClient.js:36-53 | a reconnection attempt records its number, and a connection then resets the counter to 0 and marks the socket connected |
| SocketClient.UpdateSettings | frontend/src/services/socketClient.js:135-142 | settings go out exactly when the socket is connected, and nothing changes otherwise |
| SocketClient.RequestData | frontend/src/services/socketClient.js:147-154 | a data request goes out exactly when the socket is connected, and nothing changes otherwise |
| SocketClient.Disconnect | frontend/src/services/socketClient.js:159-165 | disconnecting drops the socket and keeps listeners and sent requests; closing a connected socket first runs its `disconnect` handler, so the listeners are told `connected: false`, while a socket still connecting closes silently |
| SocketClient.DisconnectSilences | frontend/src/services/socketClient.js:135-165 | after a disconnect nothing is sent and no socket event reaches a listener |
| PatientTable.StatusCell | frontend/src/components/PatientTable.jsx:109-112 | a known code shows its own entry, and any other code shows as waiting with a warning badge |
| PatientTable.StatusCellDistinguishes | frontend/src/components/PatientTable.jsx:12-19 | two codes render alike exactly when they are equal or both show as waiting |
| PatientTable.InConsultationShownAsWaiting | frontend/src/components/PatientTable.jsx:109-112 | the code `1`, which the backend sorts first, shows as waiting with no row class |
| PatientTable.IdentityColor | frontend/src/components/PatientTable.jsx:22-26 | the tag colour is one of blue, default and orange |
| PatientTable.IdentityColorByLabel | frontend/src/components/PatientTable.jsx:100 | blue exactly for national insurance, plain exactly for self-paying, and orange for every other label, known or not |
| PatientTable.RowClassName | frontend/src/components/PatientTable.jsx:143-152 | only known codes get a row class |
| PatientTable.RowClassByStatus | frontend/src/components/PatientTable.jsx:143-152 | there is no row class exactly for `E` and unknown codes, and distinct codes never share one |
| PatientTable.FormatBirthDate | frontend/src/components/PatientTable.jsx:29-40 | a birth date shorter than seven characters shows as a dash; otherwise the month and day appear as written after the year |
| PatientTable.BirthDateShowsAdYear | frontend/src/components/PatientTable.jsx:29-40 | a birth date whose fields are numbers shows the same Gregorian year as the backend's conversion, and that year reads back from the text |
| PatientTable.BirthDateIgnoresRest | frontend/src/components/PatientTable.jsx:32-36 | characters after the seventh never change the birth-date cell |
| PatientTable.BirthDateWithoutYear | frontend/src/components/PatientTable.jsx:32-36 | a birth date whose year is not a number shows `NaN` as the year |
| PatientTable.FormatCompleteTime | frontend/src/components/PatientTable.jsx:43-53 | the completion time is a dash exactly when the text is not six characters; otherwise it is HH:MM:SS |
| PatientTable.CompleteTimeRoundTrip | frontend/src/components/PatientTable.jsx:43-53 | removing the colons gives back the stored six characters, and every colon time is the rendering of its six characters |
| PatientTable.AgeText | frontend/src/components/PatientTable.jsx:92 | a missing or zero age is a dash |
| PatientTable.AgeTextReadsBack | frontend/src/components/PatientTable.jsx:92 | an age is shown exactly when it is present and non-zero, and the shown text reads back as the age |
| PatientTable.OrDash | frontend/src/components/PatientTable.jsx:65 | a cell is never blank, and a non-empty text is shown as it is |
| PatientTable.Columns | frontend/src/components/PatientTable.jsx:56-130 | the birth-date column is present exactly outside privacy mode, giving eight columns or seven |
| PatientTable.RenderRow | frontend/src/components/PatientTable.jsx:56-152 | a row shows a birth date exactly outside privacy mode, never leaves the queue number, name or session blank, and shows the identity as given |
| PatientTable.PrivacyRowKeepsQueueFacts | frontend/src/components/PatientTable.jsx:56-130 | a masked record renders the same status, row class, age, completion time and session as the unmasked one, and no birth date |
| AppView.SessionFiltered | frontend/src/App.jsx:90-95 | a chosen session other than all keeps only that session's patients; otherwise the list is unchanged |
| AppView.SessionFilteredMembers | frontend/src/App.jsx:90-95 | a patient is kept exactly when it is listed and in the chosen session, and the order is kept |
| AppView.FilteredStatistics | frontend/src/App.jsx:98-107 | the registered count never exceeds the session's list, and with no session chosen the counters are the backend's formula on the whole list |
| AppView.FilteredPatients | frontend/src/App.jsx:110-124 | hidden scheduled or cancelled patients are absent, and the list is no longer than the session's |
| AppView.FilteredPatientsMembers | frontend/src/App.jsx:110-124 | a patient is listed exactly when it was received, is in the chosen session, and is not of a hidden status |
| AppView.FilteredPatientsKeepOrder | frontend/src/App.jsx:110-124 | the listed patients keep the order the backend sent |
| AppView.TotalCountsListed | frontend/src/App.jsx:98-124 | with cancelled patients hidden and scheduled ones shown, the registered count is the number of rows listed |
| AppView.AppMatchesServer | frontend/src/App.jsx:98-107 | with no session chosen, the page's counters equal the ones the backend sent |
| AppView.ReceivedOf | frontend/src/App.jsx:52-54 | the store receives the list, counters and timestamp the backend sent |
| AppView.Arrive | frontend/src/services/socketClient.js:74-83 | a backend data message arrives as a data event, and a backend error as a server-error event |
| AppView.Mount | frontend/src/App.jsx:37-70 | mounting restores saved settings, opens a socket, sends nothing, and registers one listener each for data, status, reconnection and connection errors, and none for server errors |
| AppView.PageCallback | frontend/src/App.jsx:51-69 | each of the page's callbacks hands what it receives to one reducer and never throws or touches settings or session; data reaches the list and marks the page connected, a refusal sets the error and marks it down, an attempt sets the reconnection counter; a callback the page did not register does nothing |
| AppView.PageCallbackIdempotent | frontend/src/App.jsx:51-69 | calling a page callback twice with the same payload leaves the store as one call does |
| AppView.HandleKeepsSettings | frontend/src/App.jsx:51-69 | emitting a notification to the page's callbacks keeps the settings and the selected session |
| AppView.Handle | frontend/src/services/socketClient.js:120-129 | an event no callback listens to leaves the store as it was; with one callback, the store is what that callback makes of it |
| AppView.Deliver | frontend/src/App.jsx:51-69 | a socket event reaches the store only through the callbacks registered for its notification; it never changes the settings, the session, the listeners or what was sent, and an event with no notification leaves the store |
| AppView.ChangeSettings | frontend/src/App.jsx:78-82 | a settings change is stored as given, changes nothing else in the store, and goes to the backend exactly when connected |
| AppView.Unmount | frontend/src/App.jsx:72-74 | leaving the page disconnects and keeps listeners, settings and session; the store is unchanged when the socket was not connected, and a connected socket's closing marks the page disconnected and changes nothing else |
| AppView.ServerDataShown | frontend/src/App.jsx:52-54 | on a page mounted once, data the backend sends becomes the store's list and counters and marks the page connected and error-free; with no session chosen the page's counters match |
| AppView.ServerErrorIgnored | frontend/src/App.jsx:51-69 | mounting registers no `serverError` listener, so on a page mounted on a wrapper without one the backend's data error leaves the store unchanged |
| AppView.ServerErrorShownIfHeard | frontend/src/App.jsx:66-69 | it is the registration that decides: with the page's error callback registered for `serverError`, the same message would set the error and mark the page disconnected |
| AppView.StrictModeRegistersTwice | frontend/src/App.jsx:37-75 | when the mount effect runs, is cleaned up and runs again, as under strict mode, each of the page's four callbacks is registered twice, because the cleanup only disconnects |
| AppView.StrictMountStore | frontend/src/App.jsx:37-38 | restoring the same saved settings twice leaves the store as restoring them once |
| AppView.StrictMountClient | frontend/src/App.jsx:37-75 | the strict-mode mount leaves the wrapper as a single mount does, apart from its listeners |
| AppView.DeliverDoubled | frontend/src/App.jsx:51-69 | two pages differing only in listeners, each list the same or one callback doubled, end with the same store after any socket event |
| AppView.StrictModeSameStore | frontend/src/App.jsx:37-75 | the doubled listeners do no harm: after any socket event the store under a strict-mode mount equals the store under a single mount |
| AppView.SettingsReachServer | frontend/src/App.jsx:78-82 | settings the page sends become that client's settings on the backend |
| AppView.RestoredPrivacyNotSent | frontend/src/App.jsx:37-49 | privacy mode restored at start-up is on in the page but never sent, so the backend serves a connecting client with privacy off |

## Left out

- Big5 decoding is taken as one character per byte. This is exact on ASCII. Two-byte Big5 characters become two characters, so lengths and `charAt(0)` of Chinese names are counted in bytes.
- Reading the file, the chokidar polling and its `awaitWriteFinish` timing, and the Socket.io transport are not modelled. The file contents, the library's events and the socket events are inputs.
- Asynchronous interleaving is not modelled. A broadcast happens at one instant of the clock. The replies of one broadcast do not overlap with other requests. `fetchSockets` never fails.
- `sortPatients` sorts in place. When cancelled patients are shown and privacy mode is off, that array is the cached list itself, so the source reorders the cache. The model sorts a copy. Sorting is stable, so the reordered cache keeps patients with equal keys in their original relative order; this argument is not proved here.
- A second `start` while a watcher is open replaces the old watcher without closing it. The model keeps one handle.
- Object lookups by code (`statusPriority[code]`, `identityMap[code]`, `statusConfig[code]`, `identityConfig[label]`) ignore inherited names such as `toString`. The status and identity fields are one byte wide, so such names cannot occur there.
- Text lengths and `charAt` are counted in characters, not UTF-16 code units.
- ConnectionView.FormatTime: the `toLocaleTimeString` text is a parameter, so the contract only fixes the dash for a missing time.
- The clock, `Date.now()` and `new Date()` are inputs.
- Local storage is an input of AppView.Mount. Saving to it is not modelled, and neither is a `JSON.parse` failure.
- ClinicStore.UpdateConnectionStatus: the `reason` key of a disconnect is not kept in the connection state, and keys whose value is `undefined` are not distinguished from absent ones.
- SocketHub.UpdateSettings: an `updateSettings` message without a payload throws a TypeError in the handler. The model takes both values as given.
- The `try`/`catch` around a record's parse is not modelled, because no step of the parse can throw: slicing clamps, and `calculateAge` catches its own errors.
- DbfReader.ReadRecords takes the list of slots rather than the buffer. DbfReader.ReadDbf builds that list.
- DbfReader.ParseSessionInjective holds only for codes made of single-byte characters, as decoded columns are.
- Callbacks are known by identity. What a call does is a function of the callback; the page's are AppView.PageCallback. The reconnection delays inside Socket.io are not modelled.
- SocketClient.Emit: a callback that throws is taken to leave the state as it found it. A reducer that changed the store before throwing is not modelled; none of the page's callbacks throws.
- AppView.PageCallback: keys a payload spreads into `connectionStatus` other than the five connection fields (`message`, `attempt`, `patients` and the like) are not kept.
- The antd rendering, the statistics panel and the settings panel are not modelled. Only the values they receive and send are.
- Ages and dates are whole numbers. No floating point is involved.

=== FILE: app_view.dfy ===
/** The page (frontend/src/App.jsx): the listeners it registers on the
    connection wrapper and the reducer each one calls, the settings change
    that goes both to the store and to the backend, and the session and
    status filters applied to the list and the counters it shows. */
module AppView {
  import opened Common
  import opened Patients
  import opened Statistics
  import opened ClinicStore
  import SessionFilter
  import SocketClient
  import SocketService
  import SocketHub
  import DbfCache
  import DbfReader

  /** A session selection that narrows the list: present, not empty and
      not `全部`. */
  predicate Narrows(selected: Option<string>) {
    selected.Some? && selected.value != "" && selected.value != SessionFilter.AllSessions
  }

  /** `sessionFilteredPatients`. */
  function SessionFiltered(ps: seq<Patient>, selected: Option<string>): (r: seq<Patient>)
    ensures |r| <= |ps|
    ensures Narrows(selected) ==> forall i :: 0 <= i < |r| ==> r[i].session == selected.value
    ensures !Narrows(selected) ==> r == ps
  {
    if Narrows(selected) then Filter(ps, SessionIs(selected.value)) else ps
  }

  /** The session filter keeps exactly the patients of the selected
      session, in their order. */
  lemma SessionFilteredMembers(ps: seq<Patient>, selected: Option<string>)
    ensures forall p :: p in SessionFiltered(ps, selected) <==>
                          p in ps && (Narrows(selected) ==> p.session == selected.value)
    ensures IsSubsequence(SessionFiltered(ps, selected), ps)
  {
    if Narrows(selected) {
      FilterMembers(ps, SessionIs(selected.value));
      FilterIsSubsequence(ps, SessionIs(selected.value));
    } else {
      SubsequenceReflexive(ps);
    }
  }

  /** `filteredStatistics`: the counters of the selected session. */
  function FilteredStatistics(ps: seq<Patient>, selected: Option<string>): (r: Stats)
    ensures r.total <= |SessionFiltered(ps, selected)|
    ensures !Narrows(selected) ==> r == Calculate(ps)
  {
    Calculate(SessionFiltered(ps, selected))
  }

  /** `filteredPatients`: the selected session, without the booked
      patients unless `showScheduled`, without the cancelled ones unless
      `showCancelled`. */
  function FilteredPatients(ps: seq<Patient>, selected: Option<string>, u: UiSettings): (r: seq<Patient>)
    ensures |r| <= |SessionFiltered(ps, selected)|
    ensures !u.showScheduled ==> forall i :: 0 <= i < |r| ==> r[i].status != Scheduled
    ensures !u.showCancelled ==> forall i :: 0 <= i < |r| ==> r[i].status != Cancelled
  {
    var bySession := SessionFiltered(ps, selected);
    var booked := if u.showScheduled then bySession else Filter(bySession, StatusIsNot(Scheduled));
    FilterMembers(booked, StatusIsNot(Cancelled));
    if u.showCancelled then booked else Filter(booked, StatusIsNot(Cancelled))
  }

  /** A patient is listed exactly when it belongs to the selected session
      and neither of the two flags hides its status. */
  lemma FilteredPatientsMembers(ps: seq<Patient>, selected: Option<string>, u: UiSettings, p: Patient)
    ensures p in FilteredPatients(ps, selected, u) <==>
              p in ps && (Narrows(selected) ==> p.session == selected.value)
              && (u.showScheduled || p.status != Scheduled)
              && (u.showCancelled || p.status != Cancelled)
  {
    var bySession := SessionFiltered(ps, selected);
    var booked := if u.showScheduled then bySession else Filter(bySession, StatusIsNot(Scheduled));
    SessionFilteredMembers(ps, selected);
    FilterMembers(bySession, StatusIsNot(Scheduled));
    FilterMembers(booked, StatusIsNot(Cancelled));
  }

  /** The listed patients keep the order the backend sent them in. */
  lemma FilteredPatientsKeepOrder(ps: seq<Patient>, selected: Option<string>, u: UiSettings)
    ensures IsSubsequence(FilteredPatients(ps, selected, u), ps)
  {
    var bySession := SessionFiltered(ps, selected);
    var booked := if u.showScheduled then bySession else Filter(bySession, StatusIsNot(Scheduled));
    SessionFilteredMembers(ps, selected);
    SubsequenceReflexive(booked);
    FilterIsSubsequence(bySession, StatusIsNot(Scheduled));
    FilterIsSubsequence(booked, StatusIsNot(Cancelled));
    SubsequenceTransitive(booked, bySession, ps);
    SubsequenceTransitive(FilteredPatients(ps, selected, u), booked, ps);
  }

  /** With the default flags (booked shown, cancelled hidden) the `total`
      counter is the length of the list shown; with both flags on, the
      list is the whole session. */
  lemma TotalCountsListed(ps: seq<Patient>, selected: Option<string>, privacy: bool)
    ensures FilteredStatistics(ps, selected).total == |FilteredPatients(ps, selected, UiSettings(false, true, privacy))|
    ensures FilteredPatients(ps, selected, UiSettings(true, true, privacy)) == SessionFiltered(ps, selected)
  {
  }

  /** The frontend's counters over all sessions are the backend's counters
      of the same snapshot, whatever the backend's settings: the list it
      receives leaves out only cancelled patients, which no counter but the
      one left implicit counts, and masking keeps every status. */
  lemma AppMatchesServer(raw: DbfCache.Snapshot, s: SocketService.Settings, selected: Option<string>)
    requires !Narrows(selected)
    ensures FilteredStatistics(SocketService.ProcessData(raw, s).patients, selected)
            == SocketService.ProcessData(raw, s).statistics
  {
    SocketService.StatisticsMatchShownList(raw, s);
  }

  /** A `clinicData` payload as the store reads it: every field present. */
  function ReceivedOf(d: SocketService.ClinicData): (r: Received)
    ensures r.patients == Some(d.patients) && r.statistics == Some(d.statistics) && r.timestamp == Some(d.timestamp)
  {
    Received(Some(d.patients), Some(d.statistics), Some(d.timestamp))
  }

  /** What reaches the browser's socket for one message of the backend. */
  function Arrive(p: SocketHub.Payload): (e: SocketClient.SocketEvent)
    ensures p.ClinicDataMsg? ==> e == SocketClient.ClinicData(ReceivedOf(SocketHub.Body(p)))
    ensures p.ErrorMsg? ==> e == SocketClient.ServerErrorEvent(p.kind, p.message)
  {
    match p
    case ClinicDataMsg(_, _) => SocketClient.ClinicData(ReceivedOf(SocketHub.Body(p)))
    case ErrorMsg(kind, message) => SocketClient.ServerErrorEvent(kind, message)
  }

  /** The page: its store and its connection wrapper. */
  datatype App = App(store: Store, client: SocketClient.Client)

  /** The four events the page listens to, with the callbacks it registers
      for them. */
  const ClinicDataListener: SocketClient.Callback := 0
  const StatusListener: SocketClient.Callback := 1
  const ReconnectingListener: SocketClient.Callback := 2
  const ErrorListener: SocketClient.Callback := 3

  /** The mount effect: settings restored from `saved`, the socket opened
      at `url`, and one listener registered for each of `clinicData`,
      `connectionStatus`, `reconnecting` and `connectionError`. */
  function Mount(a: App, saved: Option<SettingsPatch>, url: string): (r: App)
    ensures r.store == LoadSettings(a.store, saved)
    ensures r.client.sent == a.client.sent && r.client.socket.Some?
    ensures SocketClient.Listeners(r.client, "clinicData") == SocketClient.Listeners(a.client, "clinicData") + [ClinicDataListener]
    ensures SocketClient.Listeners(r.client, "connectionStatus") == SocketClient.Listeners(a.client, "connectionStatus") + [StatusListener]
    ensures SocketClient.Listeners(r.client, "reconnecting") == SocketClient.Listeners(a.client, "reconnecting") + [ReconnectingListener]
    ensures SocketClient.Listeners(r.client, "connectionError") == SocketClient.Listeners(a.client, "connectionError") + [ErrorListener]
    ensures SocketClient.Listeners(r.client, "serverError") == SocketClient.Listeners(a.client, "serverError")
  {
    var c := SocketClient.Connect(a.client, url);
    var c := SocketClient.On(c, "clinicData", ClinicDataListener);
    var c := SocketClient.On(c, "connectionStatus", StatusListener);
    var c := SocketClient.On(c, "reconnecting", ReconnectingListener);
    var c := SocketClient.On(c, "connectionError", ErrorListener);
    App(LoadSettings(a.store, saved), c)
  }

  /** The `clinicData` object a payload reads as: a property it lacks is
      `undefined`. */
  function DataOf(p: SocketClient.Payload): Received {
    if p.Data? then p.data else Received(None, None, None)
  }

  /** The connection keys a payload spreads into `connectionStatus`. */
  function PatchOf(p: SocketClient.Payload): ConnectionPatch {
    if p.StatusPatch? then p.patch else NoConnectionChange
  }

  /** `info.attempt`. */
  function AttemptOf(p: SocketClient.Payload): Option<int> {
    if p.Attempt? then Some(p.attempt) else None
  }

  /** `error.message`. */
  function MessageOf(p: SocketClient.Payload): Option<string> {
    if p.Refused? || p.ServerError? then Some(p.message) else None
  }

  /** What the page's callback `cb` does to the store when the wrapper calls
      it with payload `p` at clock `now`. Each callback hands its argument
      to one reducer, whatever event it was registered for, and none
      throws. A callback the page did not register leaves the store alone. */
  function PageCallback(cb: SocketClient.Callback, p: SocketClient.Payload, now: int, s: Store): (r: Option<Store>)
    ensures r.Some? && r.value.settings == s.settings && r.value.selectedSession == s.selectedSession
    ensures cb !in {ClinicDataListener, StatusListener, ReconnectingListener, ErrorListener} ==> r == Some(s)
    ensures cb == ClinicDataListener && p.Data? ==>
              r.value.patients == p.data.patients.GetOr([]) && r.value.connection.connected
    ensures cb == ErrorListener && p.Refused? ==>
              r.value.connection.error == Some(p.message) && !r.value.connection.connected
    ensures cb == ReconnectingListener && p.Attempt? ==>
              r.value.connection.reconnecting && r.value.connection.reconnectAttempt == p.attempt
  {
    if cb == ClinicDataListener then Some(UpdateData(s, DataOf(p), now))
    else if cb == StatusListener then Some(UpdateConnectionStatus(s, PatchOf(p)))
    else if cb == ReconnectingListener then Some(SetReconnecting(s, AttemptOf(p)))
    else if cb == ErrorListener then Some(SetError(s, MessageOf(p)))
    else Some(s)
  }

  /** Each of the page's callbacks, called twice with the same payload,
      leaves the store as one call does. */
  lemma PageCallbackIdempotent(cb: SocketClient.Callback, p: SocketClient.Payload, now: int, s: Store)
    ensures PageCallback(cb, p, now, PageCallback(cb, p, now, s).value) == PageCallback(cb, p, now, s)
  {
  }

  /** `emit(n.event, n.payload)` on client `c`: the page's callbacks
      registered for the event, in registration order. */
  function Handle(s: Store, c: SocketClient.Client, n: SocketClient.Note, now: int): (r: Store)
    ensures SocketClient.Listeners(c, n.event) == [] ==> r == s
    ensures forall cb: SocketClient.Callback :: SocketClient.Listeners(c, n.event) == [cb] ==> Some(r) == PageCallback(cb, n.payload, now, s)
  {
    var run := (cb, t: Store) => PageCallback(cb, n.payload, now, t);
    var ls := SocketClient.Listeners(c, n.event);
    if |ls| == 1 then
      SocketClient.NotifyOne(ls[0], run, s);
      SocketClient.Notify(ls, run, s)
    else SocketClient.Notify(ls, run, s)
  }

  /** No callback of the page touches the settings or the session. */
  lemma HandleKeepsSettings(s: Store, c: SocketClient.Client, n: SocketClient.Note, now: int)
    ensures Handle(s, c, n, now).settings == s.settings
    ensures Handle(s, c, n, now).selectedSession == s.selectedSession
  {
    var run := (cb, t) => PageCallback(cb, n.payload, now, t);
    SocketClient.NotifyKeeps(SocketClient.Listeners(c, n.event), run, s,
                             (t: Store) => t.settings == s.settings && t.selectedSession == s.selectedSession);
  }

  /** One socket event at clock `now`: the wrapper's notifications, each
      emitted to the callbacks registered for it. */
  function Deliver(a: App, e: SocketClient.SocketEvent, now: int): (r: App)
    ensures r.store.settings == a.store.settings && r.store.selectedSession == a.store.selectedSession
    ensures r.client.sent == a.client.sent && r.client.listeners == a.client.listeners
    ensures SocketClient.OnSocket(a.client, e).1 == [] ==> r.store == a.store
  {
    var (c, notes) := SocketClient.OnSocket(a.client, e);
    if |notes| == 0 then App(a.store, c)
    else
      HandleKeepsSettings(a.store, c, notes[0], now);
      App(Handle(a.store, c, notes[0], now), c)
  }

  /** `handleSettingsChange`: the settings panel passes the whole settings
      object; the store takes it, and the wrapper sends it on when the
      socket is connected. */
  function ChangeSettings(a: App, u: UiSettings): (r: App)
    ensures r.store.settings == u
    ensures r.store.(settings := a.store.settings) == a.store
    ensures SocketClient.IsConnected(a.client) ==> r.client.sent == a.client.sent + [SocketClient.SettingsOut(u)]
    ensures !SocketClient.IsConnected(a.client) ==> r.client == a.client
  {
    var patch := SettingsPatch(Some(u.showCancelled), Some(u.showScheduled), Some(u.privacyMode));
    App(ClinicStore.UpdateSettings(a.store, patch), SocketClient.UpdateSettings(a.client, u))
  }

  /** The cleanup of the mount effect, at clock `now`: the wrapper
      disconnects, and a connected socket's closing reaches the page's
      `connectionStatus` callbacks before the socket goes. */
  function Unmount(a: App, now: int): (r: App)
    ensures r.client.socket.None? && !SocketClient.IsConnected(r.client)
    ensures r.client.listeners == a.client.listeners && r.client.sent == a.client.sent
    ensures r.store.settings == a.store.settings && r.store.selectedSession == a.store.selectedSession
    ensures !SocketClient.IsConnected(a.client) ==> r.store == a.store
    ensures SocketClient.IsConnected(a.client) && SocketClient.Listeners(a.client, "connectionStatus") == [StatusListener]
            ==> r.store == a.store.(connection := a.store.connection.(connected := false))
  {
    var (c, notes) := SocketClient.Disconnect(a.client);
    if notes == [] then App(a.store, c)
    else
      HandleKeepsSettings(a.store, a.client, notes[0], now);
      App(Handle(a.store, a.client, notes[0], now), c)
  }

  /** A data message of the backend, once it reaches a page mounted on a
      wrapper with no `clinicData` listener yet, is what the page shows: the
      sorted list and the counters the backend computed, a connected
      banner, and frontend counters over all sessions equal to the
      backend's. */
  lemma ServerDataShown(a: App, saved: Option<SettingsPatch>, url: string, p: SocketHub.Payload, now: int)
    requires SocketClient.Listeners(a.client, "clinicData") == [] && p.ClinicDataMsg?
    ensures var r := Deliver(Mount(a, saved, url), Arrive(p), now);
            r.store.patients == SocketHub.Body(p).patients
            && r.store.statistics == SocketHub.Body(p).statistics
            && r.store.connection.connected && r.store.connection.error == None
            && FilteredStatistics(r.store.patients, None) == r.store.statistics
  {
    var m := Mount(a, saved, url);
    var n := SocketClient.Note("clinicData", SocketClient.Data(ReceivedOf(SocketHub.Body(p))));
    var (c, notes) := SocketClient.OnSocket(m.client, Arrive(p));
    assert notes == [n];
    assert SocketClient.Listeners(c, "clinicData") == [ClinicDataListener];
    SocketClient.NotifyOne(ClinicDataListener, (cb, t) => PageCallback(cb, n.payload, now, t), m.store);
    AppMatchesServer(p.snapshot, p.settings, None);
  }

  /** The backend's read-failure message reaches the wrapper as
      `serverError`, for which mounting registers no listener: on a page
      mounted on a wrapper without one, the store, and so the banner, stay
      as they were. */
  lemma ServerErrorIgnored(a: App, saved: Option<SettingsPatch>, url: string, now: int)
    requires SocketClient.Listeners(a.client, "serverError") == []
    ensures var m := Mount(a, saved, url);
            Deliver(m, Arrive(SocketHub.DataError), now).store == m.store
  {
    var m := Mount(a, saved, url);
    var (c, notes) := SocketClient.OnSocket(m.client, Arrive(SocketHub.DataError));
    assert notes[0].event == "serverError";
    assert SocketClient.Listeners(c, "serverError") == [];
  }

  /** It is the missing registration that hides the message: with the
      page's error callback registered for `serverError`, the message
      would reach the banner. */
  lemma ServerErrorShownIfHeard(a: App, now: int)
    requires a.client.socket.Some?
    ensures var b := a.(client := SocketClient.On(a.client, "serverError", ErrorListener));
            var r := Deliver(b, Arrive(SocketHub.DataError), now).store.connection;
            r.error == Some(SocketHub.DataError.message) && !r.connected
  {
    var b := a.(client := SocketClient.On(a.client, "serverError", ErrorListener));
    var (c, notes) := SocketClient.OnSocket(b.client, Arrive(SocketHub.DataError));
    assert notes == [SocketClient.Note("serverError", SocketClient.ServerError("data_error", SocketHub.DataError.message))];
    assert SocketClient.Listeners(c, "serverError") == SocketClient.Listeners(a.client, "serverError") + [ErrorListener];
    SocketClient.NotifyAppend(SocketClient.Listeners(a.client, "serverError"), [ErrorListener],
                              (cb, t) => PageCallback(cb, notes[0].payload, now, t), a.store);
  }

  /** Under `React.StrictMode` the mount effect runs, its cleanup runs at
      clock `cleanup`, and it runs again. */
  function StrictMount(a: App, saved: Option<SettingsPatch>, url: string, cleanup: int): App {
    Mount(Unmount(Mount(a, saved, url), cleanup), saved, url)
  }

  /** The events the page registers for. */
  const PageEvents := ["clinicData", "connectionStatus", "reconnecting", "connectionError"]

  /** The cleanup only disconnects and never calls `off`, so a strict-mode
      mount registers each of the page's callbacks twice. */
  lemma StrictModeRegistersTwice(a: App, saved: Option<SettingsPatch>, url: string, cleanup: int)
    ensures var c := StrictMount(a, saved, url, cleanup).client;
            && SocketClient.Listeners(c, "clinicData") == SocketClient.Listeners(a.client, "clinicData") + [ClinicDataListener, ClinicDataListener]
            && SocketClient.Listeners(c, "connectionStatus") == SocketClient.Listeners(a.client, "connectionStatus") + [StatusListener, StatusListener]
            && SocketClient.Listeners(c, "reconnecting") == SocketClient.Listeners(a.client, "reconnecting") + [ReconnectingListener, ReconnectingListener]
            && SocketClient.Listeners(c, "connectionError") == SocketClient.Listeners(a.client, "connectionError") + [ErrorListener, ErrorListener]
  {
    var m := Unmount(Mount(a, saved, url), cleanup);
    assert m.client.listeners == Mount(a, saved, url).client.listeners;
    var c := Mount(m, saved, url).client;
    assert SocketClient.Listeners(c, "clinicData") == SocketClient.Listeners(m.client, "clinicData") + [ClinicDataListener];
    assert SocketClient.Listeners(c, "connectionStatus") == SocketClient.Listeners(m.client, "connectionStatus") + [StatusListener];
    assert SocketClient.Listeners(c, "reconnecting") == SocketClient.Listeners(m.client, "reconnecting") + [ReconnectingListener];
    assert SocketClient.Listeners(c, "connectionError") == SocketClient.Listeners(m.client, "connectionError") + [ErrorListener];
  }

  /** A run of one callback twice does what one call does. */
  lemma DoubledCallback(cb: SocketClient.Callback, p: SocketClient.Payload, now: int, s: Store)
    ensures var run := (cb', t) => PageCallback(cb', p, now, t);
            SocketClient.Notify([cb, cb], run, s) == SocketClient.Notify([cb], run, s)
  {
    PageCallbackIdempotent(cb, p, now, s);
    assert [cb, cb][1..] == [cb];
    assert [cb][1..] == [];
  }

  /** Emitting to the same listeners, or to one listener registered twice
      instead of once, leaves the same store. */
  lemma HandleDoubled(s: Store, c1: SocketClient.Client, c2: SocketClient.Client, n: SocketClient.Note, now: int)
    requires var l1, l2 := SocketClient.Listeners(c1, n.event), SocketClient.Listeners(c2, n.event);
             l2 == l1 || (|l1| == 1 && l2 == l1 + l1)
    ensures Handle(s, c2, n, now) == Handle(s, c1, n, now)
  {
    var l1 := SocketClient.Listeners(c1, n.event);
    if |l1| == 1 && SocketClient.Listeners(c2, n.event) == l1 + l1 {
      assert l1 + l1 == [l1[0], l1[0]] && l1 == [l1[0]];
      DoubledCallback(l1[0], n.payload, now, s);
    }
  }

  /** Restoring the same settings twice is restoring them once. */
  lemma StrictMountStore(a: App, saved: Option<SettingsPatch>, url: string, cleanup: int)
    ensures StrictMount(a, saved, url, cleanup).store == Mount(a, saved, url).store
  {
    if saved.Some? {
      MergeSettingsLaws(a.store.settings, saved.value, saved.value);
    }
  }

  /** The two mounts leave the wrapper in the same state but for its
      listeners. */
  lemma StrictMountClient(a: App, saved: Option<SettingsPatch>, url: string, cleanup: int)
    ensures var once, twice := Mount(a, saved, url).client, StrictMount(a, saved, url, cleanup).client;
            twice == once.(listeners := twice.listeners)
  {
  }

  /** The duplicates do no harm: every page callback is idempotent, so on a
      wrapper that held none of the page's listeners the store after any
      socket event is the same under a strict-mode mount as under a single
      one. */
  lemma StrictModeSameStore(a: App, saved: Option<SettingsPatch>, url: string, cleanup: int, e: SocketClient.SocketEvent, now: int)
    requires forall ev :: ev in PageEvents ==> SocketClient.Listeners(a.client, ev) == []
    ensures StrictMount(a, saved, url, cleanup).store == Mount(a, saved, url).store
    ensures Deliver(StrictMount(a, saved, url, cleanup), e, now).store == Deliver(Mount(a, saved, url), e, now).store
  {
    StrictMountStore(a, saved, url, cleanup);
    var once, twice := Mount(a, saved, url), StrictMount(a, saved, url, cleanup);
    StrictModeRegistersTwice(a, saved, url, cleanup);
    StrictMountClient(a, saved, url, cleanup);
    assert SocketClient.Listeners(twice.client, "serverError") == SocketClient.Listeners(once.client, "serverError");
    assert SocketClient.Listeners(a.client, "clinicData") == [];
    assert SocketClient.Listeners(a.client, "connectionStatus") == [];
    assert SocketClient.Listeners(a.client, "reconnecting") == [];
    assert SocketClient.Listeners(a.client, "connectionError") == [];
    DeliverDoubled(once, twice, e, now);
  }

  /** Two listener lists that are the same, or one callback and that
      callback twice. */
  predicate Doubled(l1: seq<SocketClient.Callback>, l2: seq<SocketClient.Callback>) {
    l2 == l1 || (|l1| == 1 && l2 == l1 + l1)
  }

  /** Two pages that differ only in listeners, each of the second's being
      the first's or the first's single callback twice, end with the same
      store after any socket event. */
  lemma DeliverDoubled(once: App, twice: App, e: SocketClient.SocketEvent, now: int)
    requires twice.store == once.store
    requires twice.client == once.client.(listeners := twice.client.listeners)
    requires Doubled(SocketClient.Listeners(once.client, "clinicData"), SocketClient.Listeners(twice.client, "clinicData"))
    requires Doubled(SocketClient.Listeners(once.client, "connectionStatus"), SocketClient.Listeners(twice.client, "connectionStatus"))
    requires Doubled(SocketClient.Listeners(once.client, "reconnecting"), SocketClient.Listeners(twice.client, "reconnecting"))
    requires Doubled(SocketClient.Listeners(once.client, "connectionError"), SocketClient.Listeners(twice.client, "connectionError"))
    requires Doubled(SocketClient.Listeners(once.client, "serverError"), SocketClient.Listeners(twice.client, "serverError"))
    ensures Deliver(twice, e, now).store == Deliver(once, e, now).store
  {
    SocketClient.OnSocketIgnoresListeners(once.client, twice.client, e);
    var (c1, notes1) := SocketClient.OnSocket(once.client, e);
    var (c2, notes2) := SocketClient.OnSocket(twice.client, e);
    if |notes1| > 0 {
      var n := notes1[0];
      assert n.event in PageEvents + ["serverError"];
      HandleDoubled(once.store, c1, c2, n, now);
    }
  }

  /** Settings the page sends reach the backend unchanged: both flags are
      booleans, so the backend's coercion keeps them. */
  lemma SettingsReachServer(h: SocketHub.Hub, id: SocketHub.ClientId, u: UiSettings, now: int,
                            load: Result<DbfCache.Snapshot, DbfReader.ReadError>)
    requires id in h.clients
    ensures SocketHub.SettingsOf(SocketHub.UpdateSettings(h, id, Bool(u.showCancelled), Bool(u.privacyMode), now, load), id)
            == SocketService.Settings(u.showCancelled, u.privacyMode)
  {
  }

  /** Settings restored from local storage stay on the page: mounting sends
      nothing, and a new connection starts on the backend's defaults, so
      a restored privacy mode leaves names unmasked in what the backend
      sends until the settings are changed again. */
  lemma RestoredPrivacyNotSent(a: App, saved: SettingsPatch, url: string,
                               h: SocketHub.Hub, id: SocketHub.ClientId, now: int,
                               load: Result<DbfCache.Snapshot, DbfReader.ReadError>)
    requires saved.privacyMode == Some(true)
    ensures Mount(a, Some(saved), url).store.settings.privacyMode
    ensures Mount(a, Some(saved), url).client.sent == a.client.sent
    ensures !SocketHub.SettingsOf(SocketHub.Connect(h, id, now, load), id).privacyMode
  {
  }
}

=== FILE: clinic_store.dfy ===
/** The frontend's global state (frontend/src/store/useClinicStore.js): the
    last list and counters received, the display settings, the selected
    session and the connection state, with the reducers that replace them.
    The clock and the browser's local storage are inputs. */
module ClinicStore {
  import opened Common
  import opened Patients
  import opened Statistics

  /** The display settings; `showScheduled` exists only on this side. */
  datatype UiSettings = UiSettings(showCancelled: bool, showScheduled: bool, privacyMode: bool)

  /** An object spread into the settings: `None` is a key the object does
      not have. */
  datatype SettingsPatch = SettingsPatch(showCancelled: Option<bool>, showScheduled: Option<bool>, privacyMode: Option<bool>)

  /** `{ ...settings, ...patch }`. */
  function MergeSettings(s: UiSettings, p: SettingsPatch): (r: UiSettings)
    ensures r.showCancelled == p.showCancelled.GetOr(s.showCancelled)
    ensures r.showScheduled == p.showScheduled.GetOr(s.showScheduled)
    ensures r.privacyMode == p.privacyMode.GetOr(s.privacyMode)
  {
    UiSettings(p.showCancelled.GetOr(s.showCancelled), p.showScheduled.GetOr(s.showScheduled),
               p.privacyMode.GetOr(s.privacyMode))
  }

  /** A moment as `new Date(...)` receives it: the server's ISO time stamp
      or the local clock in milliseconds. */
  datatype Instant = Stamp(text: string) | Clock(ms: int)

  /** `connectionStatus`. */
  datatype Connection = Connection(
    connected: bool,
    lastUpdate: Option<Instant>,
    error: Option<string>,
    reconnecting: bool,
    reconnectAttempt: int)

  /** An object spread into `connectionStatus`; `Some(None)` is a key
      present with the value `null`. */
  datatype ConnectionPatch = ConnectionPatch(
    connected: Option<bool>,
    lastUpdate: Option<Option<Instant>>,
    error: Option<Option<string>>,
    reconnecting: Option<bool>,
    reconnectAttempt: Option<int>)

  const NoConnectionChange := ConnectionPatch(None, None, None, None, None)

  function MergeConnection(c: Connection, p: ConnectionPatch): Connection {
    Connection(p.connected.GetOr(c.connected), p.lastUpdate.GetOr(c.lastUpdate), p.error.GetOr(c.error),
               p.reconnecting.GetOr(c.reconnecting), p.reconnectAttempt.GetOr(c.reconnectAttempt))
  }

  /** A `clinicData` payload as the store reads it; `None` is a missing
      (or null) property. */
  datatype Received = Received(patients: Option<seq<Patient>>, statistics: Option<Stats>, timestamp: Option<string>)

  datatype Store = Store(
    patients: seq<Patient>,
    statistics: Stats,
    settings: UiSettings,
    selectedSession: Option<string>,
    connection: Connection)

  const InitialSettings := UiSettings(false, true, false)
  const InitialConnection := Connection(false, None, None, false, 0)

  /** The store as created: nothing received, session not chosen yet. */
  const Initial := Store([], Zero, InitialSettings, None, InitialConnection)

  /** `updateData` with the clock at `now`: the list (or an empty one), the
      counters (or the previous ones), and a connection that is up, clear
      of errors and no longer reconnecting, stamped with the payload's time
      or the clock's. */
  function UpdateData(s: Store, d: Received, now: int): (r: Store)
    ensures r.patients == d.patients.GetOr([])
    ensures r.statistics == d.statistics.GetOr(s.statistics)
    ensures r.connection.connected && r.connection.error == None && !r.connection.reconnecting
    ensures r.connection.reconnectAttempt == s.connection.reconnectAttempt
    ensures r.connection.lastUpdate.Some?
    ensures r.settings == s.settings && r.selectedSession == s.selectedSession
  {
    var stamp := if d.timestamp.Some? && d.timestamp.value != "" then Stamp(d.timestamp.value) else Clock(now);
    s.(patients := d.patients.GetOr([]),
       statistics := d.statistics.GetOr(s.statistics),
       connection := s.connection.(connected := true, lastUpdate := Some(stamp), error := None, reconnecting := false))
  }

  /** `updateSettings`: the patch merged over the settings, nothing else
      touched. Writing to local storage is left to the caller. */
  function UpdateSettings(s: Store, p: SettingsPatch): (r: Store)
    ensures r.settings == MergeSettings(s.settings, p)
    ensures r.(settings := s.settings) == s
  {
    s.(settings := MergeSettings(s.settings, p))
  }

  /** `loadSettings`, with `saved` what local storage holds (`None` when it
      holds nothing, or nothing readable). */
  function LoadSettings(s: Store, saved: Option<SettingsPatch>): (r: Store)
    ensures saved.None? ==> r == s
    ensures saved.Some? ==> r == UpdateSettings(s, saved.value)
  {
    match saved
    case None => s
    case Some(p) => s.(settings := MergeSettings(s.settings, p))
  }

  /** `updateConnectionStatus`: overwrites the keys it is given. */
  function UpdateConnectionStatus(s: Store, p: ConnectionPatch): (r: Store)
    ensures r.(connection := s.connection) == s
    ensures p.connected.Some? ==> r.connection.connected == p.connected.value
    ensures p.connected.None? ==> r.connection.connected == s.connection.connected
    ensures p.error.Some? ==> r.connection.error == p.error.value
    ensures p.error.None? ==> r.connection.error == s.connection.error
    ensures p.lastUpdate.Some? ==> r.connection.lastUpdate == p.lastUpdate.value
    ensures p.lastUpdate.None? ==> r.connection.lastUpdate == s.connection.lastUpdate
    ensures p.reconnecting.Some? ==> r.connection.reconnecting == p.reconnecting.value
    ensures p.reconnectAttempt.Some? ==> r.connection.reconnectAttempt == p.reconnectAttempt.value
    ensures p.reconnecting.None? ==> r.connection.reconnecting == s.connection.reconnecting
    ensures p.reconnectAttempt.None? ==> r.connection.reconnectAttempt == s.connection.reconnectAttempt
  {
    s.(connection := MergeConnection(s.connection, p))
  }

  /** `setReconnecting`: reconnecting, at attempt `info.attempt || 0`. */
  function SetReconnecting(s: Store, attempt: Option<int>): (r: Store)
    ensures r.connection.reconnecting && r.connection.reconnectAttempt == attempt.GetOr(0)
    ensures r.connection.(reconnecting := s.connection.reconnecting, reconnectAttempt := s.connection.reconnectAttempt)
            == s.connection
    ensures r.(connection := s.connection) == s
  {
    s.(connection := s.connection.(reconnecting := true, reconnectAttempt := attempt.GetOr(0)))
  }

  /** `setError`: the error recorded and the connection marked down. */
  function SetError(s: Store, e: Option<string>): (r: Store)
    ensures r.connection.error == e && !r.connection.connected
    ensures r.connection.(error := s.connection.error, connected := s.connection.connected) == s.connection
    ensures r.(connection := s.connection) == s
  {
    s.(connection := s.connection.(error := e, connected := false))
  }

  /** `setSelectedSession`. */
  function SetSelectedSession(s: Store, session: Option<string>): (r: Store)
    ensures r.selectedSession == session && r.(selectedSession := s.selectedSession) == s
  {
    s.(selectedSession := session)
  }

  /** `reset`: list, counters and connection back to their initial values;
      settings and the selected session stay. */
  function Reset(s: Store): (r: Store)
    ensures r.patients == Initial.patients && r.statistics == Initial.statistics && r.connection == Initial.connection
    ensures r.settings == s.settings && r.selectedSession == s.selectedSession
  {
    s.(patients := [], statistics := Zero, connection := InitialConnection)
  }

  /** The initial counters are those of the initial (empty) list. */
  lemma InitialStatisticsOfEmpty()
    ensures Initial.statistics == Calculate(Initial.patients)
  {
  }

  /** A settings merge keeps what the patch leaves out, applying the same
      patch twice is applying it once, and two merges are one merge of the
      patches with the later one winning. */
  lemma MergeSettingsLaws(s: UiSettings, p: SettingsPatch, q: SettingsPatch)
    ensures MergeSettings(s, SettingsPatch(None, None, None)) == s
    ensures MergeSettings(MergeSettings(s, p), p) == MergeSettings(s, p)
    ensures MergeSettings(MergeSettings(s, p), q)
            == MergeSettings(s, SettingsPatch(Then(p.showCancelled, q.showCancelled),
                                              Then(p.showScheduled, q.showScheduled),
                                              Then(p.privacyMode, q.privacyMode)))
  {
  }

  /** The later of two optional values. */
  function Then<T>(a: Option<T>, b: Option<T>): Option<T> {
    if b.Some? then b else a
  }

  /** Reset is idempotent and leaves a store as reset as a fresh one. */
  lemma ResetLaws(s: Store)
    ensures Reset(Reset(s)) == Reset(s)
    ensures Reset(s) == Initial.(settings := s.settings, selectedSession := s.selectedSession)
  {
  }

  /** A connection update with no keys changes nothing; a reset after
      anything forgets the connection history. */
  lemma ConnectionUpdateLaws(s: Store, e: Option<string>, attempt: Option<int>)
    ensures UpdateConnectionStatus(s, NoConnectionChange) == s
    ensures Reset(SetError(SetReconnecting(s, attempt), e)).connection == InitialConnection
  {
  }

  /** Data arriving after an error clears it and marks the connection up,
      whatever the error was. */
  lemma DataClearsError(s: Store, e: Option<string>, d: Received, now: int)
    ensures UpdateData(SetError(s, e), d, now).connection
            == UpdateData(s, d, now).connection
  {
  }
}

=== FILE: common.dfy ===
/** Small value types shared by every module: optional values, results with an
    error arm, and the unsigned byte that the binary table is made of. */
module Common {

  /** A JavaScript value that may be null/undefined. */
  datatype Option<+T> = None | Some(value: T) {

    /** `x || fallback` for values whose present form is always truthy */
    function GetOr(default: T): T {
      match this
      case Some(v) => v
      case None => default
    }
  }

  /** The outcome of an operation that may throw. */
  datatype Result<+T, +E> = Success(value: T) | Failure(error: E)

  /** A JavaScript value as far as truthiness goes. */
  datatype JsValue = Undefined | Null | Bool(b: bool) | Number(n: int) | NaN | Str(s: string) | Object

  /** `Boolean(v)`: false exactly for undefined, null, false, 0, NaN and "". */
  predicate Truthy(v: JsValue) {
    match v
    case Undefined => false
    case Null => false
    case Bool(b) => b
    case Number(n) => n != 0
    case NaN => false
    case Str(s) => s != ""
    case Object => true
  }

  /** One byte of a Node.js Buffer. */
  newtype byte = x: int | 0 <= x < 256
}

=== FILE: connection_status.dfy ===
/** The connection banner (frontend/src/components/ConnectionStatus.jsx):
    which kind of alert and which message the store's connection state
    gives, and whether the last-update line is shown. */
module ConnectionView {
  import opened Common
  import opened JsText
  import opened ClinicStore

  /** The banner's `type`. */
  datatype Kind = ErrorKind | WarningKind | SuccessKind

  datatype Banner = Banner(kind: Kind, message: string)

  /** A truthy `error`: present and not empty. */
  predicate HasError(c: Connection) {
    c.error.Some? && c.error.value != ""
  }

  /** The decision chain: an error first, then reconnecting, then
      connected, and otherwise not connected. */
  function Decide(c: Connection): (r: Banner)
    ensures HasError(c) ==> r == Banner(ErrorKind, "連線錯誤: " + c.error.value)
    ensures !HasError(c) && c.reconnecting ==> r.kind == WarningKind
    ensures !HasError(c) && !c.reconnecting && c.connected ==> r == Banner(SuccessKind, "已連線")
    ensures !HasError(c) && !c.reconnecting && !c.connected ==> r == Banner(WarningKind, "未連線")
  {
    if HasError(c) then Banner(ErrorKind, "連線錯誤: " + c.error.value)
    else if c.reconnecting then Banner(WarningKind, ReconnectPrefix + IntToString(c.reconnectAttempt) + ReconnectSuffix)
    else if c.connected then Banner(SuccessKind, "已連線")
    else Banner(WarningKind, "未連線")
  }

  /** The banner is an error exactly when there is an error, and a success
      exactly when there is none, no reconnection is going on and the
      socket is connected. */
  lemma DecidePrecedence(c: Connection)
    ensures Decide(c).kind == ErrorKind <==> HasError(c)
    ensures Decide(c).kind == SuccessKind <==> !HasError(c) && !c.reconnecting && c.connected
  {
  }

  const ReconnectPrefix := "正在重新連線... (第 "
  const ReconnectSuffix := " 次嘗試)"

  /** The reconnecting message names the attempt: what follows its prefix
      reads back, with `parseInt`, as the attempt number. */
  lemma ReconnectMessageNamesAttempt(c: Connection)
    requires !HasError(c) && c.reconnecting
    ensures var m := Decide(c).message;
            |ReconnectPrefix| <= |m| && m[..|ReconnectPrefix|] == ReconnectPrefix
            && ParseInt(m[|ReconnectPrefix|..], false) == Some(c.reconnectAttempt)
  {
    var m := Decide(c).message;
    var digits := IntToString(c.reconnectAttempt);
    assert m == ReconnectPrefix + (digits + ReconnectSuffix);
    assert m[|ReconnectPrefix|..] == digits + ReconnectSuffix;
    ParseIntOfIntToStringThen(c.reconnectAttempt, ReconnectSuffix);
  }

  /** The last-update line is shown only when a time is recorded. */
  function LastUpdateLine(c: Connection): (r: Option<Instant>)
    ensures r.Some? <==> c.lastUpdate.Some?
  {
    c.lastUpdate
  }

  /** `formatTime` in the banner: `-` without a time; the locale clock text
      `clock` gives otherwise. */
  function FormatTime(t: Option<Instant>, clock: Instant -> string): (r: string)
    ensures t.None? ==> r == "-"
  {
    match t
    case None => "-"
    case Some(i) => clock(i)
  }

  /** Data just received always shows as connected, with its time. */
  lemma DataShowsConnected(s: Store, d: Received, now: int)
    ensures Decide(UpdateData(s, d, now).connection) == Banner(SuccessKind, "已連線")
    ensures LastUpdateLine(UpdateData(s, d, now).connection).Some?
  {
  }

  /** A reported failure shows as an error, and a reconnection attempt
      after it does not hide it. */
  lemma ErrorShownWhileReconnecting(s: Store, e: string, attempt: Option<int>)
    requires e != ""
    ensures Decide(SetError(s, Some(e)).connection).kind == ErrorKind
    ensures Decide(SetReconnecting(SetError(s, Some(e)), attempt).connection).kind == ErrorKind
  {
  }

  /** The status a socket `connect` hands on: connected, error `null`. */
  const ConnectPatch := ConnectionPatch(Some(true), None, Some(None), None, None)

  /** A new connection clears a reported failure without any data: the
      banner shows connected, unless a reconnection was under way, which
      only data ends, so the banner then shows the attempt. */
  lemma ConnectClearsError(s: Store, e: string, attempt: Option<int>)
    ensures Decide(UpdateConnectionStatus(SetError(s, Some(e)), ConnectPatch).connection).kind
            == if s.connection.reconnecting then WarningKind else SuccessKind
    ensures Decide(UpdateConnectionStatus(SetReconnecting(SetError(s, Some(e)), attempt), ConnectPatch).connection).kind
            == WarningKind
  {
  }
}

=== FILE: date_converter.dfy ===
/** Minguo (ROC) calendar helpers of the backend: a ROC date is written
    YYYMMDD with YYY = Gregorian year - 1911 (backend/utils/dateConverter.js).
    The clock is a parameter: `today` stands for `new Date()` read in local time. */
module DateConverter {
  import opened Common
  import opened JsText

  /** A proleptic Gregorian calendar day, as JavaScript's local `Date` reports it. */
  datatype Date = Date(year: int, month: int, day: int)

  const RocOffset := 1911
  /** The birth-date value that means "unknown". */
  const UnknownBirthDate := "0000000"
  const NoTime := "--:--"

  predicate IsLeapYear(y: int) {
    y % 4 == 0 && (y % 100 != 0 || y % 400 == 0)
  }

  function DaysInMonth(y: int, m: int): (n: int)
    requires 1 <= m <= 12
    ensures 28 <= n <= 31
    ensures m == 2 ==> (n == 29 <==> IsLeapYear(y))
  {
    if m == 2 then (if IsLeapYear(y) then 29 else 28)
    else if m == 4 || m == 6 || m == 9 || m == 11 then 30
    else 31
  }

  /** A day that exists in the calendar: `new Date(y, m - 1, d)` does not
      roll over into another month or year exactly for these. */
  predicate IsRealDate(d: Date) {
    1 <= d.month <= 12 && 1 <= d.day <= DaysInMonth(d.year, d.month)
  }

  /** Why `rocToAd` throws. */
  datatype DateError = EmptyDate | WrongLength | NotANumber | NotARealDate

  /** The three numbers of a 7-character YYYMMDD text, each read by
      `parseInt(…, 10)` (so a digit prefix suffices), with 1911 added to the year. */
  function RocFields(t: string): Option<Date>
    requires |t| == 7
  {
    var y := ParseInt(t[0..3], false);
    var m := ParseInt(t[3..5], false);
    var d := ParseInt(t[5..7], false);
    if y.None? || m.None? || d.None? then None
    else Some(Date(y.value + RocOffset, m.value, d.value))
  }

  /** `rocToAd`: succeeds exactly on 7-character (after trimming) texts whose
      three numbers name a real Gregorian day, and returns that day. */
  function RocToAd(s: string): (r: Result<Date, DateError>)
    ensures |Trim(s)| != 7 ==> r.Failure?
    ensures r.Success? <==> |Trim(s)| == 7 && RocFields(Trim(s)).Some? && IsRealDate(RocFields(Trim(s)).value)
    ensures r.Success? ==> r.value == RocFields(Trim(s)).value && IsRealDate(r.value)
  {
    if s == "" then Failure(EmptyDate)
    else
      var t := Trim(s);
      if |t| != 7 then Failure(WrongLength)
      else
        match RocFields(t)
        case None => Failure(NotANumber)
        case Some(d) => if IsRealDate(d) then Success(d) else Failure(NotARealDate)
  }

  /** (y, m, d) is on or before (y', m', d') in calendar order. */
  predicate OnOrBefore(y: int, m: int, d: int, y': int, m': int, d': int) {
    y < y' || (y == y' && (m < m' || (m == m' && d <= d')))
  }

  /** The `years`-th anniversary of `birth` has come by `today`. */
  predicate AnniversaryReached(birth: Date, years: int, today: Date) {
    OnOrBefore(birth.year + years, birth.month, birth.day, today.year, today.month, today.day)
  }

  /** `calculateAge` with the clock injected. An age, when there is one, is
      the number of completed years: its anniversary has come and the next
      one has not; it always lies in [0, 150]. Blank text, the all-zero
      sentinel and anything `rocToAd` rejects give no age. */
  function CalculateAge(birth: string, today: Date): (r: Option<int>)
    ensures r.Some? ==> 0 <= r.value <= 150
    ensures Trim(birth) == "" || Trim(birth) == UnknownBirthDate ==> r.None?
    ensures RocToAd(Trim(birth)).Failure? ==> r.None?
    ensures r.Some? ==> RocToAd(Trim(birth)).Success?
                        && AnniversaryReached(RocToAd(Trim(birth)).value, r.value, today)
                        && !AnniversaryReached(RocToAd(Trim(birth)).value, r.value + 1, today)
  {
    if birth == "" then None
    else
      var t := Trim(birth);
      if t == "" || t == UnknownBirthDate then None
      else
        match RocToAd(t)
        case Failure(_) => None
        case Success(b) =>
          var before := today.month < b.month || (today.month == b.month && today.day < b.day);
          var age := today.year - b.year - (if before then 1 else 0);
          if age < 0 || age > 150 then None else Some(age)
  }

  /** The age is determined by the birthday alone: whenever the completed
      years lie in [0, 150], that is exactly what `CalculateAge` returns. */
  lemma AgeIsCompletedYears(birth: string, today: Date, years: int)
    requires Trim(birth) != UnknownBirthDate
    requires RocToAd(Trim(birth)).Success?
    requires AnniversaryReached(RocToAd(Trim(birth)).value, years, today)
    requires !AnniversaryReached(RocToAd(Trim(birth)).value, years + 1, today)
    requires 0 <= years <= 150
    ensures CalculateAge(birth, today) == Some(years)
  {
    TrimIdempotent(birth);
  }

  /** `formatTime`: HHMMSS → HH:MM when the trimmed text is six characters
      with an hour in 0..23 and a minute in 0..59 (each read by `parseInt`),
      and `--:--` otherwise. */
  function FormatTime(time: string): (r: string)
    ensures r != NoTime <==> IsClockText(Trim(time))
    ensures r != NoTime ==> r == Trim(time)[0..2] + ":" + Trim(time)[2..4]
  {
    if time == "" then NoTime
    else
      var t := Trim(time);
      if !IsClockText(t) then NoTime
      else
        var r := t[0..2] + ":" + t[2..4];
        assert r[0..2] == t[0..2];
        assert r != NoTime by {
          assert ParseInt("--", false).None?;
        }
        r
  }

  predicate IsClockText(t: string) {
    && |t| == 6
    && ParseInt(t[0..2], false).Some? && 0 <= ParseInt(t[0..2], false).value <= 23
    && ParseInt(t[2..4], false).Some? && 0 <= ParseInt(t[2..4], false).value <= 59
  }

  /** Two zero-padded digits, as `String(n).padStart(2, '0')` writes them. */
  function Pad2(n: int): string {
    PadStart(IntToString(n), 2, '0')
  }

  /** Every real clock reading HHMMSS formats to its hour and minute. */
  lemma {:induction false} FormatTimeOfClock(h: nat, m: nat, sec: nat)
    requires h < 24 && m < 60 && sec < 60
    ensures FormatTime(Pad2(h) + Pad2(m) + Pad2(sec)) == Pad2(h) + ":" + Pad2(m)
  {
    Pow10Small();
    PaddedNumber(h, 2, false);
    PaddedNumber(m, 2, false);
    PaddedNumber(sec, 2, false);
    var a, b, c := Pad2(h), Pad2(m), Pad2(sec);
    DigitsConcat3(a, b, c);
    DigitsTrimmed(a + b + c);
    SplitThree(a, b, c);
  }

  lemma Pow10Small()
    ensures Pow(10, 2) == 100 && Pow(10, 3) == 1000
  {
    assert Pow(10, 1) == 10;
  }

  /** A non-empty digit string is its own trim. */
  lemma DigitsTrimmed(t: string)
    requires |t| > 0 && AllDigits(t, 10)
    ensures Trim(t) == t
  {
    AllDigitsIff(t, 10);
    assert DigitValue(t[0], 10).Some? && DigitValue(t[|t| - 1], 10).Some?;
    TrimOfTrimmed(t);
  }

  lemma DigitsConcat3(a: string, b: string, c: string)
    requires AllDigits(a, 10) && AllDigits(b, 10) && AllDigits(c, 10)
    ensures AllDigits(a + b + c, 10)
  {
    DigitsValueAppend(a, b, 10);
    DigitsValueAppend(a + b, c, 10);
  }

  /** The pieces of a three-part text are where the slicing expects them. */
  lemma SplitThree(a: string, b: string, c: string)
    ensures (a + b + c)[0..|a|] == a
    ensures (a + b + c)[|a|..|a| + |b|] == b
    ensures (a + b + c)[|a| + |b|..|a| + |b| + |c|] == c
  {
  }

  /** `getTodayROC` with the date injected: the ROC year padded to three
      characters, then month and day padded to two. For Gregorian years
      1911..2910 the text has seven characters and `rocToAd` reads back
      exactly today. */
  function GetTodayRoc(today: Date): (r: string)
    ensures |r| >= 7
    ensures RocOffset <= today.year < RocOffset + 1000 && 0 <= today.month < 100 && 0 <= today.day < 100 ==>
              |r| == 7 && RocToAd(r) == if IsRealDate(today) then Success(today) else Failure(NotARealDate)
  {
    var y := today.year - RocOffset;
    if 0 <= y < 1000 && 0 <= today.month < 100 && 0 <= today.day < 100 then
      RocTextRoundTrip(y, today.month, today.day);
      assert Date(y + RocOffset, today.month, today.day) == today;
      RocText(y, today.month, today.day)
    else RocText(y, today.month, today.day)
  }

  /** YYY padded to three characters, MM and DD to two. */
  function RocText(y: int, m: int, d: int): string {
    PadStart(IntToString(y), 3, '0') + Pad2(m) + Pad2(d)
  }

  /** `rocToAd` on a zero-padded YYY/MM/DD text: the day it names when that
      day exists, `NotARealDate` otherwise. */
  lemma RocTextRoundTrip(y: int, m: int, d: int)
    requires 0 <= y < 1000 && 0 <= m < 100 && 0 <= d < 100
    ensures |RocText(y, m, d)| == 7
    ensures RocToAd(RocText(y, m, d)) == if IsRealDate(Date(y + RocOffset, m, d))
                                          then Success(Date(y + RocOffset, m, d))
                                          else Failure(NotARealDate)
  {
    RocTextOfNumbers(y, m, d);
    RocToAdOfFields(RocText(y, m, d));
  }

  /** A trimmed 7-character text whose fields are numbers converts to the
      day they name, or fails as not a real date. */
  lemma RocToAdOfFields(t: string)
    requires |t| == 7 && Trim(t) == t && RocFields(t).Some?
    ensures RocToAd(t) == if IsRealDate(RocFields(t).value) then Success(RocFields(t).value)
                          else Failure(NotARealDate)
  {
  }

  /** Zero-padded YYY, MM and DD make a trimmed 7-character text whose
      fields read back as the three numbers. */
  lemma {:induction false} RocTextOfNumbers(y: nat, m: nat, d: nat)
    requires y < 1000 && m < 100 && d < 100
    ensures |RocText(y, m, d)| == 7 && Trim(RocText(y, m, d)) == RocText(y, m, d)
    ensures RocFields(RocText(y, m, d)) == Some(Date(y + RocOffset, m, d))
  {
    Pow10Small();
    PaddedNumber(y, 3, false);
    PaddedNumber(m, 2, false);
    PaddedNumber(d, 2, false);
    var a, b, c := PadStart(IntToString(y), 3, '0'), Pad2(m), Pad2(d);
    DigitsConcat3(a, b, c);
    DigitsTrimmed(a + b + c);
    RocFieldsOfParts(a, b, c, y, m, d);
  }

  lemma RocFieldsOfParts(a: string, b: string, c: string, y: int, m: int, d: int)
    requires |a| == 3 && |b| == 2 && |c| == 2
    requires ParseInt(a, false) == Some(y) && ParseInt(b, false) == Some(m) && ParseInt(c, false) == Some(d)
    ensures RocFields(a + b + c) == Some(Date(y + RocOffset, m, d))
  {
    SplitThree(a, b, c);
  }

  /** `formatROCDate`: YYYMMDD → YYY/MM/DD for a trimmed 7-character text,
      `''` otherwise. Deleting the two slashes gives back the trimmed input. */
  function FormatRocDate(s: string): (r: string)
    ensures r == "" <==> |Trim(s)| != 7
    ensures r != "" ==> |r| == 9 && r[3] == '/' && r[6] == '/'
                        && r[0..3] + r[4..6] + r[7..9] == Trim(s)
  {
    if s == "" || |Trim(s)| != 7 then ""
    else
      var t := Trim(s);
      var r := t[0..3] + "/" + t[3..5] + "/" + t[5..7];
      assert r[0..3] == t[0..3] && r[4..6] == t[3..5] && r[7..9] == t[5..7];
      assert t == t[0..3] + t[3..5] + t[5..7];
      r
  }

  /** A seven-digit text is trimmed and its fields are the values of its
      three digit groups. */
  lemma RocFieldsOfDigits(t: string)
    requires |t| == 7 && AllDigits(t, 10)
    ensures Trim(t) == t
    ensures AllDigits(t[0..3], 10) && AllDigits(t[3..5], 10) && AllDigits(t[5..7], 10)
    ensures RocFields(t) == Some(Date(DigitsValue(t[0..3], 10) + RocOffset,
                                      DigitsValue(t[3..5], 10), DigitsValue(t[5..7], 10)))
  {
    DigitsTrimmed(t);
    AllDigitsSlice(t, 0, 3, 10);
    AllDigitsSlice(t, 3, 5, 10);
    AllDigitsSlice(t, 5, 7, 10);
    ParseIntOfDigits(t[0..3], false);
    ParseIntOfDigits(t[3..5], false);
    ParseIntOfDigits(t[5..7], false);
    RocFieldsOfParsed(t, DigitsValue(t[0..3], 10), DigitsValue(t[3..5], 10), DigitsValue(t[5..7], 10));
  }

  lemma RocFieldsOfParsed(t: string, y: int, m: int, d: int)
    requires |t| == 7
    requires ParseInt(t[0..3], false) == Some(y)
    requires ParseInt(t[3..5], false) == Some(m)
    requires ParseInt(t[5..7], false) == Some(d)
    ensures RocFields(t) == Some(Date(y + RocOffset, m, d))
  {
  }

  // ------------------------------------------------- worked examples

  /** 1141210 is 10 December 2025 ... */
  lemma DecemberText()
    ensures RocText(114, 12, 10) == "1141210"
  {
    assert NatToString(114) == "114";
    assert Pad2(12) == "12";
    assert Pad2(10) == "10";
  }

  lemma DecemberExample()
    ensures RocToAd("1141210") == Success(Date(2025, 12, 10))
  {
    DecemberText();
    assert IsRealDate(Date(2025, 12, 10));
    RocTextRoundTrip(114, 12, 10);
  }

  /** ... and displays as 114/12/10. */
  lemma DecemberDisplay()
    ensures FormatRocDate("1141210") == "114/12/10"
  {
    TrimOfTrimmed("1141210");
  }

  /** 30 February never exists (ROC 114 is 2025). */
  lemma FebruaryThirtiethExample()
    ensures RocToAd(RocText(114, 2, 30)) == Failure(NotARealDate)
  {
    assert !IsRealDate(Date(2025, 2, 30));
    RocTextRoundTrip(114, 2, 30);
  }

  /** 29 February exists in the leap year 2024 (ROC 113) ... */
  lemma LeapDayExample()
    ensures RocToAd(RocText(113, 2, 29)) == Success(Date(2024, 2, 29))
  {
    assert IsRealDate(Date(2024, 2, 29));
    RocTextRoundTrip(113, 2, 29);
  }

  /** ... but not in 2025 (ROC 114). */
  lemma NoLeapDayExample()
    ensures RocToAd(RocText(114, 2, 29)) == Failure(NotARealDate)
  {
    assert !IsRealDate(Date(2025, 2, 29));
    RocTextRoundTrip(114, 2, 29);
  }

  /** Born 1 January 1976 (ROC 065), on 1 June 2025 the age is 49. */
  lemma AgeExample()
    ensures RocText(65, 1, 1) == "0650101"
    ensures CalculateAge(RocText(65, 1, 1), Date(2025, 6, 1)) == Some(49)
  {
    assert NatToString(65) == "65";
    RocTextRoundTrip(65, 1, 1);
    RocTextOfNumbers(65, 1, 1);
  }
}

=== FILE: dbf_cache.dfy ===
/** The two-second snapshot cache in front of the table reader
    (`getData` and `clearCache` of backend/services/dbfReader.js). The clock,
    the file contents and the ISO time stamp of a read are inputs. */
module DbfCache {
  import opened Common
  import opened DateConverter
  import opened Patients
  import opened DbfReader

  /** `cacheDuration`, in milliseconds. */
  const CacheDuration := 2000

  /** `{ patients, timestamp }`, the object `getData` resolves to. */
  datatype Snapshot = Snapshot(patients: seq<Patient>, timestamp: string)

  /** `cache` and `cacheTime`; `None` is `null`. */
  datatype Cache = Cache(data: Option<Snapshot>, time: Option<int>)

  /** The reader as constructed: nothing cached. */
  const Empty := Cache(None, None)

  /** What a read sees: the file, today's date for the ages, and the time
      stamp `new Date().toISOString()` gives. */
  datatype Disk = Disk(file: FileState, today: Date, stamp: string)

  /** What `getData` leaves behind and what it resolves or rejects with. */
  datatype Outcome = Outcome(cache: Cache, result: Result<Snapshot, ReadError>)

  /** The cache test `this.cache && this.cacheTime && now - this.cacheTime < 2000`:
      a stored time of 0 is falsy, and a clock that went backwards still hits. */
  predicate Fresh(c: Cache, now: int)
    ensures Fresh(c, now) ==> c.data.Some? && c.time.Some? && now < c.time.value + CacheDuration
    ensures c.time == Some(0) || c.time.None? || c.data.None? ==> !Fresh(c, now)
  {
    c.data.Some? && c.time.Some? && c.time.value != 0 && now - c.time.value < CacheDuration
  }

  /** The miss path of `getData`: read the table and stamp the result. */
  function Load(disk: Disk): (r: Result<Snapshot, ReadError>)
    ensures r.Success? <==> ReadDbf(disk.file, disk.today).Success?
    ensures r.Success? ==> r.value.patients == ReadDbf(disk.file, disk.today).value && r.value.timestamp == disk.stamp
    ensures r.Failure? ==> r.error == ReadDbf(disk.file, disk.today).error
  {
    match ReadDbf(disk.file, disk.today)
    case Failure(e) => Failure(e)
    case Success(patients) => Success(Snapshot(patients, disk.stamp))
  }

  /** `getData` at time `now`, where `load` is what reading the file would
      give at that moment: the stored snapshot when fresh; otherwise the
      read, stored together with `now` when it succeeds, and an error that
      leaves the cache as it was when it fails. */
  function GetData(c: Cache, now: int, load: Result<Snapshot, ReadError>): (r: Outcome)
    ensures Fresh(c, now) ==> r.cache == c && r.result == Success(c.data.value)
    ensures !Fresh(c, now) ==> r.result == load
    ensures !Fresh(c, now) && load.Success? ==> r.cache == Cache(Some(load.value), Some(now))
    ensures r.result.Failure? ==> r.cache == c
  {
    if Fresh(c, now) then Outcome(c, Success(c.data.value))
    else
      match load
      case Failure(e) => Outcome(c, Failure(e))
      case Success(data) => Outcome(Cache(Some(data), Some(now)), Success(data))
  }

  /** `clearCache`: both fields back to `null`, so nothing is fresh. */
  function ClearCache(c: Cache): (r: Cache)
    ensures forall now :: !Fresh(r, now)
  {
    Empty
  }

  /** Within two seconds of a successful read at a non-zero time, `getData`
      serves that read again, whatever the file holds by then. */
  lemma ServedWithinDuration(c: Cache, now: int, load: Result<Snapshot, ReadError>, later: int, load': Result<Snapshot, ReadError>)
    requires !Fresh(c, now) && GetData(c, now, load).result.Success? && now != 0
    requires now <= later < now + CacheDuration
    ensures GetData(GetData(c, now, load).cache, later, load').result == GetData(c, now, load).result
  {
    var o := GetData(c, now, load);
    assert o.cache == Cache(Some(o.result.value), Some(now));
    assert Fresh(o.cache, later);
  }

  /** After `clearCache` the next `getData` reads the file: its outcome
      depends on the file alone and not on what was cached. */
  lemma ReadAfterClear(c1: Cache, c2: Cache, now: int, disk: Disk)
    ensures GetData(ClearCache(c1), now, Load(disk)) == GetData(ClearCache(c2), now, Load(disk))
    ensures GetData(ClearCache(c1), now, Load(disk)).result.Success?
            <==> ReadDbf(disk.file, disk.today).Success?
  {
  }

  /** A failed read changes nothing: the next call behaves as if it had
      not happened. */
  lemma FailureKeepsCache(c: Cache, now: int, load: Result<Snapshot, ReadError>, later: int, load': Result<Snapshot, ReadError>)
    requires GetData(c, now, load).result.Failure?
    ensures GetData(GetData(c, now, load).cache, later, load') == GetData(c, later, load')
  {
  }

  /** Two seconds after the stored time the cache no longer serves. */
  lemma ExpiresAfterDuration(c: Cache, now: int)
    requires c.time.Some? && now >= c.time.value + CacheDuration
    ensures !Fresh(c, now)
  {
  }
}

=== FILE: dbf_reader.dfy ===
/** Decoding of the day's outpatient table CO05T.DBF, a dBase file
    (backend/services/dbfReader.js): the little-endian header, the
    fixed-size record slots, the columns of a slot and the code tables.
    Text is decoded one byte to one character, which is exact on ASCII. */
module DbfReader {
  import opened Common
  import opened JsText
  import opened DateConverter
  import opened Patients

  /** Byte 0 of a slot: `*` marks a deleted record. */
  const DeletedMark: byte := 0x2A
  /** The padding byte of dBase character columns. */
  const Blank: byte := 0x20

  datatype Header = Header(recordCount: nat, headerSize: nat, recordSize: nat)

  /** Why reading the table throws. */
  datatype ReadError = FileMissing | HeaderTooShort

  /** What `fs.readFileSync` finds at the configured path. */
  datatype FileState = Missing | Present(bytes: seq<byte>)

  // ------------------------------------------------------------- header

  function U16(b: seq<byte>, at: nat): (n: nat)
    requires at + 2 <= |b|
    ensures n < 0x1_0000
  {
    b[at] as nat + 0x100 * b[at + 1] as nat
  }

  function U32(b: seq<byte>, at: nat): (n: nat)
    requires at + 4 <= |b|
    ensures n < 0x1_0000_0000
  {
    U16(b, at) + 0x1_0000 * U16(b, at + 2)
  }

  /** `readUInt32LE(4)`, `readUInt16LE(8)` and `readUInt16LE(10)`; Node throws
      a RangeError when any of them reaches past the buffer, that is, on a
      buffer shorter than 12 bytes. */
  function ReadHeader(b: seq<byte>): (r: Result<Header, ReadError>)
    ensures r.Success? <==> |b| >= 12
    ensures r.Success? ==> FitsHeader(r.value)
  {
    if |b| < 12 then Failure(HeaderTooShort)
    else Success(Header(U32(b, 4), U16(b, 8), U16(b, 10)))
  }

  /** The header fields fit their 32-, 16- and 16-bit slots. */
  predicate FitsHeader(h: Header) {
    h.recordCount < 0x1_0000_0000 && h.headerSize < 0x1_0000 && h.recordSize < 0x1_0000
  }

  function LE16(n: nat): (r: seq<byte>)
    requires n < 0x1_0000
    ensures |r| == 2
  {
    [(n % 0x100) as byte, (n / 0x100) as byte]
  }

  function LE32(n: nat): (r: seq<byte>)
    requires n < 0x1_0000_0000
    ensures |r| == 4
  {
    LE16(n % 0x1_0000) + LE16(n / 0x1_0000)
  }

  /** Bytes 4..12 of a header as a dBase writer lays them out. */
  function HeaderBytes(h: Header): (r: seq<byte>)
    requires FitsHeader(h)
    ensures |r| == 8
  {
    LE32(h.recordCount) + LE16(h.headerSize) + LE16(h.recordSize)
  }

  lemma U16OfLE16(pre: seq<byte>, n: nat, post: seq<byte>)
    requires n < 0x1_0000
    ensures U16(pre + LE16(n) + post, |pre|) == n
  {
    var b := pre + LE16(n) + post;
    assert b[|pre|] == LE16(n)[0] && b[|pre| + 1] == LE16(n)[1];
  }

  lemma U32OfLE32(pre: seq<byte>, n: nat, post: seq<byte>)
    requires n < 0x1_0000_0000
    ensures U32(pre + LE32(n) + post, |pre|) == n
  {
    var b := pre + LE32(n) + post;
    assert b == pre + LE16(n % 0x1_0000) + (LE16(n / 0x1_0000) + post);
    assert b == (pre + LE16(n % 0x1_0000)) + LE16(n / 0x1_0000) + post;
    U16OfLE16(pre, n % 0x1_0000, LE16(n / 0x1_0000) + post);
    U16OfLE16(pre + LE16(n % 0x1_0000), n / 0x1_0000, post);
  }

  /** Reading a header gives back the counts a writer put in it, whatever
      the other header bytes hold. */
  lemma HeaderRoundTrip(lead: seq<byte>, h: Header, rest: seq<byte>)
    requires |lead| == 4 && FitsHeader(h)
    ensures ReadHeader(lead + HeaderBytes(h) + rest) == Success(h)
  {
    var b := lead + HeaderBytes(h) + rest;
    var c, s, z := LE32(h.recordCount), LE16(h.headerSize), LE16(h.recordSize);
    assert b == lead + c + (s + z + rest);
    U32OfLE32(lead, h.recordCount, s + z + rest);
    assert b == (lead + c) + s + (z + rest);
    U16OfLE16(lead + c, h.headerSize, z + rest);
    assert b == (lead + c + s) + z + rest;
    U16OfLE16(lead + c + s, h.recordSize, rest);
  }

  // -------------------------------------------------------------- slots

  function Min(a: int, b: int): int {
    if a <= b then a else b
  }

  /** `buf.slice(start, end)` for non-negative bounds: both ends are clamped
      to the buffer, and an empty range gives an empty buffer. */
  function Slice(b: seq<byte>, start: nat, end: nat): (r: seq<byte>)
    ensures |r| == if start < end && start < |b| then Min(end, |b|) - start else 0
    ensures forall k {:trigger r[k]} :: 0 <= k < |r| ==> r[k] == b[start + k]
  {
    var s := Min(start, |b|);
    var e := Min(end, |b|);
    if e <= s then [] else b[s..e]
  }


  /** Slot `i` of the table: `recordSize` bytes from `headerSize + i * recordSize`,
      cut short at the end of the file. */
  function Slot(b: seq<byte>, h: Header, i: nat): (r: seq<byte>)
    ensures |r| <= h.recordSize
    ensures h.headerSize + (i + 1) * h.recordSize <= |b| ==> |r| == h.recordSize
    ensures |r| > 0 ==> h.headerSize + i * h.recordSize + |r| <= |b|
    ensures forall k {:trigger r[k]} :: 0 <= k < |r| ==> r[k] == b[h.headerSize + i * h.recordSize + k]
  {
    var start := h.headerSize + i * h.recordSize;
    assert start + h.recordSize == h.headerSize + (i + 1) * h.recordSize;
    Slice(b, start, start + h.recordSize)
  }

  /** The slots the header announces, in file order. */
  function Slots(b: seq<byte>, h: Header): (r: seq<seq<byte>>)
    ensures |r| == h.recordCount
    ensures forall i :: 0 <= i < |r| ==> r[i] == Slot(b, h, i)
  {
    seq(h.recordCount, i requires 0 <= i => Slot(b, h, i))
  }

  /** `recordBuffer[0] === 0x2A` (an empty slot has no byte 0). */
  predicate IsDeleted(slot: seq<byte>) {
    |slot| > 0 && slot[0] == DeletedMark
  }

  // ------------------------------------------------------------ columns

  /** The columns of CO05T.DBF the monitor reads. */
  datatype Column = KCSTMR | TSTS | LM | TARTIME | TBEGTIME | TENDTIME | TSEC | TNAME | TIDNO | TBIRTHDT

  datatype Field = Field(offset: nat, length: nat)

  /** Where each column sits in a slot; byte 0 is the deletion flag. */
  function Layout(c: Column): Field {
    match c
    case KCSTMR => Field(1, 7)
    case TSTS => Field(30, 1)
    case LM => Field(31, 1)
    case TARTIME => Field(98, 8)
    case TBEGTIME => Field(106, 6)
    case TENDTIME => Field(112, 6)
    case TSEC => Field(214, 1)
    case TNAME => Field(215, 10)
    case TIDNO => Field(225, 10)
    case TBIRTHDT => Field(235, 7)
  }

  /** The bytes up to the end of the last column. */
  const RecordWidth := 242

  /** The columns are disjoint, all of them lie after the deletion flag and
      within the first `RecordWidth` bytes. */
  lemma LayoutDisjoint()
    ensures forall c :: 1 <= Layout(c).offset && Layout(c).offset + Layout(c).length <= RecordWidth
    ensures forall c, d :: c != d ==> Layout(c).offset + Layout(c).length <= Layout(d).offset
                                      || Layout(d).offset + Layout(d).length <= Layout(c).offset
  {
  }

  /** Big5 decoding, taken as one character per byte. */
  function Decode(raw: seq<byte>): (t: string)
    ensures |t| == |raw|
    ensures forall k {:trigger t[k]} :: 0 <= k < |raw| ==> t[k] == raw[k] as int as char
  {
    seq(|raw|, k requires 0 <= k < |raw| => raw[k] as int as char)
  }

  /** `getField(name)`: the column's bytes of the slot, decoded and trimmed. */
  function GetField(slot: seq<byte>, c: Column): (r: string)
    ensures IsTrimmed(r)
    ensures |r| <= Layout(c).length
  {
    Trim(RawField(slot, c))
  }

  /** The column's bytes of the slot, decoded but not trimmed. */
  function RawField(slot: seq<byte>, c: Column): (r: string)
    ensures |r| <= Layout(c).length
  {
    var f := Layout(c);
    Decode(Slice(slot, f.offset, f.offset + f.length))
  }

  // -------------------------------------------------------- code tables

  /** `parseStatus`: `'0'` for an empty code, otherwise the trimmed code
      unchanged; never empty. */
  function ParseStatus(code: string): (r: string)
    ensures r != ""
    ensures Trim(code) == "" ==> r == "0"
    ensures Trim(code) != "" ==> r == Trim(code)
  {
    if code == "" then "0"
    else
      var c := Trim(code);
      if c == "" then "0" else c
  }

  const NationalInsurance := "健保"
  const SelfPaying := "自費"
  const OtherIdentity := "其他"

  /** `parseIdentity`: empty is self-paying, `A` national insurance, and any
      other code (including `9`) other. */
  function ParseIdentity(code: string): (r: string)
    ensures r in {NationalInsurance, SelfPaying, OtherIdentity}
    ensures r == SelfPaying <==> Trim(code) == ""
    ensures r == NationalInsurance <==> Trim(code) == "A"
  {
    if code == "" then SelfPaying
    else
      var c := Trim(code);
      if c == "A" then NationalInsurance
      else if c == "9" then OtherIdentity
      else if c == "" then SelfPaying
      else OtherIdentity
  }

  const Morning := "早"
  const Afternoon := "午"
  const Evening := "晚"

  /** `parseSession`: S, T and U are morning, afternoon and evening, and any
      other code passes through trimmed. */
  function ParseSession(code: string): (r: string)
    ensures Trim(code) == "S" ==> r == Morning
    ensures Trim(code) == "T" ==> r == Afternoon
    ensures Trim(code) == "U" ==> r == Evening
    ensures Trim(code) !in {"S", "T", "U"} ==> r == Trim(code)
  {
    if code == "" then ""
    else
      var c := Trim(code);
      if c == "S" then Morning
      else if c == "T" then Afternoon
      else if c == "U" then Evening
      else c
  }

  /** Every character of `s` comes from a single byte, as decoded column
      text does. */
  predicate ByteText(s: string) {
    forall k :: 0 <= k < |s| ==> s[k] as int < 0x100
  }

  /** No two trimmed byte codes give the same label, so the label determines
      the code. */
  lemma ParseSessionInjective(a: string, b: string)
    requires IsTrimmed(a) && IsTrimmed(b) && ByteText(a) && ByteText(b)
    requires ParseSession(a) == ParseSession(b)
    ensures a == b
  {
    TrimOfTrimmed(a);
    TrimOfTrimmed(b);
  }

  /** The status is already normalised after one pass. */
  lemma ParseStatusIdempotent(code: string)
    ensures ParseStatus(ParseStatus(code)) == ParseStatus(code)
  {
    TrimIdempotent(code);
  }

  // ------------------------------------------------------------ records

  /** The column texts of one record, one field per column. */
  datatype Row = Row(
    patientId: string, status: string, identity: string, queueNumber: string,
    beginTime: string, endTime: string, session: string, name: string,
    idNumber: string, birthDate: string)

  function Text(row: Row, c: Column): string {
    match c
    case KCSTMR => row.patientId
    case TSTS => row.status
    case LM => row.identity
    case TARTIME => row.queueNumber
    case TBEGTIME => row.beginTime
    case TENDTIME => row.endTime
    case TSEC => row.session
    case TNAME => row.name
    case TIDNO => row.idNumber
    case TBIRTHDT => row.birthDate
  }

  /** `Text` names the fields of the row. */
  lemma TextFields(row: Row)
    ensures Text(row, KCSTMR) == row.patientId && Text(row, TSTS) == row.status
    ensures Text(row, LM) == row.identity && Text(row, TARTIME) == row.queueNumber
    ensures Text(row, TBEGTIME) == row.beginTime && Text(row, TENDTIME) == row.endTime
    ensures Text(row, TSEC) == row.session && Text(row, TNAME) == row.name
    ensures Text(row, TIDNO) == row.idNumber && Text(row, TBIRTHDT) == row.birthDate
  {
  }

  /** The texts of every column of a slot, as `getField` reads them. */
  function Columns(slot: seq<byte>): (row: Row)
    ensures RowTrimmed(row)
  {
    Row(GetField(slot, KCSTMR), GetField(slot, TSTS), GetField(slot, LM), GetField(slot, TARTIME),
        GetField(slot, TBEGTIME), GetField(slot, TENDTIME), GetField(slot, TSEC), GetField(slot, TNAME),
        GetField(slot, TIDNO), GetField(slot, TBIRTHDT))
  }

  /** Every text of the row is trimmed. */
  predicate RowTrimmed(row: Row) {
    && IsTrimmed(row.patientId) && IsTrimmed(row.status) && IsTrimmed(row.identity)
    && IsTrimmed(row.queueNumber) && IsTrimmed(row.beginTime) && IsTrimmed(row.endTime)
    && IsTrimmed(row.session) && IsTrimmed(row.name) && IsTrimmed(row.idNumber)
    && IsTrimmed(row.birthDate)
  }

  /** A record as `parseRecordFromBuffer` returns it: a named patient whose
      texts are trimmed, whose status is the raw code or `0`, whose identity
      is one of the three labels and whose age is the one its birth date gives. */
  predicate WellFormed(p: Patient, today: Date) {
    && p.name != "" && IsTrimmed(p.name) && IsTrimmed(p.patientId) && IsTrimmed(p.queueNumber)
    && IsTrimmed(p.idNumber) && IsTrimmed(p.birthDate) && IsTrimmed(p.rawStatus)
    && p.status == (if p.rawStatus == "" then "0" else p.rawStatus)
    && p.identity in {NationalInsurance, SelfPaying, OtherIdentity}
    && p.age == CalculateAge(p.birthDate, today)
  }

  /** The object `parseRecordFromBuffer` builds from the column texts, with
      today's date injected for the age: none when the name is empty. */
  function RowPatient(row: Row, today: Date): (r: Option<Patient>)
    ensures r.None? <==> row.name == ""
    ensures r.Some? && RowTrimmed(row) ==> WellFormed(r.value, today)
    ensures r.Some? ==> r.value.patientId == row.patientId && r.value.name == row.name
                        && r.value.queueNumber == row.queueNumber && r.value.birthDate == row.birthDate
                        && r.value.idNumber == row.idNumber
    ensures r.Some? ==> r.value.beginTime == row.beginTime && r.value.completeTime == row.endTime
                        && r.value.rawStatus == row.status
    ensures r.Some? ==> r.value.status == ParseStatus(row.status) && r.value.session == ParseSession(row.session)
                        && r.value.identity == ParseIdentity(row.identity)
                        && r.value.age == CalculateAge(row.birthDate, today)
  {
    if row.name == "" then None
    else
      assert RowTrimmed(row) ==> Trim(row.status) == row.status by {
        if RowTrimmed(row) {
          TrimOfTrimmed(row.status);
        }
      }
      Some(Patient(
        patientId := row.patientId,
        queueNumber := row.queueNumber,
        name := row.name,
        age := CalculateAge(row.birthDate, today),
        birthDate := row.birthDate,
        idNumber := row.idNumber,
        identity := ParseIdentity(row.identity),
        status := ParseStatus(row.status),
        session := ParseSession(row.session),
        beginTime := row.beginTime,
        completeTime := row.endTime,
        rawStatus := row.status))
  }

  /** `parseRecordFromBuffer`: no patient when the trimmed name is empty,
      otherwise a well-formed one whose texts are the columns' texts: the
      patient number from KCSTMR, the queue number from TARTIME, the
      begin and complete times from TBEGTIME and TENDTIME, and the codes
      of TSTS, LM and TSEC through their tables. */
  function ParseRecord(slot: seq<byte>, today: Date): (r: Option<Patient>)
    ensures r.None? <==> GetField(slot, TNAME) == ""
    ensures r.Some? ==> WellFormed(r.value, today)
    ensures r.Some? ==> r.value.patientId == GetField(slot, KCSTMR) && r.value.name == GetField(slot, TNAME)
                        && r.value.queueNumber == GetField(slot, TARTIME)
                        && r.value.birthDate == GetField(slot, TBIRTHDT) && r.value.idNumber == GetField(slot, TIDNO)
    ensures r.Some? ==> r.value.beginTime == GetField(slot, TBEGTIME) && r.value.completeTime == GetField(slot, TENDTIME)
                        && r.value.rawStatus == GetField(slot, TSTS)
    ensures r.Some? ==> r.value.status == ParseStatus(GetField(slot, TSTS))
                        && r.value.session == ParseSession(GetField(slot, TSEC))
                        && r.value.identity == ParseIdentity(GetField(slot, LM))
  {
    RowPatient(Columns(slot), today)
  }

  /** What one slot contributes: nothing when deleted or nameless. */
  function DecodeSlot(slot: seq<byte>, today: Date): (r: seq<Patient>)
    ensures |r| <= 1
    ensures IsDeleted(slot) ==> r == []
    ensures !IsDeleted(slot) ==> (|r| == 1 <==> GetField(slot, TNAME) != "")
    ensures |r| == 1 ==> WellFormed(r[0], today) && ParseRecord(slot, today) == Some(r[0])
  {
    if IsDeleted(slot) then []
    else
      match ParseRecord(slot, today)
      case None => []
      case Some(p) => [p]
  }

  /** What `f` gives for each slot of a run, put one after the other. */
  function Gather(slots: seq<seq<byte>>, f: seq<byte> -> seq<Patient>): seq<Patient> {
    if |slots| == 0 then [] else Gather(slots[..|slots| - 1], f) + f(slots[|slots| - 1])
  }

  lemma {:induction false} GatherAppend(a: seq<seq<byte>>, b: seq<seq<byte>>, f: seq<byte> -> seq<Patient>)
    ensures Gather(a + b, f) == Gather(a, f) + Gather(b, f)
    decreases |b|
  {
    if |b| == 0 {
      assert a + b == a;
    } else {
      assert (a + b)[..|a + b| - 1] == a + b[..|b| - 1];
      GatherAppend(a, b[..|b| - 1], f);
    }
  }

  /** The records of a run of slots, in slot order. */
  function DecodeSlots(slots: seq<seq<byte>>, today: Date): seq<Patient> {
    Gather(slots, slot => DecodeSlot(slot, today))
  }

  /** Decoding runs slot by slot: the records of two runs put together are
      the records of each, in order. */
  lemma DecodeSlotsAppend(a: seq<seq<byte>>, b: seq<seq<byte>>, today: Date)
    ensures DecodeSlots(a + b, today) == DecodeSlots(a, today) + DecodeSlots(b, today)
  {
    GatherAppend(a, b, slot => DecodeSlot(slot, today));
  }

  /** A single slot gives what `DecodeSlot` gives. */
  lemma DecodeOneSlot(x: seq<byte>, today: Date)
    ensures DecodeSlots([x], today) == DecodeSlot(x, today)
  {
    var f := slot => DecodeSlot(slot, today);
    assert [x][..0] == [];
    assert Gather([x], f) == Gather([], f) + f(x);
  }

  /** Decoding one more slot of a run appends what that slot contributes. */
  lemma DecodeSlotsStep(slots: seq<seq<byte>>, i: nat, today: Date)
    requires i < |slots|
    ensures DecodeSlots(slots[..i + 1], today) == DecodeSlots(slots[..i], today) + DecodeSlot(slots[i], today)
  {
    assert slots[..i + 1][..i] == slots[..i];
  }

  predicate AllWellFormed(ps: seq<Patient>, today: Date) {
    forall i :: 0 <= i < |ps| ==> WellFormed(ps[i], today)
  }

  lemma AllWellFormedAppend(a: seq<Patient>, c: seq<Patient>, today: Date)
    requires AllWellFormed(a, today) && AllWellFormed(c, today)
    ensures AllWellFormed(a + c, today)
  {
    forall i | 0 <= i < |a + c|
      ensures WellFormed((a + c)[i], today)
    {
      if i < |a| {
        assert (a + c)[i] == a[i];
      } else {
        assert (a + c)[i] == c[i - |a|];
      }
    }
  }

  /** The records of a non-empty run: those before its last slot, then what
      the last slot contributes. */
  lemma DecodeSlotsLast(slots: seq<seq<byte>>, today: Date)
    requires |slots| > 0
    ensures DecodeSlots(slots, today)
            == DecodeSlots(slots[..|slots| - 1], today) + DecodeSlot(slots[|slots| - 1], today)
  {
    DecodeSlotsStep(slots, |slots| - 1, today);
    assert slots[..|slots|] == slots;
  }

  /** What one slot contributes is well formed. */
  lemma DecodeSlotWellFormed(slot: seq<byte>, today: Date)
    ensures AllWellFormed(DecodeSlot(slot, today), today)
  {
    var c := DecodeSlot(slot, today);
    if |c| == 1 {
      assert c == [c[0]];
    }
  }

  /** A run of slots gives at most one record per slot, each well formed. */
  lemma {:induction false} DecodeSlotsBounds(slots: seq<seq<byte>>, today: Date)
    ensures |DecodeSlots(slots, today)| <= |slots|
    ensures AllWellFormed(DecodeSlots(slots, today), today)
  {
    if |slots| > 0 {
      var n := |slots| - 1;
      DecodeSlotsBounds(slots[..n], today);
      DecodeSlotsLast(slots, today);
      DecodeSlotWellFormed(slots[n], today);
      AllWellFormedAppend(DecodeSlots(slots[..n], today), DecodeSlot(slots[n], today), today);
    }
  }

  /** A deleted slot contributes nothing, wherever it sits. */
  lemma DeletedSlotSkipped(a: seq<seq<byte>>, x: seq<byte>, c: seq<seq<byte>>, today: Date)
    requires IsDeleted(x)
    ensures DecodeSlots(a + [x] + c, today) == DecodeSlots(a, today) + DecodeSlots(c, today)
  {
    DecodeSlotsAppend(a + [x], c, today);
    DecodeSlotsAppend(a, [x], today);
    DecodeOneSlot(x, today);
  }

  /** One pass of the loop body of `readDBF`: a deleted slot is skipped, and
      a record is kept when its parse gives a patient. */
  method ReadSlot(slot: seq<byte>, today: Date) returns (kept: seq<Patient>)
    ensures kept == DecodeSlot(slot, today)
  {
    kept := [];
    if !IsDeleted(slot) {
      var patient := ParseRecord(slot, today);
      if patient.Some? {
        kept := [patient.value];
      }
    }
  }

  /** The `for` loop of `readDBF` over the announced slots: deleted slots are
      skipped and nameless records dropped, the rest kept in slot order. */
  method ReadRecords(slots: seq<seq<byte>>, today: Date) returns (records: seq<Patient>)
    ensures records == DecodeSlots(slots, today)
  {
    records := [];
    var i := 0;
    while i < |slots|
      invariant 0 <= i <= |slots|
      invariant records == DecodeSlots(slots[..i], today)
    {
      var slot := slots[i];
      var kept := ReadSlot(slot, today);
      records := records + kept;
      DecodeSlotsStep(slots, i, today);
      i := i + 1;
    }
    assert slots[..i] == slots;
  }

  /** `readDBF` with the file contents and today's date as inputs: it throws
      exactly when the file is missing or too short for a header, and
      otherwise returns well-formed records, at most as many as announced:
      those of the slots the header announces, in file order. */
  function ReadDbf(file: FileState, today: Date): (r: Result<seq<Patient>, ReadError>)
    ensures r.Failure? <==> file.Missing? || |file.bytes| < 12
    ensures file.Missing? ==> r == Failure(FileMissing)
    ensures r.Success? ==> r.value == DecodeSlots(Slots(file.bytes, ReadHeader(file.bytes).value), today)
    ensures r.Success? ==> |r.value| <= U32(file.bytes, 4)
    ensures r.Success? ==> forall i :: 0 <= i < |r.value| ==> WellFormed(r.value[i], today)
  {
    match file
    case Missing => Failure(FileMissing)
    case Present(b) =>
      match ReadHeader(b)
      case Failure(e) => Failure(e)
      case Success(h) =>
        var slots := Slots(b, h);
        DecodeSlotsBounds(slots, today);
        Success(DecodeSlots(slots, today))
  }

  // --------------------------------------------------- writing a record

  /** The text of column `c` is trimmed, fits the column and is made of
      single bytes. */
  predicate ColumnFits(row: Row, c: Column) {
    var t := Text(row, c);
    IsTrimmed(t) && |t| <= Layout(c).length && ByteText(t)
  }

  /** Every column fits. */
  predicate RowFits(row: Row) {
    && ColumnFits(row, KCSTMR) && ColumnFits(row, TSTS) && ColumnFits(row, LM)
    && ColumnFits(row, TARTIME) && ColumnFits(row, TBEGTIME) && ColumnFits(row, TENDTIME)
    && ColumnFits(row, TSEC) && ColumnFits(row, TNAME) && ColumnFits(row, TIDNO)
    && ColumnFits(row, TBIRTHDT)
  }

  lemma RowFitsColumn(row: Row, c: Column)
    requires RowFits(row)
    ensures ColumnFits(row, c)
  {
  }

  /** The column a byte position of a record belongs to, if any. */
  function ColumnAt(i: nat): Option<Column> {
    if 1 <= i < 8 then Some(KCSTMR)
    else if i == 30 then Some(TSTS)
    else if i == 31 then Some(LM)
    else if 98 <= i < 106 then Some(TARTIME)
    else if 106 <= i < 112 then Some(TBEGTIME)
    else if 112 <= i < 118 then Some(TENDTIME)
    else if i == 214 then Some(TSEC)
    else if 215 <= i < 225 then Some(TNAME)
    else if 225 <= i < 235 then Some(TIDNO)
    else if 235 <= i < 242 then Some(TBIRTHDT)
    else None
  }

  lemma ColumnAtLayout(c: Column, k: nat)
    requires k < Layout(c).length
    ensures ColumnAt(Layout(c).offset + k) == Some(c)
  {
  }

  /** Byte `i` of the record a writer produces: the flag, a column's text
      padded with blanks, or a blank between columns. */
  function RecordByte(row: Row, deleted: bool, i: nat): byte
    requires RowFits(row)
  {
    if i == 0 then (if deleted then DeletedMark else Blank)
    else
      match ColumnAt(i)
      case None => Blank
      case Some(c) =>
        RowFitsColumn(row, c);
        var t := Text(row, c);
        var k := i - Layout(c).offset;
        if 0 <= k < |t| then t[k] as int as byte else Blank
  }

  /** The record a dBase writer produces for a row. */
  function EncodeRecord(row: Row, deleted: bool): (r: seq<byte>)
    requires RowFits(row)
    ensures |r| == RecordWidth
  {
    seq(RecordWidth, i requires 0 <= i < RecordWidth => RecordByte(row, deleted, i))
  }

  lemma RecordByteInColumn(row: Row, deleted: bool, c: Column, k: nat)
    requires RowFits(row) && k < Layout(c).length
    ensures RecordByte(row, deleted, Layout(c).offset + k)
            == if k < |Text(row, c)| then Text(row, c)[k] as int as byte else Blank
  {
    ColumnAtLayout(c, k);
  }

  /** The text of column `c` padded with blanks to the column's width. */
  function PaddedText(row: Row, c: Column): (r: string)
    requires ColumnFits(row, c)
    ensures |r| == Layout(c).length
  {
    Text(row, c) + Repeat(' ', Layout(c).length - |Text(row, c)|)
  }

  /** Character `k` of a column is byte `offset + k` of the slot when the
      column lies inside the slot. */
  lemma RawFieldAt(slot: seq<byte>, c: Column, k: nat)
    requires k < Layout(c).length && Layout(c).offset + Layout(c).length <= |slot|
    ensures |RawField(slot, c)| == Layout(c).length
    ensures RawField(slot, c)[k] == slot[Layout(c).offset + k] as int as char
  {
  }

  lemma PaddedTextAt(row: Row, c: Column, k: nat)
    requires ColumnFits(row, c) && k < Layout(c).length
    ensures PaddedText(row, c)[k] == if k < |Text(row, c)| then Text(row, c)[k] else ' '
  {
    RepeatContents(' ', Layout(c).length - |Text(row, c)|);
  }

  /** Character `k` of a column of a written record. */
  lemma DecodedColumnAt(row: Row, deleted: bool, c: Column, k: nat)
    requires RowFits(row) && k < Layout(c).length
    ensures |RawField(EncodeRecord(row, deleted), c)| == Layout(c).length
    ensures RawField(EncodeRecord(row, deleted), c)[k] == PaddedText(row, c)[k]
  {
    var t, f := Text(row, c), Layout(c);
    var rec := EncodeRecord(row, deleted);
    RowFitsColumn(row, c);
    RawFieldAt(rec, c, k);
    RecordByteInColumn(row, deleted, c, k);
    PaddedTextAt(row, c, k);
    if k < |t| {
      assert t[k] as int < 0x100;
      assert rec[f.offset + k] as int as char == t[k];
    } else {
      assert rec[f.offset + k] as int as char == ' ';
    }
  }

  /** A column of a written record decodes to its text padded with blanks. */
  lemma DecodedColumn(row: Row, deleted: bool, c: Column)
    requires RowFits(row)
    ensures RawField(EncodeRecord(row, deleted), c) == PaddedText(row, c)
  {
    var d := RawField(EncodeRecord(row, deleted), c);
    RowFitsColumn(row, c);
    DecodedColumnAt(row, deleted, c, 0);
    forall k | 0 <= k < Layout(c).length
      ensures d[k] == PaddedText(row, c)[k]
    {
      DecodedColumnAt(row, deleted, c, k);
    }
  }

  /** A column holding a fitting text padded with blanks reads back as the text. */
  lemma FieldOfPadded(slot: seq<byte>, row: Row, c: Column)
    requires ColumnFits(row, c) && RawField(slot, c) == PaddedText(row, c)
    ensures GetField(slot, c) == Text(row, c)
  {
    var t := Text(row, c);
    var pad := Repeat(' ', Layout(c).length - |t|);
    RepeatContents(' ', Layout(c).length - |t|);
    assert [] + t + pad == t + pad;
    TrimOfPadded([], t, pad);
  }

  /** Every column reads back the text written into it. */
  lemma FieldOfEncoded(row: Row, deleted: bool, c: Column)
    requires RowFits(row)
    ensures GetField(EncodeRecord(row, deleted), c) == Text(row, c)
  {
    DecodedColumn(row, deleted, c);
    RowFitsColumn(row, c);
    FieldOfPadded(EncodeRecord(row, deleted), row, c);
  }

  /** A slot whose every column reads as the text of a row has that row as
      its columns. */
  lemma ColumnsOfFields(slot: seq<byte>, row: Row)
    requires GetField(slot, KCSTMR) == row.patientId && GetField(slot, TSTS) == row.status
    requires GetField(slot, LM) == row.identity && GetField(slot, TARTIME) == row.queueNumber
    requires GetField(slot, TBEGTIME) == row.beginTime && GetField(slot, TENDTIME) == row.endTime
    requires GetField(slot, TSEC) == row.session && GetField(slot, TNAME) == row.name
    requires GetField(slot, TIDNO) == row.idNumber && GetField(slot, TBIRTHDT) == row.birthDate
    ensures Columns(slot) == row
  {
  }

  /** The patient number, status and identity columns of a padded slot read back as the row's texts. */
  lemma IdColumnsOfPadded(slot: seq<byte>, row: Row)
    requires ColumnFits(row, KCSTMR) && ColumnFits(row, TSTS) && ColumnFits(row, LM)
    requires RawField(slot, KCSTMR) == PaddedText(row, KCSTMR)
    requires RawField(slot, TSTS) == PaddedText(row, TSTS)
    requires RawField(slot, LM) == PaddedText(row, LM)
    ensures GetField(slot, KCSTMR) == row.patientId
    ensures GetField(slot, TSTS) == row.status
    ensures GetField(slot, LM) == row.identity
  {
    TextFields(row);
    FieldOfPadded(slot, row, KCSTMR);
    FieldOfPadded(slot, row, TSTS);
    FieldOfPadded(slot, row, LM);
  }

  /** The queue and time columns of a padded slot read back as the row's texts. */
  lemma TimeColumnsOfPadded(slot: seq<byte>, row: Row)
    requires ColumnFits(row, TARTIME) && ColumnFits(row, TBEGTIME) && ColumnFits(row, TENDTIME)
    requires RawField(slot, TARTIME) == PaddedText(row, TARTIME)
    requires RawField(slot, TBEGTIME) == PaddedText(row, TBEGTIME)
    requires RawField(slot, TENDTIME) == PaddedText(row, TENDTIME)
    ensures GetField(slot, TARTIME) == row.queueNumber
    ensures GetField(slot, TBEGTIME) == row.beginTime
    ensures GetField(slot, TENDTIME) == row.endTime
  {
    TextFields(row);
    FieldOfPadded(slot, row, TARTIME);
    FieldOfPadded(slot, row, TBEGTIME);
    FieldOfPadded(slot, row, TENDTIME);
  }

  /** The session and name columns of a padded slot read back as the row's texts. */
  lemma NameColumnsOfPadded(slot: seq<byte>, row: Row)
    requires ColumnFits(row, TSEC) && ColumnFits(row, TNAME)
    requires RawField(slot, TSEC) == PaddedText(row, TSEC)
    requires RawField(slot, TNAME) == PaddedText(row, TNAME)
    ensures GetField(slot, TSEC) == row.session
    ensures GetField(slot, TNAME) == row.name
  {
    TextFields(row);
    FieldOfPadded(slot, row, TSEC);
    FieldOfPadded(slot, row, TNAME);
  }

  /** The ID number and birth date columns of a padded slot read back as the row's texts. */
  lemma PersonColumnsOfPadded(slot: seq<byte>, row: Row)
    requires ColumnFits(row, TIDNO) && ColumnFits(row, TBIRTHDT)
    requires RawField(slot, TIDNO) == PaddedText(row, TIDNO)
    requires RawField(slot, TBIRTHDT) == PaddedText(row, TBIRTHDT)
    ensures GetField(slot, TIDNO) == row.idNumber
    ensures GetField(slot, TBIRTHDT) == row.birthDate
  {
    TextFields(row);
    FieldOfPadded(slot, row, TIDNO);
    FieldOfPadded(slot, row, TBIRTHDT);
  }

  /** A written record has the row it was written from as its columns. */
  lemma ColumnsOfEncoded(row: Row, deleted: bool)
    requires RowFits(row)
    ensures Columns(EncodeRecord(row, deleted)) == row
  {
    DecodedColumn(row, deleted, KCSTMR);
    DecodedColumn(row, deleted, TSTS);
    DecodedColumn(row, deleted, LM);
    DecodedColumn(row, deleted, TARTIME);
    DecodedColumn(row, deleted, TBEGTIME);
    DecodedColumn(row, deleted, TENDTIME);
    DecodedColumn(row, deleted, TSEC);
    DecodedColumn(row, deleted, TNAME);
    DecodedColumn(row, deleted, TIDNO);
    DecodedColumn(row, deleted, TBIRTHDT);
    var rec := EncodeRecord(row, deleted);
    IdColumnsOfPadded(rec, row);
    TimeColumnsOfPadded(rec, row);
    NameColumnsOfPadded(rec, row);
    PersonColumnsOfPadded(rec, row);
    ColumnsOfFields(rec, row);
  }

  /** A record written from a row reads back as the row's patient: none
      exactly when the name is empty, and otherwise the texts that were written. */
  lemma ParseEncodedRecord(row: Row, today: Date)
    requires RowFits(row)
    ensures ParseRecord(EncodeRecord(row, false), today) == RowPatient(row, today)
    ensures row.name == "" ==> ParseRecord(EncodeRecord(row, false), today) == None
    ensures row.name != "" ==> ParseRecord(EncodeRecord(row, false), today) == Some(PatientOf(row, today))
  {
    ColumnsOfEncoded(row, false);
  }

  /** A record written with the deletion flag never reaches the output. */
  lemma DeletedRecordSkipped(row: Row, today: Date)
    requires RowFits(row)
    ensures DecodeSlot(EncodeRecord(row, true), today) == []
  {
    assert IsDeleted(EncodeRecord(row, true));
  }

  /** The patient of a written row, with every field named: the texts as
      written, the three codes through their tables, and the age of the
      birth date. */
  function PatientOf(row: Row, today: Date): Patient {
    Patient(
      patientId := row.patientId, queueNumber := row.queueNumber, name := row.name,
      age := CalculateAge(row.birthDate, today), birthDate := row.birthDate, idNumber := row.idNumber,
      identity := ParseIdentity(row.identity), status := ParseStatus(row.status),
      session := ParseSession(row.session), beginTime := row.beginTime, completeTime := row.endTime,
      rawStatus := row.status)
  }

  /** A record written without the deletion flag contributes the row's
      patient when the row has a name, and nothing when it has none. */
  lemma LiveRecordKept(row: Row, today: Date)
    requires RowFits(row)
    ensures row.name != "" ==> DecodeSlot(EncodeRecord(row, false), today) == [PatientOf(row, today)]
    ensures row.name == "" ==> DecodeSlot(EncodeRecord(row, false), today) == []
  {
    var rec := EncodeRecord(row, false);
    assert rec[0] == Blank;
    ParseEncodedRecord(row, today);
  }

  // ------------------------------------------------- writing a table

  /** A row of a written table and its deletion flag. */
  datatype Entry = Entry(row: Row, deleted: bool)

  predicate EntriesFit(es: seq<Entry>) {
    forall i :: 0 <= i < |es| ==> RowFits(es[i].row)
  }

  /** The records of the entries, in order. */
  function Records(es: seq<Entry>): (r: seq<seq<byte>>)
    requires EntriesFit(es)
    ensures |r| == |es|
    ensures forall i :: 0 <= i < |es| ==> r[i] == EncodeRecord(es[i].row, es[i].deleted)
  {
    seq(|es|, i requires 0 <= i < |es| => EncodeRecord(es[i].row, es[i].deleted))
  }

  /** Records laid one after the other. */
  function Concat(blocks: seq<seq<byte>>): seq<byte> {
    if |blocks| == 0 then [] else Concat(blocks[..|blocks| - 1]) + blocks[|blocks| - 1]
  }

  /** The records of a table, one `RecordWidth` slot per entry, in order. */
  function Table(es: seq<Entry>): seq<byte>
    requires EntriesFit(es)
  {
    Concat(Records(es))
  }

  /** The patients a table holds, entry by entry: the named rows not
      flagged deleted, in table order. */
  function Live(es: seq<Entry>, today: Date): seq<Patient> {
    if |es| == 0 then []
    else
      var last := es[|es| - 1];
      Live(es[..|es| - 1], today) + (if last.deleted || last.row.name == "" then [] else [PatientOf(last.row, today)])
  }

  /** In records of `RecordWidth` bytes laid one after the other, byte `k`
      of record `i` sits at `RecordWidth * i + k`. */
  lemma {:induction false} ConcatAt(blocks: seq<seq<byte>>, i: nat, k: nat)
    requires forall j :: 0 <= j < |blocks| ==> |blocks[j]| == RecordWidth
    requires i < |blocks| && k < RecordWidth
    ensures |Concat(blocks)| == RecordWidth * |blocks|
    ensures Concat(blocks)[RecordWidth * i + k] == blocks[i][k]
  {
    var n := |blocks| - 1;
    var init := blocks[..n];
    var front := Concat(init);
    assert Concat(blocks) == front + blocks[n];
    if i < n {
      ConcatAt(init, i, k);
      assert init[i] == blocks[i];
      assert (front + blocks[n])[RecordWidth * i + k] == front[RecordWidth * i + k];
    } else {
      if n > 0 {
        ConcatAt(init, 0, 0);
      }
      assert |front| == RecordWidth * n;
      assert (front + blocks[n])[RecordWidth * n + k] == blocks[n][k];
    }
  }

  /** Byte `k` of slot `i` of a written table is byte `k` of entry `i`'s record. */
  lemma TableAt(es: seq<Entry>, i: nat, k: nat)
    requires EntriesFit(es) && i < |es| && k < RecordWidth
    ensures |Table(es)| == RecordWidth * |es|
    ensures Table(es)[RecordWidth * i + k] == EncodeRecord(es[i].row, es[i].deleted)[k]
  {
    ConcatAt(Records(es), i, k);
  }

  /** Decoding the records of a written table gives its live patients. */
  lemma {:induction false} DecodeWritten(slots: seq<seq<byte>>, es: seq<Entry>, today: Date)
    requires EntriesFit(es) && |slots| == |es|
    requires forall i :: 0 <= i < |es| ==> slots[i] == EncodeRecord(es[i].row, es[i].deleted)
    ensures DecodeSlots(slots, today) == Live(es, today)
  {
    if |es| > 0 {
      var n := |es| - 1;
      assert EntriesFit(es[..n]);
      DecodeWritten(slots[..n], es[..n], today);
      DecodeSlotsLast(slots, today);
      var last := es[n];
      if last.deleted {
        DeletedRecordSkipped(last.row, today);
      } else {
        LiveRecordKept(last.row, today);
      }
    }
  }

  /** Byte `k` of record `i` of a table written after a prefix. */
  lemma WrittenByte(prefix: seq<byte>, es: seq<Entry>, i: nat, k: nat)
    requires EntriesFit(es) && i < |es| && k < RecordWidth
    ensures |prefix + Table(es)| == |prefix| + RecordWidth * |es|
    ensures (prefix + Table(es))[|prefix| + RecordWidth * i + k] == EncodeRecord(es[i].row, es[i].deleted)[k]
  {
    TableAt(es, i, k);
  }

  /** Slot `i` of a file whose records start at the header size is entry
      `i`'s record. */
  lemma WrittenSlot(prefix: seq<byte>, h: Header, es: seq<Entry>, i: nat)
    requires EntriesFit(es) && i < |es|
    requires h.recordSize == RecordWidth && h.headerSize == |prefix|
    ensures Slot(prefix + Table(es), h, i) == EncodeRecord(es[i].row, es[i].deleted)
  {
    var b := prefix + Table(es);
    var rec := EncodeRecord(es[i].row, es[i].deleted);
    var start := |prefix| + RecordWidth * i;
    WrittenByte(prefix, es, i, 0);
    assert h.headerSize + i * h.recordSize == start;
    assert h.headerSize + (i + 1) * h.recordSize <= |b|;
    var slot := Slot(b, h, i);
    assert |slot| == RecordWidth;
    forall k | 0 <= k < RecordWidth
      ensures slot[k] == rec[k]
    {
      assert slot[k] == b[start + k];
      WrittenByte(prefix, es, i, k);
    }
  }

  /** A file written as a four-byte lead, a header announcing the entries,
      any further header bytes, and the entries' records reads back as the
      table's live patients, in table order. */
  lemma ReadWrittenTable(lead: seq<byte>, h: Header, more: seq<byte>, es: seq<Entry>, today: Date)
    requires |lead| == 4 && FitsHeader(h) && EntriesFit(es)
    requires h.recordCount == |es| && h.recordSize == RecordWidth && h.headerSize == 12 + |more|
    ensures ReadDbf(Present(lead + HeaderBytes(h) + more + Table(es)), today) == Success(Live(es, today))
  {
    var prefix := lead + HeaderBytes(h) + more;
    var b := prefix + Table(es);
    assert b == lead + HeaderBytes(h) + (more + Table(es));
    HeaderRoundTrip(lead, h, more + Table(es));
    var slots := Slots(b, h);
    forall i | 0 <= i < |es|
      ensures slots[i] == EncodeRecord(es[i].row, es[i].deleted)
    {
      WrittenSlot(prefix, h, es, i);
    }
    DecodeWritten(slots, es, today);
  }
}

=== FILE: dbf_watcher.dfy ===
/** The file watcher of backend/services/dbfWatcher.js: polling events
    from the watching library are debounced by 500 ms into a single
    `fileChanged` event. Time is explicit: every input carries the clock
    reading at which it arrives, and a pending timer whose deadline has
    come fires before the next input is handled. */
module DbfWatcher {
  import opened Common

  /** The polling interval when none is configured. */
  const DefaultInterval := 3000

  /** The delay of `debounceRead`, in milliseconds. */
  const DebounceDelay := 500

  /** `this.watcher`: never created, watching, or closed by `stop` (the
      field keeps the closed watcher). */
  datatype Handle = NoWatcher | Open | Closed

  datatype ErrorKind = FileMissing | WatchFailed

  /** The events the watcher emits. */
  datatype Event = ErrorEvent(kind: ErrorKind) | Ready | FileChanged | Stopped

  datatype Emitted = Emitted(at: int, event: Event)

  /** The watcher's fields, with the deadline of `debounceTimer` for the
      timer itself, and the events emitted so far. */
  datatype Watcher = Watcher(
    interval: int,
    handle: Handle,
    deadline: Option<int>,
    watching: bool,
    emitted: seq<Emitted>)

  /** What can happen to the watcher: its own methods, and the events the
      watching library delivers to the handlers `start` installs. */
  datatype Input =
    | StartWatching(fileExists: bool)
    | LibraryChange
    | LibraryAdd
    | LibraryError
    | LibraryReady
    | StopWatching
    | TriggerChange

  datatype Timed = Timed(at: int, input: Input)

  /** The constructor: `options.interval || 3000`, so an absent or zero
      interval becomes the default. */
  function New(interval: Option<int>): (r: Watcher)
    ensures r.interval != 0
    ensures interval.Some? && interval.value != 0 ==> r.interval == interval.value
    ensures r.handle == NoWatcher && r.deadline == None && !r.watching && r.emitted == []
    ensures Consistent(r)
  {
    var i := if interval.Some? && interval.value != 0 then interval.value else DefaultInterval;
    Watcher(i, NoWatcher, None, false, [])
  }

  /** `isActive`. */
  predicate IsActive(w: Watcher) {
    w.watching
  }

  function Emit(w: Watcher, t: int, e: Event): Watcher {
    w.(emitted := w.emitted + [Emitted(t, e)])
  }

  /** The clock reaches `t`: a timer whose deadline has come emits
      `fileChanged` at its deadline and clears itself. */
  function Advance(w: Watcher, t: int): (r: Watcher)
    ensures r.handle == w.handle && r.watching == w.watching && r.interval == w.interval
    ensures r.deadline.None? || r.deadline.value > t
    ensures w.deadline.Some? && w.deadline.value <= t
            ==> r.emitted == w.emitted + [Emitted(w.deadline.value, FileChanged)]
    ensures !(w.deadline.Some? && w.deadline.value <= t) ==> r == w
  {
    if w.deadline.Some? && w.deadline.value <= t then
      Emit(w.(deadline := None), w.deadline.value, FileChanged)
    else w
  }

  /** One input at time `t`, once due timers have fired:
      - `start`: a missing file emits an error and changes nothing else;
        otherwise a new watcher is opened;
      - `change` and `add` from an open watcher restart the 500 ms timer;
      - `error` from an open watcher is passed on;
      - `ready` from an open watcher marks the watcher active;
      - `stop` closes an existing watcher, emits `stopped` and clears the
        timer;
      - `triggerChange` emits `fileChanged` at once.
      A closed watcher delivers nothing. */
  function Apply(w: Watcher, t: int, i: Input): (r: Watcher)
    ensures r.interval == w.interval
    ensures |w.emitted| <= |r.emitted| <= |w.emitted| + 1 && r.emitted[..|w.emitted|] == w.emitted
    ensures i.TriggerChange? ==> r == w.(emitted := w.emitted + [Emitted(t, FileChanged)])
    ensures (i.LibraryChange? || i.LibraryAdd?) && w.handle.Open? ==> r == w.(deadline := Some(t + DebounceDelay))
    ensures (i.LibraryChange? || i.LibraryAdd? || i.LibraryError? || i.LibraryReady?) && !w.handle.Open? ==> r == w
    ensures i.StopWatching? ==> r.deadline.None? && !r.handle.Open? && !(w.handle.Open? && r.watching)
    ensures i.StartWatching? && !i.fileExists ==> r == w.(emitted := w.emitted + [Emitted(t, ErrorEvent(FileMissing))])
    ensures i.StartWatching? && i.fileExists ==> r == w.(handle := Open)
    ensures i.LibraryReady? && w.handle.Open? ==> r == w.(watching := true, emitted := w.emitted + [Emitted(t, Ready)])
    ensures i.LibraryError? && w.handle.Open? ==> r == w.(emitted := w.emitted + [Emitted(t, ErrorEvent(WatchFailed))])
    ensures !i.LibraryReady? && r.watching ==> w.watching
  {
    match i
    case StartWatching(fileExists) =>
      if !fileExists then Emit(w, t, ErrorEvent(FileMissing)) else w.(handle := Open)
    case LibraryChange => if w.handle.Open? then w.(deadline := Some(t + DebounceDelay)) else w
    case LibraryAdd => if w.handle.Open? then w.(deadline := Some(t + DebounceDelay)) else w
    case LibraryError => if w.handle.Open? then Emit(w, t, ErrorEvent(WatchFailed)) else w
    case LibraryReady => if w.handle.Open? then Emit(w.(watching := true), t, Ready) else w
    case StopWatching =>
      var closed := if w.handle.NoWatcher? then w else Emit(w.(handle := Closed, watching := false), t, Stopped);
      closed.(deadline := None)
    case TriggerChange => Emit(w, t, FileChanged)
  }

  /** The input `i` arriving at time `t`. Events are only ever added. */
  function Step(w: Watcher, t: int, i: Input): (r: Watcher)
    ensures |w.emitted| <= |r.emitted| <= |w.emitted| + 2 && r.emitted[..|w.emitted|] == w.emitted
    ensures r.interval == w.interval
  {
    Apply(Advance(w, t), t, i)
  }

  /** A run of time-stamped inputs, in order. */
  function Run(w: Watcher, inputs: seq<Timed>): Watcher
    decreases |inputs|
  {
    if |inputs| == 0 then w else Run(Step(w, inputs[0].at, inputs[0].input), inputs[1..])
  }

  /** Change notifications at the given times. */
  function Changes(ts: seq<int>): (r: seq<Timed>)
    ensures |r| == |ts|
  {
    seq(|ts|, k requires 0 <= k < |ts| => Timed(ts[k], LibraryChange))
  }

  /** Each notification comes before the timer of the previous one runs out. */
  predicate Burst(ts: seq<int>) {
    forall k :: 0 < k < |ts| ==> ts[k - 1] <= ts[k] < ts[k - 1] + DebounceDelay
  }

  /** A burst of changes emits nothing while it lasts and leaves one timer
      pending, 500 ms after the last change. */
  lemma {:induction false} BurstPending(w: Watcher, ts: seq<int>)
    requires w.handle.Open? && |ts| > 0 && Burst(ts)
    requires w.deadline.None? || ts[0] < w.deadline.value
    ensures var r := Run(w, Changes(ts));
            r.emitted == w.emitted && r.deadline == Some(ts[|ts| - 1] + DebounceDelay) && r.handle == Open
    decreases |ts|
  {
    var w' := Step(w, ts[0], LibraryChange);
    assert w' == w.(deadline := Some(ts[0] + DebounceDelay));
    assert Changes(ts)[1..] == Changes(ts[1..]);
    if |ts| > 1 {
      assert Burst(ts[1..]) by {
        forall k | 0 < k < |ts[1..]|
          ensures ts[1..][k - 1] <= ts[1..][k] < ts[1..][k - 1] + DebounceDelay
        {
          assert ts[1..][k - 1] == ts[k] && ts[1..][k] == ts[k + 1];
        }
      }
      assert ts[1] < ts[0] + DebounceDelay;
      BurstPending(w', ts[1..]);
    }
  }

  /** The burst's one `fileChanged` comes exactly 500 ms after its last
      change, and not before. */
  lemma BurstFiresOnce(w: Watcher, ts: seq<int>, t: int)
    requires w.handle.Open? && |ts| > 0 && Burst(ts)
    requires w.deadline.None? || ts[0] < w.deadline.value
    ensures var last := ts[|ts| - 1];
            var r := Advance(Run(w, Changes(ts)), t);
            (t < last + DebounceDelay ==> r.emitted == w.emitted)
            && (t >= last + DebounceDelay ==> r.emitted == w.emitted + [Emitted(last + DebounceDelay, FileChanged)])
  {
    BurstPending(w, ts);
  }

  /** Two changes at least 500 ms apart give two `fileChanged` events. */
  lemma SeparateChangesFireTwice(w: Watcher, t1: int, t2: int, t3: int)
    requires w.handle.Open? && w.deadline.None?
    requires t1 + DebounceDelay <= t2 && t2 + DebounceDelay <= t3
    ensures Advance(Run(w, [Timed(t1, LibraryChange), Timed(t2, LibraryChange)]), t3).emitted
            == w.emitted + [Emitted(t1 + DebounceDelay, FileChanged), Emitted(t2 + DebounceDelay, FileChanged)]
  {
    var a := Step(w, t1, LibraryChange);
    var b := Step(a, t2, LibraryChange);
    var inputs := [Timed(t1, LibraryChange), Timed(t2, LibraryChange)];
    assert inputs[1..][1..] == [];
    assert Run(w, inputs) == Run(a, inputs[1..]) == Run(b, []) == b;
    assert a.deadline == Some(t1 + DebounceDelay);
    assert b.emitted == w.emitted + [Emitted(t1 + DebounceDelay, FileChanged)];
  }

  /** `isActive` stays false until the library reports `ready`: no other
      input makes an inactive watcher active. */
  lemma {:induction false} NotActiveUntilReady(w: Watcher, inputs: seq<Timed>)
    requires !IsActive(w)
    requires forall k :: 0 <= k < |inputs| ==> !inputs[k].input.LibraryReady?
    ensures !IsActive(Run(w, inputs))
    decreases |inputs|
  {
    if |inputs| > 0 {
      var w' := Step(w, inputs[0].at, inputs[0].input);
      assert !IsActive(w');
      assert forall k :: 0 <= k < |inputs[1..]| ==> inputs[1..][k] == inputs[k + 1];
      NotActiveUntilReady(w', inputs[1..]);
    }
  }

  /** Inputs that only the watching library or `stop` produce. */
  predicate Quiet(i: Input) {
    !i.StartWatching? && !i.TriggerChange?
  }

  /** With no watcher open and no timer pending, nothing but `start` and
      `triggerChange` can make the watcher emit. */
  lemma {:induction false} SilentWhileClosed(w: Watcher, inputs: seq<Timed>)
    requires !w.handle.Open? && w.deadline.None?
    requires forall k :: 0 <= k < |inputs| ==> Quiet(inputs[k].input) && !inputs[k].input.StopWatching?
    ensures Run(w, inputs).emitted == w.emitted
    decreases |inputs|
  {
    if |inputs| > 0 {
      var w' := Step(w, inputs[0].at, inputs[0].input);
      assert w' == w;
      assert forall k :: 0 <= k < |inputs[1..]| ==> inputs[1..][k] == inputs[k + 1];
      SilentWhileClosed(w', inputs[1..]);
    }
  }

  /** Only an open watcher is ever active. */
  predicate Consistent(w: Watcher) {
    w.watching ==> w.handle.Open?
  }

  /** Every input keeps the watcher consistent. */
  lemma StepConsistent(w: Watcher, t: int, i: Input)
    requires Consistent(w)
    ensures Consistent(Step(w, t, i))
  {
  }

  /** After `stop` no watcher is open, no timer is pending and the watcher
      is not active. */
  lemma StopCloses(w: Watcher, t: int)
    ensures var s := Step(w, t, StopWatching);
            !s.handle.Open? && s.deadline.None? && (Consistent(w) ==> !IsActive(s))
  {
  }

  /** `stop` cancels a pending `fileChanged`: once stopped, notifications
      the library still delivers emit nothing. */
  lemma StopSilences(w: Watcher, t: int, inputs: seq<Timed>)
    requires forall k :: 0 <= k < |inputs| ==> Quiet(inputs[k].input) && !inputs[k].input.StopWatching?
    ensures Run(Step(w, t, StopWatching), inputs).emitted == Step(w, t, StopWatching).emitted
  {
    StopCloses(w, t);
    SilentWhileClosed(Step(w, t, StopWatching), inputs);
  }

  /** `stop` on a watcher that was started emits `stopped`, and does so
      again on a second call, since the closed watcher stays in place. */
  lemma StopTwice(w: Watcher, t: int, u: int)
    requires !w.handle.NoWatcher? && w.deadline.None?
    ensures var s := Step(w, t, StopWatching);
            var s2 := Step(s, u, StopWatching);
            s.emitted == w.emitted + [Emitted(t, Stopped)]
            && s2.emitted == s.emitted + [Emitted(u, Stopped)]
  {
  }

  /** A change from an open watcher replaces any timer that has not run
      out with one 500 ms ahead; `triggerChange` emits `fileChanged` at
      once and leaves that timer alone. */
  lemma ChangeAndTrigger(w: Watcher, t: int)
    requires w.deadline.None? || t < w.deadline.value
    ensures w.handle.Open? ==> Step(w, t, LibraryChange) == w.(deadline := Some(t + DebounceDelay))
    ensures Step(w, t, TriggerChange) == w.(emitted := w.emitted + [Emitted(t, FileChanged)])
  {
  }

  /** `stop` before `start` emits nothing. */
  lemma StopBeforeStart(w: Watcher, t: int)
    requires w.handle.NoWatcher? && w.deadline.None?
    ensures Step(w, t, StopWatching) == w
  {
  }

  /** `start` on a missing file reports it and leaves the watcher as it
      was; on a present file the watcher becomes active once the library
      reports ready. */
  lemma StartOutcomes(w: Watcher, t: int, u: int)
    requires w.deadline.None?
    ensures Step(w, t, StartWatching(false)) == w.(emitted := w.emitted + [Emitted(t, ErrorEvent(FileMissing))])
    ensures var s := Step(Step(w, t, StartWatching(true)), u, LibraryReady);
            IsActive(s) && s.emitted == w.emitted + [Emitted(u, Ready)]
  {
  }
}

=== FILE: js_text.dfy ===
/** The few ECMAScript string primitives the clinic monitor leans on:
    `String.prototype.trim`, `parseInt`, `String(n)` for integers and
    `String.prototype.padStart`. Strings are sequences of code points. */
module JsText {
  import opened Common

  /** WhiteSpace and LineTerminator code points (sections 12.2 and 12.3 of
      ECMA-262): the set both `trim` and `parseInt` skip. */
  predicate IsSpace(c: char) {
    || c == '\t' || c == '\n' || c == '\U{B}' || c == '\U{C}' || c == '\r' || c == ' '
    || c == '\U{A0}' || c == '\U{1680}' || ('\U{2000}' <= c <= '\U{200A}')
    || c == '\U{2028}' || c == '\U{2029}' || c == '\U{202F}' || c == '\U{205F}'
    || c == '\U{3000}' || c == '\U{FEFF}'
  }

  /** Neither end of `s` is white space. */
  predicate IsTrimmed(s: string) {
    |s| == 0 || (!IsSpace(s[0]) && !IsSpace(s[|s| - 1]))
  }

  predicate AllSpace(s: string) {
    forall i :: 0 <= i < |s| ==> IsSpace(s[i])
  }

  /** `s` with its leading white space cut away, as `parseInt` skips it. */
  function TrimStart(s: string): (r: string)
    ensures |r| <= |s|
    ensures |r| > 0 ==> !IsSpace(r[0])
  {
    if |s| > 0 && IsSpace(s[0]) then TrimStart(s[1..]) else s
  }

  /** `s` with its trailing white space cut away. */
  function TrimEnd(s: string): (r: string)
    ensures |r| <= |s|
    ensures |r| > 0 ==> !IsSpace(r[|r| - 1])
  {
    if |s| > 0 && IsSpace(s[|s| - 1]) then TrimEnd(s[..|s| - 1]) else s
  }

  /** `s.trim()`: white space is cut from the front, then from the back.
      The result neither starts nor ends with white space. */
  function Trim(s: string): (r: string)
    ensures IsTrimmed(r)
    ensures |r| <= |s|
  {
    var t := TrimStart(s);
    TrimEndSplit(t);
    TrimEnd(t)
  }

  /** What `TrimStart` cuts is white space in front of what it keeps. */
  lemma {:induction false} TrimStartSplit(s: string)
    ensures var n := |s| - |TrimStart(s)|; s == s[..n] + TrimStart(s) && AllSpace(s[..n])
  {
    if |s| > 0 && IsSpace(s[0]) {
      TrimStartSplit(s[1..]);
      var n := |s| - |TrimStart(s)|;
      assert s[..n] == [s[0]] + s[1..][..n - 1];
    }
  }

  /** What `TrimEnd` cuts is white space behind what it keeps. */
  lemma {:induction false} TrimEndSplit(s: string)
    ensures var n := |TrimEnd(s)|; s == TrimEnd(s) + s[n..] && AllSpace(s[n..])
  {
    if |s| > 0 && IsSpace(s[|s| - 1]) {
      var u := s[..|s| - 1];
      TrimEndSplit(u);
      var n := |TrimEnd(s)|;
      assert s[n..] == u[n..] + [s[|s| - 1]];
    }
  }

  /** Trimming a trimmed text changes nothing. */
  lemma TrimOfTrimmed(s: string)
    requires IsTrimmed(s)
    ensures Trim(s) == s
  {
  }

  /** Trimming twice is trimming once. */
  lemma TrimIdempotent(s: string)
    ensures Trim(Trim(s)) == Trim(s)
  {
    TrimOfTrimmed(Trim(s));
  }

  /** `TrimStart` removes exactly a white-space prefix in front of a text
      that does not start with white space. */
  lemma {:induction false} TrimStartOfPadded(pre: string, u: string)
    requires AllSpace(pre) && (|u| == 0 || !IsSpace(u[0]))
    ensures TrimStart(pre + u) == u
    decreases |pre|
  {
    if |pre| > 0 {
      assert (pre + u)[0] == pre[0];
      assert (pre + u)[1..] == pre[1..] + u;
      TrimStartOfPadded(pre[1..], u);
    } else {
      assert pre + u == u;
    }
  }

  /** `TrimEnd` removes exactly a white-space suffix behind a text that
      does not end with white space. */
  lemma {:induction false} TrimEndOfPadded(u: string, post: string)
    requires AllSpace(post) && (|u| == 0 || !IsSpace(u[|u| - 1]))
    ensures TrimEnd(u + post) == u
    decreases |post|
  {
    var s := u + post;
    if |post| > 0 {
      assert s[|s| - 1] == post[|post| - 1];
      assert s[..|s| - 1] == u + post[..|post| - 1];
      TrimEndOfPadded(u, post[..|post| - 1]);
    } else {
      assert s == u;
    }
  }

  /** Trimming undoes white-space padding on either side of a trimmed text. */
  lemma TrimOfPadded(pre: string, r: string, post: string)
    requires AllSpace(pre) && AllSpace(post) && IsTrimmed(r)
    ensures Trim(pre + r + post) == r
  {
    if |r| > 0 {
      assert (r + post)[0] == r[0];
      assert pre + r + post == pre + (r + post);
      TrimStartOfPadded(pre, r + post);
      TrimEndOfPadded(r, post);
    } else {
      var none: string := [];
      assert AllSpace(pre + post);
      assert pre + r + post == (pre + post) + none;
      TrimStartOfPadded(pre + post, none);
    }
  }

  /** The original is the trimmed text with white space on either side:
      with `TrimOfPadded`, the trimmed text is the only such core. */
  lemma TrimIsCore(s: string)
    ensures exists pre, post :: AllSpace(pre) && AllSpace(post) && s == pre + Trim(s) + post
  {
    var t := TrimStart(s);
    var r := TrimEnd(t);
    TrimStartSplit(s);
    TrimEndSplit(t);
    var pre, post := s[..|s| - |t|], t[|r|..];
    assert s == pre + t && t == r + post;
    Associative(pre, r, post);
    assert AllSpace(pre) && AllSpace(post) && s == pre + Trim(s) + post;
  }

  lemma Associative(a: string, b: string, c: string)
    ensures a + (b + c) == a + b + c
  {
  }

  // ---------------------------------------------------------------- digits

  /** Value of `c` as a digit in `radix`, letters of either case above 9. */
  function DigitValue(c: char, radix: nat): (r: Option<nat>)
    ensures r.Some? ==> r.value < radix
  {
    var v :=
      if '0' <= c <= '9' then (c as int) - ('0' as int)
      else if 'a' <= c <= 'z' then (c as int) - ('a' as int) + 10
      else if 'A' <= c <= 'Z' then (c as int) - ('A' as int) + 10
      else 36;
    if v < radix then Some(v) else None
  }

  predicate AllDigits(s: string, radix: nat) {
    |s| == 0 || (DigitValue(s[0], radix).Some? && AllDigits(s[1..], radix))
  }

  /** `AllDigits` read character by character. */
  lemma {:induction false} AllDigitsIff(s: string, radix: nat)
    ensures AllDigits(s, radix) <==> forall i :: 0 <= i < |s| ==> DigitValue(s[i], radix).Some?
  {
    if |s| > 0 {
      AllDigitsIff(s[1..], radix);
      assert forall i :: 1 <= i < |s| ==> s[i] == s[1..][i - 1];
    }
  }

  lemma AllDigitsSlice(s: string, i: nat, j: nat, radix: nat)
    requires i <= j <= |s| && AllDigits(s, radix)
    ensures AllDigits(s[i..j], radix)
  {
    AllDigitsIff(s, radix);
    AllDigitsIff(s[i..j], radix);
  }

  /** Length of the longest prefix of `s` made of `radix` digits. */
  function DigitPrefix(s: string, radix: nat): (n: nat)
    ensures n <= |s|
    ensures AllDigits(s[..n], radix)
    ensures n < |s| ==> DigitValue(s[n], radix).None?
  {
    if |s| > 0 && DigitValue(s[0], radix).Some? then
      var n := 1 + DigitPrefix(s[1..], radix);
      assert s[..n][1..] == s[1..][..n - 1];
      n
    else 0
  }

  function Pow(b: nat, e: nat): nat {
    if e == 0 then 1 else b * Pow(b, e - 1)
  }

  /** Positional value of a digit string, most significant digit first. */
  function DigitsValue(s: string, radix: nat): nat
    requires AllDigits(s, radix)
  {
    if |s| == 0 then 0
    else DigitValue(s[0], radix).value * Pow(radix, |s| - 1) + DigitsValue(s[1..], radix)
  }

  lemma {:induction false} PowAdd(b: nat, x: nat, y: nat)
    ensures Pow(b, x + y) == Pow(b, x) * Pow(b, y)
  {
    if x > 0 {
      PowAdd(b, x - 1, y);
      assert Pow(b, x + y) == b * Pow(b, x - 1 + y);
    }
  }

  lemma {:induction false} AllDigitsAppend(a: string, b: string, radix: nat)
    requires AllDigits(a, radix) && AllDigits(b, radix)
    ensures AllDigits(a + b, radix)
  {
    if |a| == 0 {
      assert a + b == b;
    } else {
      assert (a + b)[1..] == a[1..] + b;
      AllDigitsAppend(a[1..], b, radix);
    }
  }

  /** The value of a concatenation shifts the left part by the right part's width. */
  lemma {:induction false} DigitsValueAppend(a: string, b: string, radix: nat)
    requires AllDigits(a, radix) && AllDigits(b, radix)
    ensures AllDigits(a + b, radix)
    ensures DigitsValue(a + b, radix) == DigitsValue(a, radix) * Pow(radix, |b|) + DigitsValue(b, radix)
  {
    AllDigitsAppend(a, b, radix);
    if |a| == 0 {
      assert a + b == b;
    } else {
      assert (a + b)[1..] == a[1..] + b;
      assert (a + b)[0] == a[0];
      DigitsValueAppend(a[1..], b, radix);
      PowAdd(radix, |a| - 1, |b|);
      assert |a + b| - 1 == |a| - 1 + |b|;
      ShiftDistributes(DigitValue(a[0], radix).value, Pow(radix, |a| - 1), Pow(radix, |b|),
                       DigitsValue(a[1..], radix), DigitsValue(b, radix));
    }
  }

  lemma ShiftDistributes(d: int, p: int, q: int, x: int, y: int)
    ensures d * (p * q) + (x * q + y) == (d * p + x) * q + y
  {
  }

  /** A run of `n` copies of `c`. */
  function Repeat(c: char, n: nat): (r: string)
    ensures |r| == n
  {
    if n == 0 then [] else [c] + Repeat(c, n - 1)
  }

  lemma {:induction false} RepeatContents(c: char, n: nat)
    ensures forall k :: 0 <= k < n ==> Repeat(c, n)[k] == c
  {
    if n > 0 {
      RepeatContents(c, n - 1);
      assert forall k :: 1 <= k < n ==> Repeat(c, n)[k] == Repeat(c, n - 1)[k - 1];
    }
  }

  /** Zeros in front do not change a digit string's value. */
  lemma {:induction false} ZerosValue(n: nat, radix: nat)
    requires radix >= 1
    ensures AllDigits(Repeat('0', n), radix)
    ensures DigitsValue(Repeat('0', n), radix) == 0
  {
    if n > 0 {
      var z := Repeat('0', n);
      ZerosValue(n - 1, radix);
      assert z[1..] == Repeat('0', n - 1);
    }
  }

  // -------------------------------------------------------------- parseInt

  /** `parseInt(s, 10)` when `autoRadix` is false, `parseInt(s)` when it is
      true (section 19.2.5 of ECMA-262): skip leading white space, read an
      optional sign, with no radix given drop a `0x`/`0X` prefix and read hex,
      then take the longest digit prefix; no digit at all is NaN (`None`).
      Negative zero is returned as 0. */
  function ParseInt(s: string, autoRadix: bool): (r: Option<int>)
    ensures TrimStart(s) == "" ==> r.None?
    ensures r.Some? && r.value < 0 ==> TrimStart(s)[0] == '-'
  {
    var t := TrimStart(s);
    var negative := |t| > 0 && t[0] == '-';
    var u := if |t| > 0 && (t[0] == '-' || t[0] == '+') then t[1..] else t;
    var hex := autoRadix && |u| >= 2 && u[0] == '0' && (u[1] == 'x' || u[1] == 'X');
    var radix := if hex then 16 else 10;
    var v := if hex then u[2..] else u;
    var n := DigitPrefix(v, radix);
    if n == 0 then None
    else
      var m: int := DigitsValue(v[..n], radix);
      Some(if negative then -m else m)
  }

  /** A non-empty decimal digit string parses, in either mode, to its value. */
  lemma {:induction false} ParseIntOfDigits(s: string, autoRadix: bool)
    requires |s| > 0 && AllDigits(s, 10)
    ensures ParseInt(s, autoRadix) == Some(DigitsValue(s, 10))
  {
    assert DigitValue(s[0], 10).Some?;
    assert TrimStart(s) == s;
    if |s| >= 2 {
      assert s[1..][0] == s[1];
    }
    DigitPrefixOfDigits(s, 10);
    assert s[..|s|] == s;
  }

  lemma {:induction false} DigitPrefixOfDigits(s: string, radix: nat)
    requires AllDigits(s, radix)
    ensures DigitPrefix(s, radix) == |s|
  {
    if |s| > 0 {
      DigitPrefixOfDigits(s[1..], radix);
    }
  }

  // ------------------------------------------------------- number to string

  function DigitChar(d: nat): (c: char)
    requires d < 10
    ensures DigitValue(c, 10) == Some(d)
  {
    (('0' as int) + d) as char
  }

  /** `String(n)` for a non-negative integer: its shortest decimal spelling. */
  function NatToString(n: nat): (r: string)
    ensures 1 <= |r|
    ensures AllDigits(r, 10)
    ensures DigitsValue(r, 10) == n
    ensures |r| > 1 ==> r[0] != '0'
  {
    if n < 10 then [DigitChar(n)]
    else
      var p := NatToString(n / 10);
      AppendDigit(p, n / 10, n % 10);
      p + [DigitChar(n % 10)]
  }

  /** Writing one more digit `d` after the spelling of `q` spells `10q + d`. */
  lemma AppendDigit(p: string, q: nat, d: nat)
    requires d < 10 && 1 <= q
    requires 1 <= |p| && AllDigits(p, 10) && DigitsValue(p, 10) == q
    requires |p| > 1 ==> p[0] != '0'
    ensures AllDigits(p + [DigitChar(d)], 10)
    ensures DigitsValue(p + [DigitChar(d)], 10) == 10 * q + d
    ensures (p + [DigitChar(d)])[0] != '0'
  {
    var e := [DigitChar(d)];
    DigitsValueAppend(p, e, 10);
    assert Pow(10, 1) == 10;
    assert DigitsValue(e, 10) == d by {
      assert e[1..] == [];
    }
    if |p| == 1 {
      assert p[1..] == [];
      assert DigitValue(p[0], 10).value == q;
    }
  }

  /** `String(i)` for an integer. */
  function IntToString(i: int): string {
    if i < 0 then "-" + NatToString(-i) else NatToString(i)
  }

  /** `parseInt` reads back what `String` writes. */
  lemma {:induction false} ParseIntOfIntToString(i: int, autoRadix: bool)
    ensures ParseInt(IntToString(i), autoRadix) == Some(i)
  {
    var d := NatToString(if i < 0 then -i else i);
    if i < 0 {
      var s := IntToString(i);
      assert TrimStart(s) == s;
      assert s[1..] == d;
      assert DigitValue(d[0], 10).Some?;
      if |d| >= 2 {
        assert d[1..][0] == d[1];
      }
      DigitPrefixOfDigits(d, 10);
      assert d[..|d|] == d;
    } else {
      ParseIntOfDigits(d, autoRadix);
    }
  }

  /** The digit prefix of digits followed by a non-digit is those digits. */
  lemma {:induction false} DigitPrefixThen(d: string, suffix: string, radix: nat)
    requires AllDigits(d, radix)
    requires |suffix| > 0 ==> DigitValue(suffix[0], radix).None?
    ensures DigitPrefix(d + suffix, radix) == |d|
  {
    if |d| == 0 {
      assert d + suffix == suffix;
    } else {
      assert (d + suffix)[0] == d[0];
      assert (d + suffix)[1..] == d[1..] + suffix;
      DigitPrefixThen(d[1..], suffix, radix);
    }
  }

  /** `parseInt(String(i) + suffix, 10)` is `i` when the suffix does not
      start with a digit: the reading stops where the number ends. */
  lemma ParseIntOfIntToStringThen(i: int, suffix: string)
    requires |suffix| > 0 ==> DigitValue(suffix[0], 10).None?
    ensures ParseInt(IntToString(i) + suffix, false) == Some(i)
  {
    var d := NatToString(if i < 0 then -i else i);
    UnsignedDigitsParse(d, suffix);
    if i < 0 {
      assert IntToString(i) + suffix == "-" + (d + suffix);
      NegatedDigitsParse(d + suffix);
    }
  }

  /** Decimal digits followed by a non-digit parse, without hex detection,
      to the value of the digits. */
  lemma UnsignedDigitsParse(d: string, suffix: string)
    requires |d| > 0 && AllDigits(d, 10)
    requires |suffix| > 0 ==> DigitValue(suffix[0], 10).None?
    ensures ParseInt(d + suffix, false) == Some(DigitsValue(d, 10) as int)
  {
    var u := d + suffix;
    assert DigitValue(d[0], 10).Some?;
    assert u[0] == d[0];
    assert TrimStart(u) == u;
    DigitPrefixThen(d, suffix, 10);
    assert u[..|d|] == d;
  }

  /** A minus in front of text that starts with a digit negates its value. */
  lemma NegatedDigitsParse(u: string)
    requires |u| > 0 && DigitValue(u[0], 10).Some?
    ensures ParseInt(u, false).Some? && ParseInt("-" + u, false) == Some(-ParseInt(u, false).value)
  {
    var s := "-" + u;
    assert TrimStart(u) == u;
    assert TrimStart(s) == s;
    assert s[1..] == u;
  }

  /** A number below 10^k needs at most k digits. */
  lemma {:induction false} NatToStringLength(n: nat, k: nat)
    requires 1 <= k && n < Pow(10, k)
    ensures |NatToString(n)| <= k
  {
    if n >= 10 {
      NatToStringLength(n / 10, k - 1);
    }
  }

  /** `s.padStart(width, fill)`: `s` unchanged when it is long enough,
      otherwise `fill` repeated in front of it up to `width` characters. */
  function PadStart(s: string, width: nat, fill: char): (r: string)
    ensures |r| == if |s| >= width then |s| else width
    ensures r == Repeat(fill, |r| - |s|) + s
  {
    if |s| >= width then s else Repeat(fill, width - |s|) + s
  }

  /** A decimal number zero-padded to `width` digits, with `width` large
      enough: exactly `width` digits that parse back to the number. */
  lemma {:induction false} PaddedNumber(n: nat, width: nat, autoRadix: bool)
    requires 1 <= width && n < Pow(10, width)
    ensures |PadStart(NatToString(n), width, '0')| == width
    ensures AllDigits(PadStart(NatToString(n), width, '0'), 10)
    ensures DigitsValue(PadStart(NatToString(n), width, '0'), 10) == n
    ensures ParseInt(PadStart(NatToString(n), width, '0'), autoRadix) == Some(n)
  {
    NatToStringLength(n, width);
    var d := NatToString(n);
    var z := Repeat('0', width - |d|);
    var padded := PadStart(d, width, '0');
    assert padded == z + d;
    ZerosValue(width - |d|, 10);
    DigitsValueAppend(z, d, 10);
    assert DigitsValue(z + d, 10) == n by {
      assert DigitsValue(z, 10) * Pow(10, |d|) == 0;
    }
    ParseIntOfDigits(z + d, autoRadix);
  }
}

=== FILE: patient_table.dfy ===
/** The queue table (frontend/src/components/PatientTable.jsx): how each
    cell of a patient's row is rendered, which columns privacy mode keeps,
    and the class that colours the row. */
module PatientTable {
  import opened Common
  import opened JsText
  import opened Patients
  import DateConverter
  import SocketService

  /** The badge styles the status column uses. */
  datatype Badge = Processing | WarningBadge | DefaultBadge | SuccessBadge

  datatype StatusView = StatusView(text: string, badge: Badge)

  /** `statusConfig`: the six codes the table knows. */
  function StatusConfig(status: string): Option<StatusView> {
    if status == "I" then Some(StatusView("看診中", Processing))
    else if status == "A" then Some(StatusView("候診中", WarningBadge))
    else if status == "0" then Some(StatusView("保留", DefaultBadge))
    else if status == "E" then Some(StatusView("預約未到", DefaultBadge))
    else if status == "H" then Some(StatusView("已取消", DefaultBadge))
    else if status == "F" then Some(StatusView("已完診", SuccessBadge))
    else None
  }

  /** The codes with an entry of their own. */
  const KnownStatuses := ["I", "A", "0", "E", "H", "F"]

  /** The status cell: the code's entry, or the entry of `A` for a code
      the table does not know. */
  function StatusCell(status: string): (r: StatusView)
    ensures status !in KnownStatuses ==> r == StatusView("候診中", WarningBadge)
    ensures status in KnownStatuses ==> Some(r) == StatusConfig(status)
  {
    match StatusConfig(status)
    case Some(v) => v
    case None => StatusView("候診中", WarningBadge)
  }

  /** Two codes render alike exactly when they are the same code, or both
      fall back to the waiting entry (`A` or an unknown code). */
  lemma StatusCellDistinguishes(s1: string, s2: string)
    ensures StatusCell(s1) == StatusCell(s2) <==>
              s1 == s2 || ((s1 == "A" || s1 !in KnownStatuses) && (s2 == "A" || s2 !in KnownStatuses))
  {
    assert "看診中"[0] != "候診中"[0] && "保留"[0] != "候診中"[0] && "預約未到"[0] != "候診中"[0];
    assert "已取消"[0] != "候診中"[0] && "已完診"[0] != "候診中"[0];
    assert "已取消"[1] != "已完診"[1];
  }

  /** `identityConfig[identity] || identityConfig['其他']`: the tag's colour. */
  function IdentityColor(identity: string): (r: string)
    ensures r in ["blue", "default", "orange"]
  {
    if identity == "健保" then "blue"
    else if identity == "自費" then "default"
    else "orange"
  }

  /** Insured patients are blue, self-paying ones plain, and every other
      label, known or not, orange. */
  lemma IdentityColorByLabel(identity: string)
    ensures IdentityColor(identity) == "blue" <==> identity == "健保"
    ensures IdentityColor(identity) == "default" <==> identity == "自費"
    ensures IdentityColor(identity) == "orange" <==> identity != "健保" && identity != "自費"
  {
  }

  /** `rowClassName`. */
  function RowClassName(status: string): (r: string)
    ensures r != "" ==> status in KnownStatuses
  {
    if status == "I" then "row-current"
    else if status == "A" then "row-waiting"
    else if status == "0" then "row-reserved"
    else if status == "F" then "row-completed"
    else if status == "H" then "row-cancelled"
    else ""
  }

  /** Every known code but `E` has a row class of its own; `E` and unknown
      codes have none. */
  lemma RowClassByStatus(s1: string, s2: string)
    ensures RowClassName(s1) == "" <==> s1 == "E" || s1 !in KnownStatuses
    ensures RowClassName(s1) != "" && RowClassName(s1) == RowClassName(s2) ==> s1 == s2
  {
    assert "row-current"[4] != "row-waiting"[4] && "row-current"[4] != "row-reserved"[4];
    assert "row-current"[5] != "row-completed"[5] && "row-current"[5] != "row-cancelled"[5];
    assert "row-waiting"[4] != "row-reserved"[4] && "row-waiting"[4] != "row-completed"[4];
    assert "row-waiting"[4] != "row-cancelled"[4] && "row-reserved"[4] != "row-completed"[4];
    assert "row-reserved"[4] != "row-cancelled"[4] && "row-completed"[5] != "row-cancelled"[5];
  }

  /** The backend leaves the in-consultation code `1` as it is and sorts
      it first, but the table has no entry for it: such a patient shows as
      waiting, with no row class. */
  lemma InConsultationShownAsWaiting()
    ensures SocketService.Priority("1") < SocketService.Priority("0")
    ensures StatusCell("1") == StatusCell("A") && RowClassName("1") == ""
  {
  }

  /** `formatBirthDate`: `-` for a text shorter than seven characters,
      otherwise the ROC year read by `parseInt` plus 1911 (`NaN` when the
      year is not a number), then the month and the day as written. */
  function FormatBirthDate(b: string): (r: string)
    ensures |b| < 7 ==> r == "-"
    ensures |b| >= 7 ==> |r| >= 6 && r[|r| - 6..] == "/" + b[3..5] + "/" + b[5..7]
  {
    if b == "" || |b| < 7 then "-"
    else
      var year := ParseInt(b[0..3], false);
      var yearText := if year.Some? then IntToString(year.value + DateConverter.RocOffset) else "NaN";
      yearText + "/" + b[3..5] + "/" + b[5..7]
  }

  /** On a birth date whose three fields are numbers the table shows the
      Gregorian year the backend's date conversion gives, which reads back
      with `parseInt`, and the month and day as written. */
  lemma BirthDateShowsAdYear(b: string)
    requires |b| == 7 && DateConverter.RocFields(b).Some?
    ensures var year := DateConverter.RocFields(b).value.year;
            FormatBirthDate(b) == IntToString(year) + "/" + b[3..5] + "/" + b[5..7]
            && ParseInt(FormatBirthDate(b), false) == Some(year)
  {
    var year := DateConverter.RocFields(b).value.year;
    var rest := "/" + b[3..5] + "/" + b[5..7];
    assert FormatBirthDate(b) == IntToString(year) + rest;
    ParseIntOfIntToStringThen(year, rest);
  }

  /** Only the first seven characters of a birth date are shown. */
  lemma BirthDateIgnoresRest(b: string)
    requires |b| >= 7
    ensures FormatBirthDate(b) == FormatBirthDate(b[..7])
  {
    assert b[..7][0..3] == b[0..3] && b[..7][3..5] == b[3..5] && b[..7][5..7] == b[5..7];
  }

  /** A birth date whose year is not a number shows `NaN` for the year. */
  lemma BirthDateWithoutYear(b: string)
    requires |b| >= 7 && ParseInt(b[0..3], false).None?
    ensures FormatBirthDate(b) == "NaN/" + b[3..5] + "/" + b[5..7]
  {
  }

  /** `formatTime` of the completion column: HHMMSS → HH:MM:SS for a text
      of exactly six characters, `-` otherwise. */
  function FormatCompleteTime(t: string): (r: string)
    ensures r == "-" <==> |t| != 6
    ensures |t| == 6 ==> |r| == 8 && r[2] == ':' && r[5] == ':'
  {
    if t == "" || |t| != 6 then "-"
    else t[0..2] + ":" + t[2..4] + ":" + t[4..6]
  }

  /** The shape the completion column shows: HH:MM:SS. */
  predicate IsColonTime(r: string) {
    |r| == 8 && r[2] == ':' && r[5] == ':'
  }

  /** The six characters of a colon time, colons removed. */
  function Uncolon(r: string): (t: string)
    requires IsColonTime(r)
    ensures |t| == 6
  {
    r[0..2] + r[3..5] + r[6..8]
  }

  /** The completion column loses nothing: removing the colons gives back
      the stored six characters, and every colon time is the rendering of
      its six characters. */
  lemma CompleteTimeRoundTrip(t: string, r: string)
    ensures |t| == 6 ==> IsColonTime(FormatCompleteTime(t)) && Uncolon(FormatCompleteTime(t)) == t
    ensures IsColonTime(r) ==> FormatCompleteTime(Uncolon(r)) == r
  {
    if |t| == 6 {
      var f := FormatCompleteTime(t);
      assert f[0..2] == t[0..2] && f[3..5] == t[2..4] && f[6..8] == t[4..6];
      assert t == t[0..2] + t[2..4] + t[4..6];
    }
    if IsColonTime(r) {
      var u := Uncolon(r);
      assert u[0..2] == r[0..2] && u[2..4] == r[3..5] && u[4..6] == r[6..8];
      assert r == r[0..2] + ":" + r[3..5] + ":" + r[6..8];
    }
  }

  /** The age column: `-` for a missing or zero age, the number and `歲`
      otherwise. */
  function AgeText(age: Option<int>): (r: string)
    ensures age.None? || age.value == 0 ==> r == "-"
  {
    if age.Some? && age.value != 0 then IntToString(age.value) + "歲" else "-"
  }

  /** A shown age reads back, with `parseInt`, as the age. */
  lemma AgeTextReadsBack(age: Option<int>)
    ensures AgeText(age) != "-" <==> age.Some? && age.value != 0
    ensures age.Some? && age.value != 0 ==> ParseInt(AgeText(age), false) == age
  {
    if age.Some? && age.value != 0 {
      ParseIntOfIntToStringThen(age.value, "歲");
      assert AgeText(age)[|AgeText(age)| - 1] == '歲';
    }
  }

  /** `text || '-'` of the queue number, name and session columns. */
  function OrDash(text: string): (r: string)
    ensures r != ""
    ensures text != "" ==> r == text
  {
    if text == "" then "-" else text
  }

  /** The columns, by key: the birth date only outside privacy mode. */
  function Columns(privacyMode: bool): (r: seq<string>)
    ensures "birthDate" in r <==> !privacyMode
    ensures |r| == if privacyMode then 7 else 8
  {
    ["queueNumber", "name"] + (if privacyMode then [] else ["birthDate"])
    + ["age", "identity", "status", "completeTime", "session"]
  }

  /** One rendered row. */
  datatype Row = Row(
    queueNumber: string,
    name: string,
    birthDate: Option<string>,
    age: string,
    identity: string,
    identityColor: string,
    status: StatusView,
    completeTime: string,
    session: string,
    className: string)

  /** The row a patient renders to. */
  function RenderRow(p: Patient, privacyMode: bool): (r: Row)
    ensures r.birthDate.Some? <==> !privacyMode
    ensures r.queueNumber != "" && r.name != "" && r.session != ""
    ensures r.identity == p.identity
  {
    Row(OrDash(p.queueNumber), OrDash(p.name),
        if privacyMode then None else Some(FormatBirthDate(p.birthDate)),
        AgeText(p.age), p.identity, IdentityColor(p.identity), StatusCell(p.status),
        FormatCompleteTime(p.completeTime), OrDash(p.session), RowClassName(p.status))
  }

  /** Privacy mode on both ends: the backend's masked record still renders
      its status, age, completion time and session as the unmasked record
      does, and the table shows no birth date. */
  lemma PrivacyRowKeepsQueueFacts(p: Patient)
    ensures var masked := RenderRow(SocketService.Mask(p), true);
            var plain := RenderRow(p, true);
            masked.status == plain.status && masked.className == plain.className
            && masked.age == plain.age && masked.completeTime == plain.completeTime
            && masked.session == plain.session && masked.birthDate.None?
  {
  }
}

=== FILE: patients.dfy ===
/** The patient record the backend builds from one table row and every
    client receives, with the list filters both sides apply to it. */
module Patients {
  import opened Common

  /** One row of the day's queue (the object `parseRecordFromBuffer` builds). */
  datatype Patient = Patient(
    patientId: string,
    queueNumber: string,
    name: string,
    age: Option<int>,
    birthDate: string,
    idNumber: string,
    identity: string,
    status: string,
    session: string,
    beginTime: string,
    completeTime: string,
    rawStatus: string)

  /** Backend status codes: 1 in consultation, 0 waiting, E booked but not
      arrived, H cancelled, F finished. */
  const Scheduled := "E"
  const Cancelled := "H"
  const Finished := "F"

  /** The conditions the `Array.filter` calls of the system test. */
  datatype Criterion =
    | StatusIs(code: string)
    | StatusIsNot(code: string)
    | StatusNoneOf(codes: seq<string>)
    | SessionIs(session: string)

  predicate Meets(p: Patient, c: Criterion) {
    match c
    case StatusIs(code) => p.status == code
    case StatusIsNot(code) => p.status != code
    case StatusNoneOf(codes) => p.status !in codes
    case SessionIs(s) => p.session == s
  }

  /** A criterion that looks at the status only. */
  predicate OnStatus(c: Criterion) {
    !c.SessionIs?
  }

  /** `a` is `b` with some elements left out, the rest in their order. */
  predicate IsSubsequence(a: seq<Patient>, b: seq<Patient>)
    decreases |b|
  {
    |a| == 0 || (|b| > 0 && ((a[0] == b[0] && IsSubsequence(a[1..], b[1..])) || IsSubsequence(a, b[1..])))
  }

  /** `ps.filter(p => Meets(p, c))`. */
  function Filter(ps: seq<Patient>, c: Criterion): (r: seq<Patient>)
    ensures |r| <= |ps|
    ensures forall i :: 0 <= i < |r| ==> Meets(r[i], c)
  {
    if |ps| == 0 then []
    else
      var rest := Filter(ps[1..], c);
      if Meets(ps[0], c) then
        assert ([ps[0]] + rest)[1..] == rest;
        [ps[0]] + rest
      else
        rest
  }

  /** The filter keeps exactly the members that meet the criterion ... */
  lemma {:induction false} FilterMembers(ps: seq<Patient>, c: Criterion)
    ensures forall p :: p in Filter(ps, c) <==> p in ps && Meets(p, c)
  {
    if |ps| > 0 {
      FilterMembers(ps[1..], c);
      assert forall p :: p in ps <==> p == ps[0] || p in ps[1..] by {
        assert ps == [ps[0]] + ps[1..];
      }
    }
  }

  /** ... in their original order. */
  lemma {:induction false} FilterIsSubsequence(ps: seq<Patient>, c: Criterion)
    ensures IsSubsequence(Filter(ps, c), ps)
  {
    if |ps| > 0 {
      FilterIsSubsequence(ps[1..], c);
      var rest := Filter(ps[1..], c);
      if Meets(ps[0], c) {
        assert ([ps[0]] + rest)[1..] == rest;
      }
    }
  }

  /** The number of patients meeting `c`: `ps.filter(...).length`. */
  function Count(ps: seq<Patient>, c: Criterion): nat {
    |Filter(ps, c)|
  }

  /** A count is the first patient's share plus the count of the rest. */
  lemma CountStep(ps: seq<Patient>, c: Criterion)
    requires |ps| > 0
    ensures Count(ps, c) == (if Meets(ps[0], c) then 1 else 0) + Count(ps[1..], c)
  {
  }

  /** Filtering distributes over concatenation, so order is kept. */
  lemma {:induction false} FilterAppend(a: seq<Patient>, b: seq<Patient>, c: Criterion)
    ensures Filter(a + b, c) == Filter(a, c) + Filter(b, c)
  {
    if |a| == 0 {
      assert a + b == b;
    } else {
      assert (a + b)[1..] == a[1..] + b;
      FilterAppend(a[1..], b, c);
    }
  }

  /** Filtering twice by the same criterion is filtering once. */
  lemma {:induction false} FilterIdempotent(ps: seq<Patient>, c: Criterion)
    ensures Filter(Filter(ps, c), c) == Filter(ps, c)
  {
    if |ps| > 0 {
      FilterIdempotent(ps[1..], c);
      if Meets(ps[0], c) {
        assert ([ps[0]] + Filter(ps[1..], c))[1..] == Filter(ps[1..], c);
      }
    }
  }

  /** A filter keeps everything exactly when every element meets it. */
  lemma {:induction false} FilterKeepsAll(ps: seq<Patient>, c: Criterion)
    ensures Filter(ps, c) == ps <==> forall i :: 0 <= i < |ps| ==> Meets(ps[i], c)
  {
    if |ps| > 0 {
      var rest := ps[1..];
      FilterKeepsAll(rest, c);
      if !Meets(ps[0], c) {
        assert Filter(ps, c) == Filter(rest, c);
        assert |Filter(ps, c)| < |ps|;
      } else {
        assert Filter(ps, c) == [ps[0]] + Filter(rest, c);
        assert ps == [ps[0]] + rest;
        assert (forall i :: 0 <= i < |ps| ==> Meets(ps[i], c))
               <==> (forall i :: 0 <= i < |rest| ==> Meets(rest[i], c)) by {
          assert forall i :: 0 <= i < |rest| ==> rest[i] == ps[i + 1];
        }
      }
    }
  }

  /** Two filters commute. */
  lemma {:induction false} FilterCommutes(ps: seq<Patient>, c: Criterion, d: Criterion)
    ensures Filter(Filter(ps, c), d) == Filter(Filter(ps, d), c)
  {
    if |ps| > 0 {
      FilterCommutes(ps[1..], c, d);
      var x := ps[0];
      if Meets(x, c) {
        assert ([x] + Filter(ps[1..], c))[1..] == Filter(ps[1..], c);
      }
      if Meets(x, d) {
        assert ([x] + Filter(ps[1..], d))[1..] == Filter(ps[1..], d);
      }
    }
  }

  /** Filters of lists holding the same elements hold the same elements. */
  lemma {:induction false} FilterPermutation(a: seq<Patient>, b: seq<Patient>, c: Criterion)
    requires multiset(a) == multiset(b)
    ensures multiset(Filter(a, c)) == multiset(Filter(b, c))
    decreases |a|
  {
    if |a| == 0 {
      assert |multiset(b)| == 0;
    } else {
      var x := a[0];
      assert x in multiset(b);
      var i :| 0 <= i < |b| && b[i] == x;
      var b' := b[..i] + b[i + 1..];
      assert b == b[..i] + [x] + b[i + 1..];
      assert a == [x] + a[1..];
      calc {
        multiset(b);
        multiset(b[..i] + [x] + b[i + 1..]);
        multiset(b[..i]) + multiset{x} + multiset(b[i + 1..]);
        multiset(b') + multiset{x};
      }
      assert multiset(a) == multiset(a[1..]) + multiset{x};
      assert multiset(a[1..]) == multiset(b') by {
        assert multiset(a[1..]) + multiset{x} == multiset(b') + multiset{x};
        assert multiset(a[1..]) == multiset(a[1..]) + multiset{x} - multiset{x};
        assert multiset(b') == multiset(b') + multiset{x} - multiset{x};
      }
      FilterPermutation(a[1..], b', c);
      FilterAppend(b[..i] + [x], b[i + 1..], c);
      FilterAppend(b[..i], [x], c);
      FilterAppend(b[..i], b[i + 1..], c);
      FilterAppend([x], a[1..], c);
    }
  }

  lemma CountPermutation(a: seq<Patient>, b: seq<Patient>, c: Criterion)
    requires multiset(a) == multiset(b)
    ensures Count(a, c) == Count(b, c)
  {
    FilterPermutation(a, b, c);
    assert |multiset(Filter(a, c))| == |multiset(Filter(b, c))|;
  }

  /** Subsequences compose. */
  lemma {:induction false} SubsequenceTransitive(a: seq<Patient>, b: seq<Patient>, c: seq<Patient>)
    requires IsSubsequence(a, b) && IsSubsequence(b, c)
    ensures IsSubsequence(a, c)
    decreases |c|
  {
    if |a| > 0 {
      if b[0] == c[0] && IsSubsequence(b[1..], c[1..]) {
        if a[0] == b[0] && IsSubsequence(a[1..], b[1..]) {
          SubsequenceTransitive(a[1..], b[1..], c[1..]);
        } else {
          SubsequenceTransitive(a, b[1..], c[1..]);
        }
      } else {
        SubsequenceTransitive(a, b, c[1..]);
      }
    }
  }

  /** Every list is a subsequence of itself. */
  lemma {:induction false} SubsequenceReflexive(a: seq<Patient>)
    ensures IsSubsequence(a, a)
  {
    if |a| > 0 {
      SubsequenceReflexive(a[1..]);
    }
  }

  /** A subsequence has no more elements than the list it comes from,
      and only elements of that list. */
  lemma {:induction false} SubsequenceBounds(a: seq<Patient>, b: seq<Patient>)
    requires IsSubsequence(a, b)
    ensures |a| <= |b|
    ensures forall p :: p in a ==> p in b
    decreases |b|
  {
    if |a| > 0 {
      if a[0] == b[0] && IsSubsequence(a[1..], b[1..]) {
        SubsequenceBounds(a[1..], b[1..]);
        assert forall p :: p in a ==> p == a[0] || p in a[1..];
      } else {
        SubsequenceBounds(a, b[1..]);
      }
    }
  }

  /** Lists that agree position by position on the status agree on every
      count that looks at the status only. */
  lemma {:induction false} CountSameStatuses(a: seq<Patient>, b: seq<Patient>, c: Criterion)
    requires OnStatus(c)
    requires |a| == |b| && forall i :: 0 <= i < |a| ==> a[i].status == b[i].status
    ensures Count(a, c) == Count(b, c)
  {
    if |a| > 0 {
      assert forall i :: 0 <= i < |a| - 1 ==> a[1..][i] == a[i + 1] && b[1..][i] == b[i + 1];
      CountSameStatuses(a[1..], b[1..], c);
    }
  }

  /** Filtering by `d` first does not change a count by `c` when every
      patient meeting `c` also meets `d`. */
  lemma CountAfterWeakerFilter(ps: seq<Patient>, c: Criterion, d: Criterion)
    requires forall p :: Meets(p, c) ==> Meets(p, d)
    ensures Count(Filter(ps, d), c) == Count(ps, c)
  {
    FilterCommutes(ps, d, c);
    FilterKeepsAll(Filter(ps, c), d);
  }
}

=== FILE: session_filter.dfy ===
/** The session picker (frontend/src/components/SessionFilter.jsx): the
    session a page opens on, chosen from the local hour once, and the label
    shown for the current selection. The hour is an input. */
module SessionFilter {
  import opened Common

  const Morning := "早"
  const Afternoon := "午"
  const Evening := "晚"
  const AllSessions := "全部"

  /** `getDefaultSession` at the local hour `hour`. */
  function DefaultSession(hour: int): (r: string)
    ensures r in [Morning, Afternoon, Evening, AllSessions]
  {
    if 8 <= hour < 12 then Morning
    else if 12 <= hour < 18 then Afternoon
    else if 18 <= hour < 24 then Evening
    else AllSessions
  }

  /** Each hour of the day gets exactly one label: mornings from 8, the
      afternoon from 12, the evening from 18, and everything before 8
      shows all sessions. */
  lemma DefaultSessionByHour(hour: int)
    requires 0 <= hour < 24
    ensures DefaultSession(hour) == Morning <==> 8 <= hour < 12
    ensures DefaultSession(hour) == Afternoon <==> 12 <= hour < 18
    ensures DefaultSession(hour) == Evening <==> 18 <= hour < 24
    ensures DefaultSession(hour) == AllSessions <==> hour < 8
  {
    assert Morning[0] != Afternoon[0] && Morning[0] != Evening[0] && Afternoon[0] != Evening[0];
    assert Morning[0] != AllSessions[0] && Afternoon[0] != AllSessions[0] && Evening[0] != AllSessions[0];
  }

  /** The component's `initialized` ref. */
  datatype Picker = Picker(initialized: bool)

  /** The effect run on a render with `selected` the store's selection:
      the first time it sees no selection it marks itself initialised and
      asks for the default session; otherwise it asks for nothing. */
  function InitEffect(p: Picker, selected: Option<string>, hour: int): (r: (Picker, Option<string>))
    ensures r.1.Some? <==> !p.initialized && selected.None?
    ensures r.1.Some? ==> r.1.value == DefaultSession(hour)
    ensures r.0.initialized == (p.initialized || selected.None?)
  {
    if !p.initialized && selected.None? then (Picker(true), Some(DefaultSession(hour)))
    else (p, None)
  }

  /** Renders whose selection is either kept or replaced by the request of
      the effect: the default is requested at most once over any run. */
  function Requests(p: Picker, selections: seq<Option<string>>, hours: seq<int>): nat
    requires |hours| == |selections|
    decreases |selections|
  {
    if |selections| == 0 then 0
    else
      var (p', req) := InitEffect(p, selections[0], hours[0]);
      (if req.Some? then 1 else 0) + Requests(p', selections[1..], hours[1..])
  }

  lemma {:induction false} RequestsOnce(p: Picker, selections: seq<Option<string>>, hours: seq<int>)
    requires |hours| == |selections|
    ensures Requests(p, selections, hours) <= (if p.initialized then 0 else 1)
    decreases |selections|
  {
    if |selections| > 0 {
      var (p', req) := InitEffect(p, selections[0], hours[0]);
      RequestsOnce(p', selections[1..], hours[1..]);
    }
  }

  /** The button shown as selected: `selectedSession || '全部'`. */
  function Displayed(selected: Option<string>): (r: string)
    ensures selected.Some? && selected.value != "" ==> r == selected.value
  {
    if selected.Some? && selected.value != "" then selected.value else AllSessions
  }

  /** No selection, or an empty one, shows as all sessions. */
  lemma DisplayedWithoutSelection(selected: Option<string>)
    ensures Displayed(selected) == AllSessions <==> selected.None? || selected.value in ["", AllSessions]
  {
  }
}

=== FILE: socket_client.dfy ===
/** The browser's connection wrapper (frontend/src/services/socketClient.js):
    a registry of listeners per event name, the translation of socket events
    into notifications for those listeners, and the two requests the page
    sends, which go out only while connected. Callbacks are known by
    identity; what calling one does is a parameter of `emit`. */
module SocketClient {
  import opened Common
  import opened ClinicStore

  /** A registered function, by identity. */
  type Callback = nat

  const MaxReconnectAttempts := 10
  const ReconnectFailedMessage := "無法連接到伺服器，請檢查網路連線或聯絡系統管理員"

  /** What the client hands its listeners. */
  datatype Payload =
    | StatusPatch(patch: ConnectionPatch)
    | Attempt(attempt: int, max: int)
    | Refused(message: string)
    | Data(data: Received)
    | ServerError(kind: string, message: string)

  /** One `this.emit(event, data)`. */
  datatype Note = Note(event: string, payload: Payload)

  /** The requests sent to the backend. */
  datatype Outgoing = SettingsOut(settings: UiSettings) | RequestOut

  datatype Socket = Socket(connected: bool)

  /** The client's fields, with the requests sent so far. */
  datatype Client = Client(
    socket: Option<Socket>,
    listeners: map<string, seq<Callback>>,
    reconnectAttempts: int,
    url: Option<string>,
    sent: seq<Outgoing>)

  /** The client as constructed. */
  const Unconnected := Client(None, map[], 0, None, [])

  /** `this.listeners.get(event) || []`. */
  function Listeners(c: Client, event: string): seq<Callback> {
    if event in c.listeners then c.listeners[event] else []
  }

  /** `on`: the callback joins the end of the event's list. */
  function On(c: Client, event: string, cb: Callback): (r: Client)
    ensures Listeners(r, event) == Listeners(c, event) + [cb]
    ensures forall e :: e != event ==> Listeners(r, e) == Listeners(c, e)
    ensures r.(listeners := c.listeners) == c
  {
    c.(listeners := c.listeners[event := Listeners(c, event) + [cb]])
  }

  /** `indexOf`: the first position of `x`, or -1. */
  function IndexOf(s: seq<Callback>, x: Callback): (i: int)
    ensures -1 <= i < |s|
    ensures i == -1 <==> x !in s
    ensures i >= 0 ==> s[i] == x && x !in s[..i]
  {
    if |s| == 0 then -1
    else if s[0] == x then 0
    else
      var j := IndexOf(s[1..], x);
      if j == -1 then -1
      else
        assert s[..j + 1] == [s[0]] + s[1..][..j];
        j + 1
  }

  /** `splice(indexOf(x), 1)` on a list that holds `x`: one `x` goes. */
  function RemoveFirst(s: seq<Callback>, x: Callback): (r: seq<Callback>)
    ensures |r| == if x in s then |s| - 1 else |s|
    ensures x !in s ==> r == s
  {
    if |s| == 0 then []
    else if s[0] == x then s[1..]
    else
      assert x in s <==> x in s[1..] by {
        assert s == [s[0]] + s[1..];
      }
      [s[0]] + RemoveFirst(s[1..], x)
  }

  /** Exactly one copy of `x` goes, when there is one, and nothing else. */
  lemma {:induction false} RemoveFirstCounts(s: seq<Callback>, x: Callback)
    ensures multiset(RemoveFirst(s, x)) == multiset(s) - multiset{x}
  {
    if |s| > 0 {
      assert s == [s[0]] + s[1..];
      if s[0] != x {
        RemoveFirstCounts(s[1..], x);
      }
    }
  }

  /** The copy removed is the first: what comes before it and what comes
      after it stay, in order. */
  lemma {:induction false} RemoveFirstAt(s: seq<Callback>, x: Callback)
    requires x in s
    ensures var i := IndexOf(s, x);
            RemoveFirst(s, x) == s[..i] + s[i + 1..]
  {
    if s[0] != x {
      var tail := s[1..];
      assert s == [s[0]] + tail;
      assert x in tail;
      RemoveFirstAt(tail, x);
      var j := IndexOf(tail, x);
      assert RemoveFirst(s, x) == [s[0]] + (tail[..j] + tail[j + 1..]);
      assert s[..j + 1] == [s[0]] + tail[..j];
      assert s[j + 2..] == tail[j + 1..];
    }
  }

  /** Removing a value from a list with that value appended removes the
      first copy: the appended one when the list did not hold it. */
  lemma {:induction false} RemoveFirstAppend(s: seq<Callback>, x: Callback)
    ensures RemoveFirst(s + [x], x) == if x in s then RemoveFirst(s, x) + [x] else s
  {
    if |s| == 0 {
      assert [x][1..] == [];
    } else {
      var tail := s[1..];
      assert s == [s[0]] + tail;
      assert (s + [x])[0] == s[0] && (s + [x])[1..] == tail + [x];
      if s[0] == x {
        assert RemoveFirst(s + [x], x) == tail + [x];
        assert RemoveFirst(s, x) == tail;
      } else {
        RemoveFirstAppend(tail, x);
        assert RemoveFirst(s + [x], x) == [s[0]] + RemoveFirst(tail + [x], x);
        assert x in s <==> x in tail;
        if x in tail {
          assert RemoveFirst(s, x) == [s[0]] + RemoveFirst(tail, x);
          assert [s[0]] + (RemoveFirst(tail, x) + [x]) == ([s[0]] + RemoveFirst(tail, x)) + [x];
        } else {
          assert [s[0]] + tail == s;
        }
      }
    }
  }

  /** `off`: the first registration of that callback for that event is
      removed; the rest keep their order. */
  function Off(c: Client, event: string, cb: Callback): (r: Client)
    ensures forall e :: e != event ==> Listeners(r, e) == Listeners(c, e)
    ensures cb !in Listeners(c, event) ==> r == c
    ensures Listeners(r, event) == RemoveFirst(Listeners(c, event), cb)
    ensures r.(listeners := c.listeners) == c
  {
    if event !in c.listeners || cb !in c.listeners[event] then c
    else c.(listeners := c.listeners[event := RemoveFirst(c.listeners[event], cb)])
  }

  /** Registering a callback and removing it again restores the list when
      it was not registered before; when it was, the earlier registration
      goes and the new one stays at the end. */
  lemma OnThenOff(c: Client, event: string, cb: Callback)
    ensures cb !in Listeners(c, event) ==> Listeners(Off(On(c, event, cb), event, cb), event) == Listeners(c, event)
    ensures cb in Listeners(c, event) ==>
              Listeners(Off(On(c, event, cb), event, cb), event) == RemoveFirst(Listeners(c, event), cb) + [cb]
  {
    RemoveFirstAppend(Listeners(c, event), cb);
  }

  /** The state after calling `cb`: what `run` gives, or the state as it
      was when the call throws (`None`) and `emit` catches the error. */
  function After<S>(run: (Callback, S) -> Option<S>, cb: Callback, s: S): S {
    match run(cb, s)
    case Some(t) => t
    case None => s
  }

  /** The callbacks of `cbs` called one after the other on a state, the
      first one first. */
  function Notify<S>(cbs: seq<Callback>, run: (Callback, S) -> Option<S>, s: S): S
    decreases |cbs|
  {
    if |cbs| == 0 then s else Notify(cbs[1..], run, After(run, cbs[0], s))
  }

  /** Calling two runs of callbacks is calling the first, then the second. */
  lemma {:induction false} NotifyAppend<S>(a: seq<Callback>, b: seq<Callback>, run: (Callback, S) -> Option<S>, s: S)
    ensures Notify(a + b, run, s) == Notify(b, run, Notify(a, run, s))
    decreases |a|
  {
    if |a| > 0 {
      assert (a + b)[1..] == a[1..] + b;
      NotifyAppend(a[1..], b, run, After(run, a[0], s));
    } else {
      assert a + b == b;
    }
  }

  /** A single callback gives what that call gives. */
  lemma NotifyOne<S>(cb: Callback, run: (Callback, S) -> Option<S>, s: S)
    ensures Notify([cb], run, s) == After(run, cb, s)
  {
    assert [cb][1..] == [];
  }

  /** A callback that always throws is as if it were not registered: the
      callbacks after it still run, on the state the earlier ones left. */
  lemma ThrowingCallbackSkipped<S>(a: seq<Callback>, x: Callback, b: seq<Callback>,
                                   run: (Callback, S) -> Option<S>, s: S)
    requires forall t :: run(x, t).None?
    ensures Notify(a + [x] + b, run, s) == Notify(a + b, run, s)
    ensures Notify(a + [x] + b, run, s) == Notify(b, run, Notify(a, run, s))
  {
    NotifyAppend(a + [x], b, run, s);
    NotifyAppend(a, [x], run, s);
    NotifyAppend(a, b, run, s);
    assert [x][1..] == [];
  }

  /** A property of the state that every call keeps holds after any run of
      callbacks. */
  lemma {:induction false} NotifyKeeps<S>(cbs: seq<Callback>, run: (Callback, S) -> Option<S>, s: S, inv: S -> bool)
    requires inv(s)
    requires forall cb, t :: inv(t) && run(cb, t).Some? ==> inv(run(cb, t).value)
    ensures inv(Notify(cbs, run, s))
    decreases |cbs|
  {
    if |cbs| > 0 {
      NotifyKeeps(cbs[1..], run, After(run, cbs[0], s), inv);
    }
  }

  /** `emit`: every listener of the event is called with the payload, in
      registration order; `run` says what each call does to the state. A
      call that throws is caught and logged, and the later ones still run. */
  method Emit<S>(c: Client, event: string, run: (Callback, S) -> Option<S>, s: S) returns (r: S)
    ensures r == Notify(Listeners(c, event), run, s)
    ensures Listeners(c, event) == [] ==> r == s
  {
    var callbacks := Listeners(c, event);
    r := s;
    var k := 0;
    while k < |callbacks|
      invariant 0 <= k <= |callbacks|
      invariant r == Notify(callbacks[..k], run, s)
    {
      var cb := callbacks[k];
      var outcome := run(cb, r);
      if outcome.Some? {
        r := outcome.value;
      }
      assert callbacks[..k + 1] == callbacks[..k] + [cb];
      NotifyAppend(callbacks[..k], [cb], run, s);
      k := k + 1;
    }
    assert callbacks[..k] == callbacks;
  }

  /** `isConnected`. */
  predicate IsConnected(c: Client) {
    c.socket.Some? && c.socket.value.connected
  }

  /** `connect(url)`: a new socket, not yet connected. */
  function Connect(c: Client, url: string): (r: Client)
    ensures !IsConnected(r) && r.socket.Some? && r.url == Some(url)
    ensures r.listeners == c.listeners && r.sent == c.sent
  {
    c.(url := Some(url), socket := Some(Socket(false)))
  }

  /** What the socket reports to the handlers `connect` installs. */
  datatype SocketEvent =
    | Connected
    | Disconnected(reason: string)
    | ReconnectAttempt(attempt: int)
    | Reconnected(attempt: int)
    | ReconnectFailed
    | ConnectError
    | ClinicData(data: Received)
    | ServerErrorEvent(kind: string, message: string)

  /** A socket event and the notifications it gives the listeners. A
      client with no socket receives nothing. */
  function OnSocket(c: Client, e: SocketEvent): (r: (Client, seq<Note>))
    ensures c.socket.None? ==> r == (c, [])
    ensures r.0.listeners == c.listeners && r.0.sent == c.sent
    ensures |r.1| <= 1
    ensures c.socket.Some? ==> (|r.1| == 0 <==> e.Reconnected? || e.ConnectError?)
    ensures c.socket.Some? ==>
              (IsConnected(r.0) <==> e.Connected? || (IsConnected(c) && !e.Disconnected?))
    ensures c.socket.Some? && e.ClinicData? ==> r.1 == [Note("clinicData", Data(e.data))]
    ensures c.socket.Some? && e.ServerErrorEvent? ==> r.1 == [Note("serverError", ServerError(e.kind, e.message))]
  {
    if c.socket.None? then (c, [])
    else
      match e
      case Connected =>
        (c.(socket := Some(Socket(true)), reconnectAttempts := 0),
         [Note("connectionStatus", StatusPatch(ConnectionPatch(Some(true), None, Some(None), None, None)))])
      case Disconnected(_) =>
        (c.(socket := Some(Socket(false))),
         [Note("connectionStatus", StatusPatch(ConnectionPatch(Some(false), None, None, None, None)))])
      case ReconnectAttempt(n) =>
        (c.(reconnectAttempts := n), [Note("reconnecting", Attempt(n, MaxReconnectAttempts))])
      case Reconnected(_) => (c, [])
      case ReconnectFailed => (c, [Note("connectionError", Refused(ReconnectFailedMessage))])
      case ConnectError => (c, [])
      case ClinicData(d) => (c, [Note("clinicData", Data(d))])
      case ServerErrorEvent(kind, message) => (c, [Note("serverError", ServerError(kind, message))])
  }

  /** What a socket event does to the client, and the notifications it
      gives, do not depend on who is listening. */
  lemma OnSocketIgnoresListeners(c: Client, d: Client, e: SocketEvent)
    requires d == c.(listeners := d.listeners)
    ensures OnSocket(d, e).1 == OnSocket(c, e).1
    ensures OnSocket(d, e).0 == OnSocket(c, e).0.(listeners := d.listeners)
  {
  }

  /** `updateSettings`: sent only over a connected socket. */
  function UpdateSettings(c: Client, s: UiSettings): (r: Client)
    ensures IsConnected(c) ==> r == c.(sent := c.sent + [SettingsOut(s)])
    ensures !IsConnected(c) ==> r == c
  {
    if IsConnected(c) then c.(sent := c.sent + [SettingsOut(s)]) else c
  }

  /** `requestData`: sent only over a connected socket. */
  function RequestData(c: Client): (r: Client)
    ensures IsConnected(c) ==> r == c.(sent := c.sent + [RequestOut])
    ensures !IsConnected(c) ==> r == c
  {
    if IsConnected(c) then c.(sent := c.sent + [RequestOut]) else c
  }

  /** The reason Socket.io reports when the client closes its own socket. */
  const ClientDisconnectReason := "io client disconnect"

  /** `disconnect`: the socket is closed and dropped. Closing a connected
      socket runs its `disconnect` handler at once, before the socket is
      dropped, so the listeners hear that the connection is gone; a socket
      still connecting closes silently. */
  function Disconnect(c: Client): (r: (Client, seq<Note>))
    ensures r.0.socket.None? && !IsConnected(r.0)
    ensures r.0.listeners == c.listeners && r.0.sent == c.sent
    ensures IsConnected(c) ==>
              r.1 == [Note("connectionStatus", StatusPatch(ConnectionPatch(Some(false), None, None, None, None)))]
    ensures !IsConnected(c) ==> r.1 == []
  {
    var notes := if IsConnected(c) then OnSocket(c, Disconnected(ClientDisconnectReason)).1 else [];
    (c.(socket := None), notes)
  }

  /** After `disconnect` nothing is sent and no socket event reaches a
      listener, until the next `connect`. */
  lemma DisconnectSilences(c: Client, s: UiSettings, e: SocketEvent)
    ensures UpdateSettings(Disconnect(c).0, s) == Disconnect(c).0
    ensures RequestData(Disconnect(c).0) == Disconnect(c).0
    ensures OnSocket(Disconnect(c).0, e).1 == []
  {
  }

  /** A connection resets the attempt counter, whatever attempts came
      before; an attempt sets it to the attempt's number. */
  lemma AttemptCounter(c: Client, n: int)
    requires c.socket.Some?
    ensures OnSocket(c, ReconnectAttempt(n)).0.reconnectAttempts == n
    ensures OnSocket(OnSocket(c, ReconnectAttempt(n)).0, Connected).0.reconnectAttempts == 0
    ensures IsConnected(OnSocket(OnSocket(c, ReconnectAttempt(n)).0, Connected).0)
  {
  }
}

=== FILE: socket_hub.dfy ===
/** The connection side of backend/services/socketService.js and the
    `fileChanged` handler of backend/server.js: subscribers connect, change
    their settings, ask for data and leave; on every file change the cache
    is dropped and every subscriber gets the day's list processed with its
    own settings. The transport is a list of messages sent, in order. */
module SocketHub {
  import opened Common
  import opened Patients
  import opened DbfReader
  import opened DbfCache
  import opened SocketService

  /** `socket.id`. */
  type ClientId = string

  /** The two events a subscriber can receive. A `clinicData` event is
      recorded by the snapshot and the settings it is computed from; `Body`
      gives the object that goes over the wire. */
  datatype Payload =
    | ClinicDataMsg(snapshot: Snapshot, settings: Settings)
    | ErrorMsg(kind: string, message: string)

  /** The object a `clinicData` event carries: `processData(rawData, settings)`. */
  function Body(p: Payload): ClinicData
    requires p.ClinicDataMsg?
  {
    ProcessData(p.snapshot, p.settings)
  }

  /** The `error` event a failed read produces. */
  const DataError := ErrorMsg("data_error", "資料讀取失敗，請稍後再試")

  datatype Message = Message(to: ClientId, payload: Payload)

  /** The service's state: the connected sockets in connection order, the
      `socket.data.settings` of each, the reader's cache, the messages
      emitted so far, and how many times the file has been read. */
  datatype Hub = Hub(
    clients: seq<ClientId>,
    settings: map<ClientId, Settings>,
    cache: Cache,
    outbox: seq<Message>,
    fileReads: nat)

  /** The service as started: no one connected, nothing cached. */
  const Start := Hub([], map[], Empty, [], 0)

  /** Every socket is connected once and has settings; nothing else has. */
  predicate Valid(h: Hub) {
    (forall i, j :: 0 <= i < j < |h.clients| ==> h.clients[i] != h.clients[j])
    && (forall id :: id in h.settings ==> id in h.clients)
    && (forall id :: id in h.clients ==> id in h.settings)
  }

  /** `socket.data.settings || { showCancelled: false, privacyMode: false }`. */
  function SettingsOf(h: Hub, id: ClientId): Settings {
    if id in h.settings then h.settings[id] else DefaultSettings
  }

  /** What `sendDataToClient` emits for a `getData` outcome: the data with
      the client's settings, or the fixed `data_error` message. */
  function Reply(o: Outcome, s: Settings): (r: Payload)
    ensures r.ClinicDataMsg? <==> o.result.Success?
    ensures r.ClinicDataMsg? ==> r.snapshot == o.result.value && r.settings == s
    ensures r.ErrorMsg? ==> r == DataError
  {
    match o.result
    case Success(snapshot) => ClinicDataMsg(snapshot, s)
    case Failure(_) => DataError
  }

  /** `sendDataToClient(socket)` at time `now`. */
  function Send(h: Hub, id: ClientId, now: int, load: Result<Snapshot, ReadError>): (r: Hub)
    ensures r.outbox == h.outbox + [Message(id, Reply(GetData(h.cache, now, load), SettingsOf(h, id)))]
    ensures r.fileReads == h.fileReads + 1 <==> !Fresh(h.cache, now)
    ensures r.fileReads == h.fileReads <==> Fresh(h.cache, now)
    ensures r.cache == GetData(h.cache, now, load).cache
    ensures r.clients == h.clients && r.settings == h.settings
  {
    var o := GetData(h.cache, now, load);
    h.(cache := o.cache,
       outbox := h.outbox + [Message(id, Reply(o, SettingsOf(h, id)))],
       fileReads := h.fileReads + if Fresh(h.cache, now) then 0 else 1)
  }

  /** The recipients of a run of messages, in order. */
  function Recipients(ms: seq<Message>): seq<ClientId> {
    seq(|ms|, i requires 0 <= i < |ms| => ms[i].to)
  }

  /** `sendDataToClient` for each of `ids` in turn, all at time `now`:
      each of them gets one message, in that order, and nothing else
      changes about who is connected. */
  function Broadcast(h: Hub, ids: seq<ClientId>, now: int, load: Result<Snapshot, ReadError>): (r: Hub)
    ensures r.clients == h.clients && r.settings == h.settings
    ensures |r.outbox| == |h.outbox| + |ids| && r.outbox[..|h.outbox|] == h.outbox
    ensures Recipients(r.outbox[|h.outbox|..]) == ids
    decreases |ids|
  {
    if |ids| == 0 then
      assert h.outbox[|h.outbox|..] == [];
      h
    else
      var h' := Send(h, ids[0], now, load);
      var r := Broadcast(h', ids[1..], now, load);
      assert r.outbox[..|h.outbox|] == h.outbox by {
        assert r.outbox[..|h.outbox|] == r.outbox[..|h'.outbox|][..|h.outbox|];
      }
      assert r.outbox[|h.outbox|..] == [h'.outbox[|h.outbox|]] + r.outbox[|h'.outbox|..] by {
        assert r.outbox[..|h'.outbox|] == h'.outbox;
      }
      r
  }

  /** `broadcastData`: the loop over `fetchSockets()`. */
  method BroadcastData(h: Hub, now: int, load: Result<Snapshot, ReadError>) returns (r: Hub)
    ensures r == Broadcast(h, h.clients, now, load)
    ensures |r.outbox| == |h.outbox| + |h.clients| && Recipients(r.outbox[|h.outbox|..]) == h.clients
  {
    r := h;
    var i := 0;
    while i < |h.clients|
      invariant 0 <= i <= |h.clients|
      invariant Broadcast(r, h.clients[i..], now, load) == Broadcast(h, h.clients, now, load)
    {
      assert h.clients[i..][1..] == h.clients[i + 1..];
      r := Send(r, h.clients[i], now, load);
      i := i + 1;
    }
    assert h.clients[i..] == [];
  }

  /** The `connection` handler: the socket joins with the default
      settings and is sent the current data at once. */
  function Connect(h: Hub, id: ClientId, now: int, load: Result<Snapshot, ReadError>): (r: Hub)
    ensures Valid(h) ==> Valid(r)
    ensures id in r.clients && SettingsOf(r, id) == DefaultSettings
    ensures |r.outbox| == |h.outbox| + 1 && r.outbox[|h.outbox|].to == id
    ensures forall other :: other != id ==>
              (other in r.clients <==> other in h.clients) && SettingsOf(r, other) == SettingsOf(h, other)
  {
    var joined := if id in h.clients then h.clients else h.clients + [id];
    Send(h.(clients := joined, settings := h.settings[id := DefaultSettings]), id, now, load)
  }

  /** The `updateSettings` handler: both flags through `Boolean()`, then
      the data again with the new settings. A socket that is not connected
      has no handler. */
  function UpdateSettings(h: Hub, id: ClientId, showCancelled: JsValue, privacyMode: JsValue, now: int, load: Result<Snapshot, ReadError>): (r: Hub)
    ensures Valid(h) ==> Valid(r)
    ensures r.clients == h.clients
    ensures id in h.clients ==> SettingsOf(r, id) == Settings(Truthy(showCancelled), Truthy(privacyMode))
                                && |r.outbox| == |h.outbox| + 1 && r.outbox[|h.outbox|].to == id
    ensures id !in h.clients ==> r == h
    ensures forall other :: other != id ==> SettingsOf(r, other) == SettingsOf(h, other)
  {
    if id !in h.clients then h
    else
      var s := Settings(Truthy(showCancelled), Truthy(privacyMode));
      Send(h.(settings := h.settings[id := s]), id, now, load)
  }

  /** The `requestData` handler. */
  function RequestData(h: Hub, id: ClientId, now: int, load: Result<Snapshot, ReadError>): (r: Hub)
    ensures r.clients == h.clients && r.settings == h.settings
    ensures id in h.clients ==> |r.outbox| == |h.outbox| + 1 && r.outbox[|h.outbox|].to == id
    ensures id !in h.clients ==> r == h
  {
    if id !in h.clients then h else Send(h, id, now, load)
  }

  /** The list without `id`, the rest in order. */
  function Without(s: seq<ClientId>, id: ClientId): (r: seq<ClientId>)
    ensures forall x :: x in r <==> x in s && x != id
    ensures |r| <= |s|
  {
    if |s| == 0 then []
    else if s[0] == id then Without(s[1..], id)
    else [s[0]] + Without(s[1..], id)
  }

  lemma {:induction false} WithoutDistinct(s: seq<ClientId>, id: ClientId)
    requires forall i, j :: 0 <= i < j < |s| ==> s[i] != s[j]
    ensures var r := Without(s, id);
            forall i, j :: 0 <= i < j < |r| ==> r[i] != r[j]
    ensures |Without(s, id)| == |s| - (if id in s then 1 else 0)
  {
    if |s| > 0 {
      assert forall i, j :: 0 <= i < j < |s[1..]| ==> s[1..][i] != s[1..][j] by {
        assert forall i :: 0 <= i < |s[1..]| ==> s[1..][i] == s[i + 1];
      }
      WithoutDistinct(s[1..], id);
      assert s[0] !in s[1..] by {
        forall k | 0 <= k < |s[1..]|
          ensures s[1..][k] != s[0]
        {
          assert s[1..][k] == s[k + 1];
        }
      }
      assert id in s <==> id == s[0] || id in s[1..] by {
        assert s == [s[0]] + s[1..];
      }
      var w := Without(s[1..], id);
      if s[0] != id {
        var r := [s[0]] + w;
        forall i, j | 0 <= i < j < |r|
          ensures r[i] != r[j]
        {
          assert r[j] == w[j - 1];
          if i > 0 {
            assert r[i] == w[i - 1];
          }
        }
      }
    }
  }

  /** The `disconnect` handler: the socket and its settings go, the other
      sockets stay in their order. */
  function Disconnect(h: Hub, id: ClientId): (r: Hub)
    ensures Valid(h) ==> Valid(r)
    ensures id !in r.clients && id !in r.settings
    ensures forall other :: other != id ==> (other in r.clients <==> other in h.clients)
    ensures Valid(h) ==> ConnectedCount(r) == ConnectedCount(h) - (if id in h.clients then 1 else 0)
    ensures r.outbox == h.outbox && r.cache == h.cache
  {
    var r := h.(clients := Without(h.clients, id), settings := h.settings - {id});
    if Valid(h) then WithoutDistinct(h.clients, id); r else r
  }

  /** `getConnectedCount`. */
  function ConnectedCount(h: Hub): nat {
    |h.clients|
  }

  /** A socket that connects and leaves again leaves the count where it was. */
  lemma ConnectThenDisconnect(h: Hub, id: ClientId, now: int, load: Result<Snapshot, ReadError>)
    requires Valid(h) && id !in h.clients
    ensures ConnectedCount(Connect(h, id, now, load)) == ConnectedCount(h) + 1
    ensures ConnectedCount(Disconnect(Connect(h, id, now, load), id)) == ConnectedCount(h)
  {
  }

  /** The `fileChanged` handler: `clearCache`, then `broadcastData`. */
  function FileChanged(h: Hub, now: int, load: Result<Snapshot, ReadError>): (r: Hub)
    ensures r.clients == h.clients && r.settings == h.settings
    ensures |r.outbox| == |h.outbox| + |h.clients| && Recipients(r.outbox[|h.outbox|..]) == h.clients
  {
    Broadcast(h.(cache := ClearCache(h.cache)), h.clients, now, load)
  }

  /** While the cache is fresh a broadcast reads nothing: every recipient
      gets the cached snapshot processed with its own settings. */
  lemma {:induction false} BroadcastFromFresh(h: Hub, ids: seq<ClientId>, now: int, load: Result<Snapshot, ReadError>)
    requires Fresh(h.cache, now)
    ensures var r := Broadcast(h, ids, now, load);
            r.cache == h.cache && r.fileReads == h.fileReads
            && forall i :: 0 <= i < |ids| ==>
                 r.outbox[|h.outbox| + i] == Message(ids[i], ClinicDataMsg(h.cache.data.value, SettingsOf(h, ids[i])))
    decreases |ids|
  {
    if |ids| > 0 {
      var h' := Send(h, ids[0], now, load);
      BroadcastFromFresh(h', ids[1..], now, load);
      var r := Broadcast(h, ids, now, load);
      assert r == Broadcast(h', ids[1..], now, load);
      forall i | 0 <= i < |ids|
        ensures r.outbox[|h.outbox| + i]
                == Message(ids[i], ClinicDataMsg(h.cache.data.value, SettingsOf(h, ids[i])))
      {
        if i == 0 {
          assert r.outbox[..|h'.outbox|] == h'.outbox;
          assert r.outbox[|h.outbox|] == h'.outbox[|h.outbox|];
        } else {
          assert ids[1..][i - 1] == ids[i];
        }
      }
    }
  }

  /** A broadcast when the file reads well and the clock is not at 0:
      the first recipient causes one read, the cache then holds it, and
      every recipient gets that same snapshot processed with its own
      settings. */
  lemma BroadcastAfterRead(h: Hub, ids: seq<ClientId>, now: int, load: Result<Snapshot, ReadError>)
    requires !Fresh(h.cache, now) && now != 0
    requires load.Success?
    ensures var snapshot := load.value;
            var r := Broadcast(h, ids, now, load);
            r.fileReads == h.fileReads + (if |ids| == 0 then 0 else 1)
            && (|ids| > 0 ==> r.cache == Cache(Some(snapshot), Some(now)))
            && forall i :: 0 <= i < |ids| ==>
                 r.outbox[|h.outbox| + i] == Message(ids[i], ClinicDataMsg(snapshot, SettingsOf(h, ids[i])))
  {
    if |ids| > 0 {
      var snapshot := load.value;
      var h' := Send(h, ids[0], now, load);
      assert h'.cache == Cache(Some(snapshot), Some(now));
      assert Fresh(h'.cache, now);
      BroadcastFromFresh(h', ids[1..], now, load);
      var r := Broadcast(h, ids, now, load);
      assert r == Broadcast(h', ids[1..], now, load);
      forall i | 0 <= i < |ids|
        ensures r.outbox[|h.outbox| + i]
                == Message(ids[i], ClinicDataMsg(snapshot, SettingsOf(h, ids[i])))
      {
        if i == 0 {
          assert r.outbox[..|h'.outbox|] == h'.outbox;
          assert r.outbox[|h.outbox|] == h'.outbox[|h.outbox|];
        } else {
          assert ids[1..][i - 1] == ids[i];
        }
      }
    }
  }

  /** After a file change every subscriber is sent the new contents of the
      file, processed with its own settings, and the file is read once,
      however many subscribers there are. */
  lemma FileChangedSendsNewData(h: Hub, now: int, load: Result<Snapshot, ReadError>)
    requires now != 0 && load.Success?
    ensures var snapshot := load.value;
            var r := FileChanged(h, now, load);
            r.fileReads == h.fileReads + (if |h.clients| == 0 then 0 else 1)
            && forall i :: 0 <= i < |h.clients| ==>
                 r.outbox[|h.outbox| + i]
                 == Message(h.clients[i], ClinicDataMsg(snapshot, SettingsOf(h, h.clients[i])))
  {
    BroadcastAfterRead(h.(cache := ClearCache(h.cache)), h.clients, now, load);
  }

  /** A broadcast while the file cannot be read: every recipient gets the
      data error, each of them causes a read of its own, and the cache is
      left as it was. */
  lemma {:induction false} BroadcastReadFails(h: Hub, ids: seq<ClientId>, now: int, load: Result<Snapshot, ReadError>)
    requires !Fresh(h.cache, now) && load.Failure?
    ensures var r := Broadcast(h, ids, now, load);
            r.cache == h.cache && r.fileReads == h.fileReads + |ids|
            && forall i :: 0 <= i < |ids| ==> r.outbox[|h.outbox| + i] == Message(ids[i], DataError)
    decreases |ids|
  {
    if |ids| > 0 {
      var h' := Send(h, ids[0], now, load);
      assert h'.cache == h.cache;
      BroadcastReadFails(h', ids[1..], now, load);
      var r := Broadcast(h, ids, now, load);
      assert r == Broadcast(h', ids[1..], now, load);
      forall i | 0 <= i < |ids|
        ensures r.outbox[|h.outbox| + i] == Message(ids[i], DataError)
      {
        if i == 0 {
          assert r.outbox[..|h'.outbox|] == h'.outbox;
          assert r.outbox[|h.outbox|] == h'.outbox[|h.outbox|];
        } else {
          assert ids[1..][i - 1] == ids[i];
        }
      }
    }
  }

  /** After a file change that cannot be read every subscriber is sent the
      data error and nothing is cached. */
  lemma FileChangedReadFails(h: Hub, now: int, load: Result<Snapshot, ReadError>)
    requires load.Failure?
    ensures var r := FileChanged(h, now, load);
            r.cache == Empty && r.fileReads == h.fileReads + |h.clients|
            && forall i :: 0 <= i < |h.clients| ==> r.outbox[|h.outbox| + i] == Message(h.clients[i], DataError)
  {
    BroadcastReadFails(h.(cache := ClearCache(h.cache)), h.clients, now, load);
  }

  /** A new subscriber sees the data at once, with the default settings:
      no cancelled patients and names in clear. */
  lemma ConnectSendsData(h: Hub, id: ClientId, now: int, load: Result<Snapshot, ReadError>)
    requires Fresh(h.cache, now)
    ensures var m := Connect(h, id, now, load).outbox[|h.outbox|];
            m == Message(id, ClinicDataMsg(h.cache.data.value, DefaultSettings))
            && forall p :: p in Body(m.payload).patients ==> p.status != Cancelled && p in h.cache.data.value.patients
  {
    CancelledHidden(h.cache.data.value, DefaultSettings);
    PrivacyApplied(h.cache.data.value, DefaultSettings);
  }

  /** `Boolean()` of the string "false" is true: a subscriber that sends
      the text "false" turns the flag on. */
  lemma StringFalseTurnsOn(h: Hub, id: ClientId, now: int, load: Result<Snapshot, ReadError>)
    requires id in h.clients
    ensures SettingsOf(UpdateSettings(h, id, Str("false"), Number(0), now, load), id) == Settings(true, false)
  {
  }
}

=== FILE: socket_service.dfy ===
/** What the backend sends one subscriber (`processData` and its helpers in
    backend/services/socketService.js): the day's list with cancelled
    patients left out unless asked for, names and national ids hidden in
    privacy mode, sorted by status and queue number, and counters computed
    over the whole list. */
module SocketService {
  import opened Common
  import opened JsText
  import opened Patients
  import opened Statistics
  import opened DbfCache

  /** A subscriber's `settings`. */
  datatype Settings = Settings(showCancelled: bool, privacyMode: bool)

  /** The settings a new connection starts with. */
  const DefaultSettings := Settings(false, false)

  /** The two characters that replace all but the first of a name. */
  const MaskTail := "○○"

  /** What `maskName` may return. */
  predicate IsMasked(n: string) {
    n == "***" || (|n| == 3 && n[1..] == MaskTail)
  }

  /** `maskName`: `***` for an empty name, otherwise the first character
      followed by two circles. */
  function MaskName(name: string): (r: string)
    ensures |r| == 3 && IsMasked(r)
    ensures name != [] ==> r[0] == name[0]
  {
    if name == [] then "***" else [name[0]] + MaskTail
  }

  /** Two names get the same mask exactly when both are empty or they share
      their first character: nothing past the first character shows. */
  lemma MaskRevealsFirstOnly(a: string, b: string)
    ensures MaskName(a) == MaskName(b) <==> (a == [] && b == []) || (a != [] && b != [] && a[0] == b[0])
  {
    if a == [] && b != [] {
      assert MaskName(a)[1] != MaskName(b)[1];
    } else if a != [] && b == [] {
      assert MaskName(a)[1] != MaskName(b)[1];
    } else if a != [] && b != [] && MaskName(a) == MaskName(b) {
      assert MaskName(a)[0] == MaskName(b)[0];
    }
  }

  /** The privacy map `{ ...p, name: maskName(p.name), idNumber: '' }`. */
  function Mask(p: Patient): (r: Patient)
    ensures IsMasked(r.name) && r.idNumber == ""
    ensures r.(name := p.name, idNumber := p.idNumber) == p
  {
    p.(name := MaskName(p.name), idNumber := "")
  }

  function MaskAll(ps: seq<Patient>): seq<Patient> {
    seq(|ps|, i requires 0 <= i < |ps| => Mask(ps[i]))
  }

  /** The `statusPriority` table with its `|| 99` default: in consultation,
      waiting, booked, cancelled, finished, then anything else. */
  function Priority(status: string): (r: int)
    ensures r == 99 <==> status !in ["1", "0", Scheduled, Cancelled, Finished]
  {
    if status == "1" then 1
    else if status == "0" then 2
    else if status == Scheduled then 3
    else if status == Cancelled then 4
    else if status == Finished then 5
    else 99
  }

  /** The five statuses come in the order the table gives, and each has a
      rank of its own. */
  lemma PriorityOrder(s: string, t: string)
    ensures Priority("1") < Priority("0") < Priority(Scheduled) < Priority(Cancelled) < Priority(Finished) < Priority(s)
            || s in ["1", "0", Scheduled, Cancelled, Finished]
    ensures Priority(s) == Priority(t) && Priority(s) != 99 ==> s == t
  {
  }

  /** `parseInt(queueNumber) || 0`: the number the text starts with, and 0
      when it starts with none. */
  function QueueKey(q: string): int {
    match ParseInt(q, true)
    case Some(v) => v
    case None => 0
  }

  /** A queue number written as an integer sorts by that integer. */
  lemma QueueKeyOfInt(n: int)
    ensures QueueKey(IntToString(n)) == n
  {
    ParseIntOfIntToString(n, true);
  }

  /** A queue number with no digits sorts as 0. */
  lemma QueueKeyOfEmpty()
    ensures QueueKey("") == 0 && QueueKey("   ") == 0
  {
    assert TrimStart("") == "";
    assert TrimStart("   ") == "" by {
      assert TrimStart("   ") == TrimStart("  ") == TrimStart(" ") == TrimStart("");
    }
  }

  /** What the comparator of `sortPatients` looks at. */
  datatype SortKey = SortKey(priority: int, queue: int)

  function PatientKey(p: Patient): SortKey {
    SortKey(Priority(p.status), QueueKey(p.queueNumber))
  }

  /** `a` may come before `b`: lower priority rank, or the same rank and a
      queue number no larger. */
  predicate Before(a: SortKey, b: SortKey) {
    a.priority < b.priority || (a.priority == b.priority && a.queue <= b.queue)
  }

  /** The comparator `sortPatients` hands to `Array.prototype.sort`. */
  function Compare(a: Patient, b: Patient): int {
    var pa := Priority(a.status);
    var pb := Priority(b.status);
    if pa != pb then pa - pb else QueueKey(a.queueNumber) - QueueKey(b.queueNumber)
  }

  /** The comparator puts `a` no later than `b` exactly when their keys
      are in order. */
  lemma CompareAgrees(a: Patient, b: Patient)
    ensures Compare(a, b) <= 0 <==> Before(PatientKey(a), PatientKey(b))
    ensures Compare(a, b) == 0 <==> PatientKey(a) == PatientKey(b)
  {
  }

  /** Every element precedes every later one. */
  predicate Sorted(s: seq<Patient>, key: Patient -> SortKey) {
    forall i, j :: 0 <= i < j < |s| ==> Before(key(s[i]), key(s[j]))
  }

  /** Places `x` in front of the first element whose key it does not
      exceed, so it stays ahead of elements with an equal key. */
  function Insert(x: Patient, s: seq<Patient>, key: Patient -> SortKey): (r: seq<Patient>)
    ensures |r| == |s| + 1
    ensures multiset(r) == multiset(s) + multiset{x}
  {
    if |s| == 0 || Before(key(x), key(s[0])) then [x] + s
    else
      assert s == [s[0]] + s[1..];
      [s[0]] + Insert(x, s[1..], key)
  }

  /** An element ahead of a sorted list whose keys it does not exceed
      keeps the list sorted. */
  lemma SortedCons(a: Patient, t: seq<Patient>, key: Patient -> SortKey)
    requires Sorted(t, key)
    requires forall y :: y in t ==> Before(key(a), key(y))
    ensures Sorted([a] + t, key)
  {
    var r := [a] + t;
    forall i, j | 0 <= i < j < |r|
      ensures Before(key(r[i]), key(r[j]))
    {
      assert r[j] == t[j - 1];
      if i > 0 {
        assert r[i] == t[i - 1];
      }
    }
  }

  lemma SortedTail(s: seq<Patient>, key: Patient -> SortKey)
    requires |s| > 0 && Sorted(s, key)
    ensures Sorted(s[1..], key)
    ensures forall y :: y in s[1..] ==> Before(key(s[0]), key(y))
  {
    forall y | y in s[1..]
      ensures Before(key(s[0]), key(y))
    {
      var k :| 0 <= k < |s[1..]| && s[1..][k] == y;
      assert s[k + 1] == y;
    }
  }

  lemma {:induction false} InsertSorted(x: Patient, s: seq<Patient>, key: Patient -> SortKey)
    requires Sorted(s, key)
    ensures Sorted(Insert(x, s, key), key)
  {
    if |s| == 0 {
    } else if Before(key(x), key(s[0])) {
      SortedTail(s, key);
      assert forall y :: y in s ==> y == s[0] || y in s[1..] by {
        assert s == [s[0]] + s[1..];
      }
      SortedCons(x, s, key);
    } else {
      SortedTail(s, key);
      var u := Insert(x, s[1..], key);
      InsertSorted(x, s[1..], key);
      forall y | y in u
        ensures Before(key(s[0]), key(y))
      {
        assert y in multiset(u);
        assert y == x || y in multiset(s[1..]);
      }
      SortedCons(s[0], u, key);
    }
  }

  /** Insertion sort from the back: each element goes in front of the
      already sorted rest, ahead of the elements with an equal key. */
  function Sort(s: seq<Patient>, key: Patient -> SortKey): (r: seq<Patient>)
    ensures |r| == |s|
    ensures multiset(r) == multiset(s)
    ensures Sorted(r, key)
  {
    if |s| == 0 then []
    else
      var rest := Sort(s[1..], key);
      InsertSorted(s[0], rest, key);
      assert s == [s[0]] + s[1..];
      Insert(s[0], rest, key)
  }

  /** The elements whose key is `k`, in their order. */
  function WithKey(s: seq<Patient>, key: Patient -> SortKey, k: SortKey): seq<Patient> {
    if |s| == 0 then []
    else (if key(s[0]) == k then [s[0]] else []) + WithKey(s[1..], key, k)
  }

  lemma WithKeyCons(a: Patient, s: seq<Patient>, key: Patient -> SortKey, k: SortKey)
    ensures WithKey([a] + s, key, k) == (if key(a) == k then [a] else []) + WithKey(s, key, k)
  {
    assert ([a] + s)[1..] == s;
  }

  /** Inserting `x` puts it ahead of every element with its key and moves
      no other element past one with an equal key. */
  lemma {:induction false} InsertWithKey(x: Patient, s: seq<Patient>, key: Patient -> SortKey, k: SortKey)
    ensures WithKey(Insert(x, s, key), key, k) == (if key(x) == k then [x] else []) + WithKey(s, key, k)
  {
    if |s| == 0 || Before(key(x), key(s[0])) {
      WithKeyCons(x, s, key, k);
    } else {
      var u := Insert(x, s[1..], key);
      InsertWithKey(x, s[1..], key, k);
      WithKeyCons(s[0], u, key, k);
      assert key(s[0]) != key(x);
      assert WithKey(s, key, k) == (if key(s[0]) == k then [s[0]] else []) + WithKey(s[1..], key, k);
    }
  }

  /** The sort is stable: patients with the same key leave it in the
      order they came in. */
  lemma {:induction false} SortStable(s: seq<Patient>, key: Patient -> SortKey, k: SortKey)
    ensures WithKey(Sort(s, key), key, k) == WithKey(s, key, k)
  {
    if |s| > 0 {
      SortStable(s[1..], key, k);
      InsertWithKey(s[0], Sort(s[1..], key), key, k);
    }
  }

  /** `sortPatients`: every patient the comparator puts first comes first. */
  function SortPatients(ps: seq<Patient>): (r: seq<Patient>)
    ensures multiset(r) == multiset(ps)
    ensures forall i, j :: 0 <= i < j < |r| ==> Compare(r[i], r[j]) <= 0
  {
    var r := Sort(ps, PatientKey);
    forall i, j | 0 <= i < j < |r|
      ensures Compare(r[i], r[j]) <= 0
    {
      CompareAgrees(r[i], r[j]);
    }
    r
  }

  /** The object `processData` returns. */
  datatype ClinicData = ClinicData(patients: seq<Patient>, statistics: Stats, timestamp: string, settings: Settings)

  /** The list after the cancelled filter. */
  function Visible(ps: seq<Patient>, s: Settings): seq<Patient> {
    if s.showCancelled then ps else Filter(ps, StatusIsNot(Cancelled))
  }

  /** The list after the cancelled filter and the privacy map. */
  function Shown(ps: seq<Patient>, s: Settings): seq<Patient> {
    if s.privacyMode then MaskAll(Visible(ps, s)) else Visible(ps, s)
  }

  /** `processData`: the shown list in comparator order, the counters of
      the whole list, the snapshot's time stamp and the settings used. */
  function ProcessData(raw: Snapshot, s: Settings): (r: ClinicData)
    ensures multiset(r.patients) == multiset(Shown(raw.patients, s))
    ensures forall i, j :: 0 <= i < j < |r.patients| ==> Compare(r.patients[i], r.patients[j]) <= 0
    ensures r.timestamp == raw.timestamp && r.settings == s
  {
    ClinicData(SortPatients(Shown(raw.patients, s)), Calculate(raw.patients), raw.timestamp, s)
  }

  /** Without `showCancelled` no cancelled patient is sent; the list has
      as many patients as the day's list less the ones left out. */
  lemma CancelledHidden(raw: Snapshot, s: Settings)
    ensures !s.showCancelled ==> forall p :: p in ProcessData(raw, s).patients ==> p.status != Cancelled
    ensures |ProcessData(raw, s).patients|
            == |raw.patients| - (if s.showCancelled then 0 else Count(raw.patients, StatusIs(Cancelled)))
  {
    var r := ProcessData(raw, s).patients;
    var v := Visible(raw.patients, s);
    StatusPartition(raw.patients);
    assert |r| == |multiset(r)| == |multiset(Shown(raw.patients, s))| == |Shown(raw.patients, s)| == |v|;
    if !s.showCancelled {
      forall p | p in r
        ensures p.status != Cancelled
      {
        assert p in multiset(Shown(raw.patients, s));
        if s.privacyMode {
          var i :| 0 <= i < |v| && MaskAll(v)[i] == p;
          assert Meets(v[i], StatusIsNot(Cancelled));
        } else {
          var i :| 0 <= i < |v| && v[i] == p;
          assert Meets(v[i], StatusIsNot(Cancelled));
        }
      }
    }
  }

  /** In privacy mode every name is masked and every id blank; otherwise
      every record goes out as read. */
  lemma PrivacyApplied(raw: Snapshot, s: Settings)
    ensures s.privacyMode ==> forall p :: p in ProcessData(raw, s).patients ==> IsMasked(p.name) && p.idNumber == ""
    ensures !s.privacyMode ==> forall p :: p in ProcessData(raw, s).patients ==> p in raw.patients
  {
    var r := ProcessData(raw, s).patients;
    var v := Visible(raw.patients, s);
    if !s.showCancelled {
      FilterMembers(raw.patients, StatusIsNot(Cancelled));
    }
    forall p | p in r
      ensures s.privacyMode ==> IsMasked(p.name) && p.idNumber == ""
      ensures !s.privacyMode ==> p in raw.patients
    {
      assert p in multiset(Shown(raw.patients, s));
      if s.privacyMode {
        var i :| 0 <= i < |v| && MaskAll(v)[i] == p;
        assert p == Mask(v[i]);
      } else {
        assert p in v;
      }
    }
  }

  /** Nothing is lost on the way: every patient the settings let through
      is sent, masked in privacy mode. */
  lemma EveryVisibleSent(raw: Snapshot, s: Settings, p: Patient)
    requires p in raw.patients && (s.showCancelled || p.status != Cancelled)
    ensures (if s.privacyMode then Mask(p) else p) in ProcessData(raw, s).patients
  {
    var r := ProcessData(raw, s).patients;
    var v := Visible(raw.patients, s);
    if !s.showCancelled {
      FilterMembers(raw.patients, StatusIsNot(Cancelled));
    }
    assert p in v;
    var i :| 0 <= i < |v| && v[i] == p;
    var q := if s.privacyMode then Mask(p) else p;
    assert Shown(raw.patients, s)[i] == q;
    assert q in multiset(Shown(raw.patients, s));
    assert q in multiset(r);
  }

  /** The counters sent agree with the list sent, whatever the settings:
      dropping cancelled patients, masking and sorting change none of
      them. */
  lemma StatisticsMatchShownList(raw: Snapshot, s: Settings)
    ensures Calculate(ProcessData(raw, s).patients) == ProcessData(raw, s).statistics
  {
    var v := Visible(raw.patients, s);
    var shown := Shown(raw.patients, s);
    StatisticsPermutation(ProcessData(raw, s).patients, shown);
    if s.privacyMode {
      StatisticsSameStatuses(shown, v);
    }
    if !s.showCancelled {
      StatisticsWithoutCancelled(raw.patients);
    }
  }

  /** The counters cover the whole day's list: no setting changes them. */
  lemma StatisticsIgnoreSettings(raw: Snapshot, s: Settings, t: Settings)
    ensures ProcessData(raw, s).statistics == ProcessData(raw, t).statistics == Calculate(raw.patients)
  {
  }

  /** Patients that share a status and a queue number reach the subscriber
      in the order the table holds them. */
  lemma ProcessDataStable(raw: Snapshot, s: Settings, k: SortKey)
    ensures WithKey(ProcessData(raw, s).patients, PatientKey, k) == WithKey(Shown(raw.patients, s), PatientKey, k)
  {
    SortStable(Shown(raw.patients, s), PatientKey, k);
  }
}

=== FILE: statistics.dfy ===
/** The four queue counters. The backend computes them over the whole day's
    list (backend/services/socketService.js) and the frontend recomputes them
    over the session it shows (frontend/src/App.jsx), with the same formulas. */
module Statistics {
  import opened Patients

  datatype Stats = Stats(notArrived: nat, total: nat, completed: nat, waiting: nat)

  /** Counters of an empty list: the store's initial value. */
  const Zero := Stats(0, 0, 0, 0)

  /** Still to be seen: neither booked-not-arrived, finished nor cancelled. */
  const Waiting := StatusNoneOf([Scheduled, Finished, Cancelled])

  /** `calculateStatistics`: notArrived counts E, total counts everything
      but H, completed counts F, waiting counts what is none of E, F, H.
      Every patient falls in exactly one of notArrived, completed, waiting
      or cancelled, and total is everyone who did not cancel. */
  function Calculate(ps: seq<Patient>): (r: Stats)
    ensures r.notArrived + r.completed + r.waiting + Count(ps, StatusIs(Cancelled)) == |ps|
    ensures r.total + Count(ps, StatusIs(Cancelled)) == |ps|
    ensures r.total == r.notArrived + r.completed + r.waiting
  {
    StatusPartition(ps);
    Stats(Count(ps, StatusIs(Scheduled)), Count(ps, StatusIsNot(Cancelled)),
          Count(ps, StatusIs(Finished)), Count(ps, Waiting))
  }

  /** Each patient is counted by exactly one of E, F, waiting and H, and by
      exactly one of H and not-H. */
  lemma {:induction false} StatusPartition(ps: seq<Patient>)
    ensures Count(ps, StatusIs(Scheduled)) + Count(ps, StatusIs(Finished)) + Count(ps, Waiting)
            + Count(ps, StatusIs(Cancelled)) == |ps|
    ensures Count(ps, StatusIsNot(Cancelled)) + Count(ps, StatusIs(Cancelled)) == |ps|
  {
    if |ps| > 0 {
      StatusPartition(ps[1..]);
      CountStep(ps, StatusIs(Scheduled));
      CountStep(ps, StatusIs(Finished));
      CountStep(ps, Waiting);
      CountStep(ps, StatusIs(Cancelled));
      CountStep(ps, StatusIsNot(Cancelled));
      StatusShare(ps[0]);
    }
  }

  /** One patient meets exactly one of E, F, waiting and H. */
  lemma StatusShare(p: Patient)
    ensures (if Meets(p, StatusIs(Scheduled)) then 1 else 0) + (if Meets(p, StatusIs(Finished)) then 1 else 0)
            + (if Meets(p, Waiting) then 1 else 0) + (if Meets(p, StatusIs(Cancelled)) then 1 else 0) == 1
    ensures (if Meets(p, StatusIsNot(Cancelled)) then 1 else 0) + (if Meets(p, StatusIs(Cancelled)) then 1 else 0) == 1
  {
    assert Scheduled != Finished && Scheduled != Cancelled && Finished != Cancelled by {
      assert Scheduled[0] != Finished[0] && Scheduled[0] != Cancelled[0] && Finished[0] != Cancelled[0];
    }
  }

  /** What one patient adds to each counter: a booked patient counts as
      not arrived, a finished one as completed, a cancelled one nowhere,
      and any other status as waiting; all but the cancelled count in the
      total. With `StatisticsAppend` this fixes the counters of any list. */
  lemma StatisticsOfOne(p: Patient)
    ensures p.status == Scheduled ==> Calculate([p]) == Stats(1, 1, 0, 0)
    ensures p.status == Finished ==> Calculate([p]) == Stats(0, 1, 1, 0)
    ensures p.status == Cancelled ==> Calculate([p]) == Zero
    ensures p.status !in {Scheduled, Finished, Cancelled} ==> Calculate([p]) == Stats(0, 1, 0, 1)
  {
    assert Scheduled != Finished && Scheduled != Cancelled && Finished != Cancelled by {
      assert Scheduled[0] != Finished[0] && Scheduled[0] != Cancelled[0] && Finished[0] != Cancelled[0];
    }
    assert [p][1..] == [];
  }

  function Plus(a: Stats, b: Stats): Stats {
    Stats(a.notArrived + b.notArrived, a.total + b.total, a.completed + b.completed, a.waiting + b.waiting)
  }

  /** The counters of two lists put together are the sums of their counters. */
  lemma StatisticsAppend(a: seq<Patient>, b: seq<Patient>)
    ensures Calculate(a + b) == Plus(Calculate(a), Calculate(b))
  {
    FilterAppend(a, b, StatusIs(Scheduled));
    FilterAppend(a, b, StatusIsNot(Cancelled));
    FilterAppend(a, b, StatusIs(Finished));
    FilterAppend(a, b, Waiting);
  }

  /** The counters do not depend on the order of the list. */
  lemma StatisticsPermutation(a: seq<Patient>, b: seq<Patient>)
    requires multiset(a) == multiset(b)
    ensures Calculate(a) == Calculate(b)
  {
    CountPermutation(a, b, StatusIs(Scheduled));
    CountPermutation(a, b, StatusIsNot(Cancelled));
    CountPermutation(a, b, StatusIs(Finished));
    CountPermutation(a, b, Waiting);
  }

  /** The counters see the statuses only. */
  lemma StatisticsSameStatuses(a: seq<Patient>, b: seq<Patient>)
    requires |a| == |b| && forall i :: 0 <= i < |a| ==> a[i].status == b[i].status
    ensures Calculate(a) == Calculate(b)
  {
    CountSameStatuses(a, b, StatusIs(Scheduled));
    CountSameStatuses(a, b, StatusIsNot(Cancelled));
    CountSameStatuses(a, b, StatusIs(Finished));
    CountSameStatuses(a, b, Waiting);
  }

  /** Leaving out the cancelled patients changes none of the counters. */
  lemma StatisticsWithoutCancelled(ps: seq<Patient>)
    ensures Calculate(Filter(ps, StatusIsNot(Cancelled))) == Calculate(ps)
  {
    var h := StatusIsNot(Cancelled);
    CountAfterWeakerFilter(ps, StatusIs(Scheduled), h);
    CountAfterWeakerFilter(ps, h, h);
    CountAfterWeakerFilter(ps, StatusIs(Finished), h);
    CountAfterWeakerFilter(ps, Waiting, h);
  }
}
